=== FILE: README.md ===
# ai-tutor: a Dafny model of the retrieval tutor's core

The ai-tutor answers students' questions about textbook chapters. A page lets
the student pick a board, a class, a subject and a chapter, which names a PDF
in a Google Cloud Storage bucket (`gs://rag-project-storagebucket/...`). The
back end downloads that PDF and splits it into one text chunk per page. It
caches the chunks in a JSON file whose name is derived from the path. To answer
a question it ranks the cached chunks by embedding similarity, joins the best
three into a context, and asks a Gemini model for an answer.

There are two back ends, each with its own page:

- `chat.py` is a Flask blueprint with `/api/chat/submit-path` and `/api/chat/ask`, served to `static/chat.js`;
- `app.py` is a standalone app with `/submit-path` and `/ask`, served to `static/script.js`.

The model covers the decision logic of both back ends and the pure parts of both pages.
Every route is a pure function from the request fields, the chunk cache (a map from
file name to chunk list) and four oracles to a reply and the new cache. The oracles are:

- the object store: `ObjectStore`, saying which objects exist and their bytes;
- the PDF text extractor: `PdfReader`, giving the page texts or nothing;
- the sentence embedder: `Embedder`, saying whether `encode` succeeds and giving the dot product of two texts;
- the text generator: `string -> string`.

Modules, in dependency order:

| file | module | what it models |
|---|---|---|
| wrappers.dfy | `Wrappers` | `Option`, `Result`, Python's truth test on a request field |
| strings.dfy | `Strings` | Python `split`/`join`/`replace`/`strip`/`lower`/`upper`; JavaScript `trim` |
| chunk_key.dfy | `ChunkKey` | parsing a `gs://` path; the two back ends' cache-file names |
| pdf_loader.dfy | `PdfLoader` | chat.py's seven-spelling object lookup |
| chunker.dfy | `Chunker` | one chunk per page with text, in page order |
| chunk_store.dfy | `ChunkStore` | the chunk cache, with app.py's `store_chunks` / `load_chunks` |
| ranking.dfy | `Ranking` | the three descending sorts on similarity, top-k, the positive-score filter with its fallback |
| context.dfy | `Context` | joining the ranked chunks into the context; the prompt layout |
| chat_backend.dfy | `ChatBackend` | chat.py `submit_path`, `ask`, `generate_answer` |
| app_backend.dfy | `AppBackend` | app.py `submit_path`, `ask`, `generate_answer` |
| chat_ui.dfy | `ChatUi` | chat.js: selection cascade, submit gate, option lists, path, `sendMessage` guard, history sidebar, chat pane and scrolling |
| script_ui.dfy | `ScriptUi` | script.js: setters, path, `submitPath` and `askQuestion` guards, `formatText`, `cleanText`, `displayBotMessage` |

Python's `list.sort(reverse=True)` is stable. All three rankings are therefore one
insertion sort under a strict total order on `(score, index, text)` entries. The
orders differ only in how equal scores are broken:

- chat.py sorts on the score alone, so the earlier chunk wins a tie;
- app.py sorts `(score, chunk)` tuples, so the greater text wins a tie.

Scores are integers in the model.

## Model

| member | source | states |
|---|---|---|
| Strings.Split | chat.py:180-182 | `split('/')` yields one more part than there are separators, and no part holds the separator |
| Strings.JoinSplit | chat.py:79 | `'/'.join(s.split('/'))` gives `s` back for every string |
| Strings.SplitJoin | chat.py:182 | splitting the `'/'`-join of separator-free parts gives those parts back |
| Strings.ReplaceChar | chat.py:183 | a one-character `replace` keeps the length, changes exactly the matching positions and leaves no occurrence of the replaced character |
| Strings.RemoveChar | chat.py:183 | `replace(' ', '')` removes exactly the spaces: the length drops by their count and every other character keeps its multiplicity |
| Strings.RemoveCharKeepsOrder | chat.py:183 | the kept characters stay in order: a non-space character at `i` lands at `i` minus the number of spaces before it |
| Strings.ReplaceAll | chat.py:194-195 | `replace(pat, rep)` with an equally long replacement keeps the length |
| Strings.ReplaceAllAbsent | chat.py:194-195 | a pattern that never occurs leaves the text unchanged |
| Strings.ReplaceAllFirst | chat.py:194-195 | the text before the first occurrence is kept, that occurrence becomes the replacement, and the replacing resumes just after it |
| Strings.ReplaceAllWindows | chat.py:194-195 | for an equally long pattern that cannot overlap itself, every position inside an occurrence gets the replacement's character at the same offset and every other position keeps its character |
| Strings.AsciiLower | chat.py:196 | `lower()` keeps the length, turns each ASCII upper-case letter into its lower-case letter and keeps every other character |
| Strings.AsciiUpper | chat.py:197 | `upper()` keeps the length, turns each ASCII lower-case letter into its upper-case letter and keeps every other character |
| Strings.Strip | chat.py:279 | `strip()` never lengthens the text, and its result neither starts nor ends with whitespace |
| Strings.StripIsInfix | chat.py:279 | `strip()` yields a contiguous infix of the input and removes only whitespace around it |
| Strings.StripClean | chat.py:279 | a text with no whitespace at either end comes back from `strip()` unchanged |
| Strings.StripEmptyIff | chat.py:137-139 | a string strips to the empty string exactly when it is all whitespace |
| Strings.Preview | chat.py:133 | the text up to `n` characters unchanged; a longer text becomes its first `n` characters followed by "..." |
| ChunkKey.ParseLocation | chat.py:78-79 | the location exists exactly when the path has at least two `/`; the bucket holds no `/` |
| ChunkKey.ParseGsPath | app.py:119-120 | `gs://bucket/file` parses back to exactly `bucket` and `file`, whatever `/` the file holds |
| ChunkKey.ChatChunksPath | chat.py:178-183 | the chat.py cache name exists exactly when the path has at least two `/` (otherwise `parts[2]` raises) |
| ChunkKey.ChatFilePart | chat.py:183 | the file part of the chat.py cache name has neither `/` nor space and is no longer than the file path |
| ChunkKey.AppChunksFilename | app.py:48 | the app.py cache name is bucket, `_`, the file path with `/` as `_`, then `_chunks.json` |
| ChunkKey.ChatKeyShape | chat.py:178-183 | for a front-end path, the chat.py name keeps the bucket verbatim and adds a file part free of `/` and spaces |
| ChunkKey.KeysAgreeIffNoSpace | chat.py:183 | the chat.py and app.py cache names of a location coincide exactly when its file path holds no space |
| ChunkKey.ChatKeyIgnoresSpaces | chat.py:183 | the chat.py name cannot tell `x y` from `xy`: both map to one cache file |
| ChunkKey.AppKeyConflatesSlash | app.py:48 | the app.py name cannot tell `x/y` from `x_y`: both map to one cache file |
| PdfLoader.PathVariations | chat.py:190-198 | seven spellings in priority order, each stated character by character: exact; with ".pdf"; spaces as `_`; every "Chapter " occurrence as "Chapter_"; every "Class " occurrence as "class_"; ASCII lower case; ASCII upper case |
| PdfLoader.FirstExisting | chat.py:200-203 | the first index the store holds, with none before it; nothing exactly when no spelling exists |
| PdfLoader.LoadPdfFromGcs | chat.py:185-208 | FileNotFoundError, listing the seven spellings, exactly when none exists; otherwise the bytes of the first one that exists |
| PdfLoader.ExactPathWins | chat.py:190-203 | when the exact path exists its bytes are returned and no other spelling matters |
| PdfLoader.OnlyVariationsMatter | chat.py:200-208 | two stores that agree on the seven spellings give the same result |
| Chunker.SplitPdfIntoChunks | chat.py:210-214 | the chunks are exactly the non-empty page texts, no more of them than pages |
| Chunker.ChunksOfPdf | chat.py:210-214 | no chunks exactly when the reader rejects the bytes; otherwise the non-empty page texts |
| Chunker.ChunksArePageTexts | chat.py:214 | chunk `j` is the text of the `j`-th non-empty page: page order kept, one chunk per non-empty page |
| Chunker.ChunksOfConcat | chat.py:214 | chunking two runs of pages chunks each run in turn |
| Chunker.ChunksOfTextPages | chat.py:214 | pages that all hold text are returned unchanged |
| Chunker.ChunkingIdempotent | chat.py:214 | chunking the chunks changes nothing |
| Chunker.AppSplitPdfIntoChunks | app.py:33-43 | app.py's page loop builds exactly chat.py's chunk list |
| ChunkStore.Get | app.py:56-62 | reading a cache file: its chunks when it exists, `None` otherwise |
| ChunkStore.Put | chat.py:216-219 | writing a cache file: it now holds the chunks and every other file is untouched |
| ChunkStore.StoreChunks | app.py:46-51 | `store_chunks` creates or overwrites one file, named by the app.py key: that file then holds the given chunks and every other file reads as before |
| ChunkStore.LoadChunks | app.py:54-62 | `load_chunks` is `None` exactly when no file has the app.py key |
| ChunkStore.LoadAfterStore | app.py:46-62 | what `store_chunks` wrote, `load_chunks` of the same location reads back |
| ChunkStore.LoadOtherAfterStore | app.py:46-62 | after a store, another location reads the new chunks exactly when its key coincides, and otherwise reads what it read before |
| ChunkStore.LoadNeverStored | app.py:61-62 | an empty cache loads nothing |
| Ranking.TextBelowTotal | app.py:74 | Python's string `<` is total on distinct strings |
| Ranking.TextBelowTransitive | app.py:74 | Python's string `<` is transitive |
| Ranking.BeforeTransitive | chat.py:174 | the sort order on entries is transitive under either tie-break |
| Ranking.BeforeTotal | chat.py:174 | any two entries of distinct chunks are ordered one way or the other |
| Ranking.Sort | chat.py:174 | the sort is a permutation of the scored chunks |
| Ranking.SortSorted | chat.py:174 | the sort leaves entries of distinct chunks in strictly increasing sort order |
| Ranking.Top | chat.py:175 | `[:top_k]` keeps `min(k, n)` of the sorted entries |
| Ranking.TopOrdered | chat.py:174-175 | the kept entries are sorted and come before every entry left out |
| Ranking.Entries | chat.py:168-171 | chunk `i` is scored by the similarity of its embedding with the query's, at position `i` |
| Ranking.Encoded | chat.py:228-235 | the chunks kept are exactly those whose encoding does not raise |
| Ranking.Positive | chat.py:241 | the entries kept are exactly those with a positive score, none when no score is positive |
| Ranking.RankedFacts | chat.py:163-175 | the ranked entries are sorted, are chunks paired with their own scores, and every chunk kept fewer times than the chunk list holds it (each duplicate page counts as its own copy) scores no higher than the last one kept |
| Ranking.RetrieveWithScores | chat.py:163-175 | an error exactly when an encoding raises; otherwise `min(3, n)` pairs of chunk and score, no chunk more often than in the input, scores non-increasing, and a chunk returned fewer times than the input holds it (a copy left out) scores no higher than the last one kept |
| Ranking.RetrieveWithScoresStable | chat.py:174 | the returned pairs are the ranked entries' texts and scores, and equal scores keep chunk order: the earlier chunk comes first |
| Ranking.RankedTextsSubMultiset | chat.py:174-175 | sorting and cutting to `top_k` never repeats a chunk: the ranked texts are a sub-multiset of the chunks |
| Ranking.BestChunkFirst | chat.py:174-175 | a chunk scoring strictly above every other is returned first |
| Ranking.RetrieveRelevantChunks | chat.py:221-253 | at most `top_k` chunks, none more often than in the document; the first `top_k` chunks when the query fails to encode or no encodable chunk scores above zero; otherwise, for `top_k >= 1`, exactly the relevant texts |
| Ranking.RelevantTexts | chat.py:226-241 | at most `min(top_k, n)` texts, none more often than in the chunks, each a chunk that encodes and scores above zero, in non-increasing score order; copies are counted, so an encodable chunk returned fewer times than the chunks hold it scores no higher than the last one kept, and if it scores above zero then `top_k` texts were kept |
| Ranking.RelevantStable | chat.py:237-241 | the relevant texts are the texts of entries that each sit at their own chunk's position, ordered by score with equal scores in chunk order, as the stable `sort(reverse=True)` leaves them |
| Ranking.NoPositiveMeansFallback | chat.py:241-246 | when no encodable chunk scores above zero the relevant list is empty, so the fallback is taken |
| Ranking.PositiveMeansRelevant | chat.py:241-246 | when some encodable chunk scores above zero and `top_k >= 1`, the relevant list is not empty |
| Ranking.FallbackIffNoPositive | chat.py:241-246 | with a query that encodes, the fallback is taken exactly when no encodable chunk scores above zero |
| Ranking.TextDescendingOrder | app.py:74 | in app.py's tuple order, of two entries with equal scores the earlier one's text is not below the later one's |
| Ranking.AppRetrieve | app.py:65-77 | an error exactly when an encoding raises; otherwise `min(3, n)` chunks, none more often than in the input, scores non-increasing, equal scores by text descending, and a chunk returned fewer times than the input holds it (a copy left out) scores no higher than the last one kept |
| Ranking.AppRetrieveRanked | app.py:65-77 | by position: the result is the texts of the top `top_k` entries, ordered by score, then text descending, then chunk order (how `sorted` breaks a full tie of `(score, chunk)` tuples), and every chunk position left out comes after the last one kept |
| Ranking.AppKeepsDuplicateCopies | app.py:65-77 | with chunks `a, b, a` and `a` scoring above `b`, the top two are both copies of `a` |
| Context.Flattened | chat.py:137 | `replace("\n", " ")` turns every newline of every chunk into a space and keeps every other character in place |
| Context.JoinContext | chat.py:137 | the context is the space-join of the flattened chunks with only whitespace cut from either end, so it holds no newline and has no edge whitespace |
| Context.JoinContextOfCleanChunks | app.py:189 | for chunks without newline whose space-join has no edge whitespace, the context is exactly that join |
| Context.ContextEmptyIff | chat.py:137-139 | the context is empty exactly when every ranked chunk is whitespace only |
| Context.ContextOfOneWord | app.py:189 | the context of one chunk without whitespace is that chunk |
| Context.Prompt | chat.py:262-276 | the prompt is the fixed head, the context, the question label, the question, the fixed tail, each at a known offset with the label in its slot |
| Context.PromptInjective | chat.py:262-276 | with equally long contexts, two prompts agree exactly when context and question agree |
| ChatBackend.SubmitStatus | chat.py:63-101 | 200 exactly for a cached or a freshly processed PDF, 400 exactly for a missing path, 404 exactly when no spelling exists, 500 exactly for any other failure |
| ChatBackend.SubmitPath | chat.py:55-101 | the missing-path reply exactly when the path is missing or empty; cached exactly when the chat.py key is in the cache; on a miss, the loader's error when no spelling exists, the page texts cached under the key when the PDF reads, and a failure when it does not; the cache changes only on processing, by adding that one key with the chunk count reported |
| ChatBackend.ProcessedCachesPageTexts | chat.py:78-91 | what a first submit caches are the non-empty page texts of the first spelling found |
| ChatBackend.SubmitIdempotent | chat.py:70-75 | a second submit of a path that succeeded reuses the cache and changes nothing |
| ChatBackend.CachedSubmitIgnoresStorage | chat.py:70-75 | a cached path is answered without the object store or the PDF reader |
| ChatBackend.GenerateAnswer | chat.py:255-279 | the fixed apology when context or question is empty; otherwise the generator's reply to the prompt, stripped |
| ChatBackend.GuardSkipsGenerator | chat.py:258-259 | with an empty context or question the generator is not consulted |
| ChatBackend.AskStatus | chat.py:112-161 | 200 exactly for an answer; 400 exactly for missing input; 404 exactly for missing chunks or an empty context; 500 exactly for a failure |
| ChatBackend.DebugChunks | chat.py:130-135 | one debug entry per ranked chunk with its score, the text cut to 200 characters plus "..." |
| ChatBackend.AnswerFrom | chat.py:137-157 | 404 "No relevant context found" exactly when the ranked chunks are all whitespace; an answer is `generate_answer` of the joined context of the ranked chunks, reported with that context's preview; the question and the debug list in either reply |
| ChatBackend.Ask | chat.py:104-161 | 400 exactly when path or question is missing or empty; 404 "Chunks not found" exactly when the chat.py key is not cached; the debug list holds at most three previews |
| ChatBackend.AnsweredUsesGenerator | chat.py:137-157 | an answered question carries the stripped generator reply to the prompt holding the non-empty joined context of the top three cached chunks, and that context's 500-character preview |
| ChatBackend.UncachedAskIgnoresModels | chat.py:115-121 | a question about an uncached path is refused before any embedding or generation |
| ChatBackend.NoContextIgnoresGenerator | chat.py:139-146 | the 404 for an empty context does not depend on the generator |
| ChatBackend.NoContextIff | chat.py:137-146 | with the path cached and every embedding working, the reply is 404 exactly when the top three chunks are all whitespace |
| ChatBackend.SubmitThenAsk | chat.py:70-91 | after a successful submit, asking about the same path never gets "Chunks not found" |
| AppBackend.LoadPdf | app.py:25-30 | the object at exactly the given path; nothing when it does not exist |
| AppBackend.ExactLoadAgrees | app.py:25-30 | when app.py finds the object, chat.py's search finds the same bytes |
| AppBackend.Divide | app.py:128-132 | chunks exactly when the object exists and is readable, and then its non-empty page texts |
| AppBackend.SubmitStatus | app.py:116-152 | 200 exactly for freshly or already divided chunks, 400 exactly for a missing path, 500 exactly for a failure |
| AppBackend.SubmitPath | app.py:110-152 | the missing-path reply exactly when the path is missing or empty; the cached chunks exactly when `load_chunks` finds them; on a miss, the divided chunks whenever the object exists and reads, a failure otherwise; the cache changes only on a fresh division, by `store_chunks` of the divided chunks |
| AppBackend.SubmitIdempotent | app.py:123-148 | a second submit returns the same chunks from the cache and changes nothing |
| AppBackend.AskStatus | app.py:161-200 | 200 exactly for an answer or for a fresh division, 400 exactly for missing input, 500 exactly for a failure |
| AppBackend.GenerateAnswer | app.py:80-98 | the generator's reply to app.py's prompt, stripped, whatever the context: no edge whitespace and never longer than the reply |
| AppBackend.GenerateAnswerKeepsCleanReply | app.py:97 | a generator reply without edge whitespace is returned unchanged |
| AppBackend.GenerateAnswerVersusChat | app.py:79-97 | where chat.py apologises for an empty context, app.py asks the generator anyway; otherwise both strip the generator's reply to their own prompt, and agree when the replies agree |
| AppBackend.AnswerFrom | app.py:185-196 | answered exactly when every embedding succeeds, with `generate_answer` of the joined context of the top three chunks; 500 otherwise |
| AppBackend.Ask | app.py:154-200 | 400 exactly when path or question is missing or empty; the cache changes only on a fresh division; an answer only for a path that was cached |
| AppBackend.CachedAsk | app.py:169-196 | on a cache hit the cache is unchanged and the reply is the answer from the cached chunks |
| AppBackend.UncachedAskIsSubmit | app.py:170-181 | on a cache miss `ask` divides and caches exactly as `submit_path` does |
| AppBackend.UncachedAskIgnoresModels | app.py:170-181 | the reply on a cache miss depends on neither the embedder nor the generator |
| AppBackend.SubmitThenAskAnswers | app.py:123-196 | after a successful submit, `ask` answers from the submitted chunks |
| AppBackend.BlankChunksStillAsk | app.py:186-194 | with all-whitespace chunks app.py still asks the generator, with an empty context |
| AppBackend.ChatCacheServesApp | app.py:54-60 | assuming both back ends share one working directory, for a path without a space chunks chat.py has processed are found by app.py's `load_chunks` |
| ChatUi.BucketHasNoSlash | static/chat.js:250 | the bucket name holds no `/`, so it parses back as the bucket |
| ChatUi.ChooseBoard | static/chat.js:63-65 | a board choice sets the board and clears class, subject and chapter |
| ChatUi.ChooseClass | static/chat.js:163-164 | a class choice sets the class and clears subject and chapter |
| ChatUi.ChooseSubject | static/chat.js:198 | a subject choice sets the subject and clears the chapter |
| ChatUi.ChooseChapter | static/chat.js:93-95 | a chapter choice sets the chapter only |
| ChatUi.SubmitDisabled | static/chat.js:222-224 | the submit button is disabled exactly when one of the four choices is empty |
| ChatUi.ChoicesKeepCascade | static/chat.js:121-219 | choices made from visible buttons never set a later level without every earlier one |
| ChatUi.UpperChoiceDisablesSubmit | static/chat.js:126-128 | changing board, class or subject disables the submit button again |
| ChatUi.FourChoicesEnableSubmit | static/chat.js:222-224 | four non-empty choices made in order enable the submit button |
| ChatUi.ClassOptions | static/chat.js:131-133 | a tail of classes 6 to 12: all seven for NCERT, classes 9 to 12 otherwise, so classes 6, 7 and 8 appear exactly for NCERT |
| ChatUi.SubjectOptions | static/chat.js:167-170 | Mathematics and Science first; classes 11 and 12 add Physics, Chemistry, Biology and Computer Science in that order, and each of those four appears exactly for those two classes |
| ChatUi.ChapterOptions | static/chat.js:201-204 | ten chapters, "Chapter 1" to "Chapter 10", each with a space |
| ChatUi.ObjectPath | static/chat.js:528-530 | when no choice holds `/`, the object path splits at `/` into exactly the board, class, subject and chapter, the chapter with its spaces as `_` |
| ChatUi.ChatPathParses | static/chat.js:250 | the back ends read the page's path back as the page's bucket and object path |
| ChatUi.BuildPathString | static/chat.js:517-531 | "Please select all options first" exactly when the submit button is disabled; otherwise a path parsing to the bucket and the object path |
| ChatUi.SendMessage | static/chat.js:234-253 | nothing is sent exactly when the input trims to nothing or a request is in flight; otherwise the trimmed question goes with the page's path |
| ChatUi.SendUsesSubmittedPath | static/chat.js:250 | with all four choices made, questions go to the very path the submit button sent |
| ChatUi.DayOf | static/chat.js:379-389 | today exactly from the start of today; earlier exactly before the start of yesterday |
| ChatUi.OnDay | static/chat.js:379-389 | every message of a bucket has that bucket's day, and a bucket is no longer than the history |
| ChatUi.OnDayMembers | static/chat.js:379-389 | a bucket holds exactly the history's messages of that day |
| ChatUi.OnDayConcat | static/chat.js:379 | bucketing keeps history order |
| ChatUi.BucketsPartition | static/chat.js:379-389 | the three buckets together are a permutation of the history |
| ChatUi.HistoryPreview | static/chat.js:441-443 | the content up to 30 characters unchanged; longer content cut to 30 characters followed by "..." |
| ChatUi.ItemsFrom | static/chat.js:396-400 | one entry per user message of the bucket, at strictly increasing indices from the offset, each pointing at a user message and showing its preview |
| ChatUi.RenderHistory | static/chat.js:360-425 | "No chat history yet" exactly for an empty history; otherwise one to three groups |
| ChatUi.HistoryItemsPointAtUserMessages | static/chat.js:394-425 | every sidebar entry indexes, in the today–yesterday–earlier order, a user message of its own bucket and shows its preview |
| ChatUi.TodayOnlyIndicesArePositions | static/chat.js:394-400 | when the whole history is from today, entry numbers are positions in the history |
| ChatUi.ScrollTarget | static/chat.js:454-459 | scrolls exactly when the index is a number within the page's messages |
| ChatUi.HistoryItemsScroll | static/chat.js:420-433 | every sidebar entry's index is within the history, so it scrolls when every history entry is on the page |
| ChatUi.ShownConcat | static/chat.js:346-357 | the history messages a page shows are those of its parts, in order |
| ChatUi.AddMessage | static/chat.js:320-343 | `addUserMessage`/`addBotMessage` extend the history by the message and keep it equal to the messages the page renders |
| ChatUi.AddElement | static/chat.js:282-284 | the debug panel and the processing bubble (static/chat.js:473-500), or a failed submit's fallback error bubble (static/chat.js:576-580), add a `.message` element without touching the history |
| ChatUi.RemoveElement | static/chat.js:256-258 | removing the processing bubble leaves the history and what the page renders of it unchanged |
| ChatUi.ScrollElement | static/chat.js:454-459 | `scrollToMessage` as written reaches the `index`-th `.message` element, exactly when the index is below the number of such elements |
| ChatUi.ScrollMissesAfterStatusAndDebug | static/chat.js:454-459 | after a submit and an answer with a debug panel, the second question's entry (index 2) scrolls to the first answer |
| ChatUi.PagePosition | static/chat.js:454-459 | the `index`-th history message is found exactly when the page renders that many, at an element rendering it |
| ChatUi.PagePositionCounts | static/chat.js:454-459 | the element found has exactly `index` history messages before it, so it is that message's own element |
| ChatUi.ScrollToHistory | static/chat.js:454-459 | the corrected scroll reaches the element rendering the history message the index names, and scrolls exactly when that message exists |
| ChatUi.ScrollAgreesOnPlainPage | static/chat.js:454-459 | on a page of rendered messages only, the corrected scroll and the written one agree |
| ChatUi.EntryMissesAcrossMidnight | static/chat.js:394-425 | with one question before midnight and one after, the later question's entry carries index 0, the position of the earlier one in the history and on the page |
| ChatUi.DayItemsFrom | static/chat.js:394-425 | the corrected day entries: one per user message of that day, numbered by its position in the history, increasing, none missing |
| ChatUi.FixedGroupsFrom | static/chat.js:360-425 | every user message of the history has an entry in the group of its own day |
| ChatUi.FixedEntriesReachTheirMessage | static/chat.js:394-459 | with corrected numbering and scroll, every entry reaches the element rendering the user message it previews, of its own day |
| ScriptUi.SelectBoard | static/script.js:8-11 | sets the board and leaves the other fields alone |
| ScriptUi.SelectClass | static/script.js:13-16 | sets the class and leaves the other fields alone |
| ScriptUi.SelectSubject | static/script.js:18-21 | sets the subject and leaves the other fields alone |
| ScriptUi.SelectChapter | static/script.js:23-26 | sets the chapter and leaves the other fields alone |
| ScriptUi.SettersCommute | static/script.js:8-26 | choosing an earlier level clears nothing: setters of different fields commute |
| ScriptUi.FullPath | static/script.js:51 | the path parses back to the bucket and the four fields joined verbatim |
| ScriptUi.SubmitPath | static/script.js:153-162 | a path is posted exactly when all four fields are set, and it parses back to them |
| ScriptUi.AskQuestion | static/script.js:40-56 | nothing is sent exactly when the input trims to nothing; otherwise the trimmed question with the full path, selection unchecked |
| ScriptUi.PagesAgreeIffChapterHasNoSpace | static/script.js:51 | the two pages name the same object exactly when the chapter has no space |
| ScriptUi.CloseAt | static/script.js:81 | the lazy match closes at the first `**` with no line terminator before it, and fails when a line terminator or the end comes first |
| ScriptUi.NoStarsUnchanged | static/script.js:79-84 | text without `**` comes back unchanged |
| ScriptUi.BoldRule | static/script.js:81 | `**x**` becomes `<strong>x</strong>` when `x` has no `**`, no line terminator and no trailing `*` |
| ScriptUi.TrailingStarCloses | static/script.js:81 | `**a***` renders as `<strong>a</strong>*`: the lazy match closes one character early |
| ScriptUi.RemoveMarks | static/script.js:88 | a text without a mark is unchanged; the text before the first mark is kept, the mark dropped and the scan resumes after it; the result is never longer |
| ScriptUi.RemoveMarksSkip | static/script.js:88 | the scan copies the text up to the next mark unchanged |
| ScriptUi.RemoveMarksNotIdempotent | static/script.js:88 | one pass can bring a new mark together: `**,*,*` becomes `*,*`, then the empty string |
| ScriptUi.TagEnd | static/script.js:91 | a tag ends just after its first `>`, or at the end of the text when there is none |
| ScriptUi.StripTags | static/script.js:91 | the result is no longer, and every `<` left is last or followed by `>` |
| ScriptUi.NoAngleUnchanged | static/script.js:91 | text without `<` has no tag to remove |
| ScriptUi.CleanText | static/script.js:86-92 | `cleanText` never lengthens the text and leaves every `<` last or followed by `>` |
| ScriptUi.CleanTextKeepsPlainText | static/script.js:86-92 | text with neither `,` nor `<` is unchanged |
| ScriptUi.BotBubbleAsWritten | static/script.js:94-105 | the bubble holds the raw message between the fixed markup |
| ScriptUi.AsWrittenKeepsTags | static/script.js:99-101 | the raw message `<b>hi` reaches the bubble with its tag |
| ScriptUi.BotBubble | static/script.js:99-101 | the corrected bubble holds `cleanText(message)`, in which every `<` is last or followed by `>` |

## Left out

- The Google Cloud Storage client, PyPDF2, SentenceTransformer and Gemini are oracles. These are `ObjectStore`, `PdfReader`, `Embedder` and `string -> string`. Their internals and the network are not modelled.
- Similarity scores are integers. NumPy float32 dot products, NaN and `float(score)` rounding are not modelled.
- Reading and writing the JSON cache files is a map from file name to chunk list. JSON encoding, the working directory and `os.path.abspath` in the reported `chunks_path` are left out. The reply carries the relative name.
- Each back end caches in its own working directory. AppBackend.ChatCacheServesApp assumes the two share one; nothing in either program arranges this.
- Flask routing, the login decorator, sessions, logging and `print` output are left out. So are request bodies that are not JSON objects and request fields that are not strings.
- Any exception other than the ones each route names collapses into one 500 reply. This includes the index error of a path with too few `/`, app.py's download of a missing object, an unreadable PDF and a failed encoding.
- chat.py downloads only an object it has seen exist (chat.py:201-203), and `ObjectStore.download` is total. A download that raises after the existence check is not modelled.
- chat.py's `generate_answer` error path is left out; the generator is total in the model. In the source the handler calls `app.logger` (chat.py:281), but `app` is bound only when the file runs as a script (chat.py:285-286). So in the blueprint a generator failure raises `NameError` and `ask` answers 500 (chat.py:159-161); the fixed error message is never returned.
- app.py's `generate_answer` re-raising into a 500 is left out for the same reason.
- chat.py's `load_pdf_from_gcs` creates a new storage client per call. The model has one store value.
- `str.lower()`/`str.upper()` map ASCII letters only. Python's full Unicode case mapping is not modelled.
- Strings are sequences of code points. JavaScript's UTF-16 code units, which count `length` and `substring(0, 30)` differently for characters outside the BMP, are not modelled.
- The pages' DOM work is left out: showing and hiding elements, the `selected` styling, fetch, timers, typing and processing animations, `alert`, logout, and `toLocaleTimeString`.
- chat.js's `isProcessing` flag is read by `SendMessage`. Setting and clearing it around the request is not modelled.
- The history's `Date` values are integers on one clock, with the starts of today and yesterday as parameters. Daylight-saving and time-zone arithmetic are not modelled.
- The contents of chat.js's debug panel (`addDebugInfo`) and of the bubbles `renderMessage` builds are left out, as is script.js's `displayUserMessage`. The model keeps only which `.message` elements they add to the chat pane (`ChatUi.PageElement`), because `scrollToMessage` counts those.
- The chat pane holds only the elements the page script adds. Any `.message` element the page's HTML starts with is not modelled; it would shift every scroll further.
- `formatText` is modelled only on inputs where JavaScript's `.` and the lazy `(.*?)` are what `CloseAt` describes. Regular-expression backtracking beyond that is not modelled.
- Strings.ReplaceAll: its own contract states only the length. The meaning is stated by ReplaceAllAbsent, ReplaceAllFirst and ReplaceAllWindows; the last covers only patterns that cannot overlap themselves, which both patterns chat.py uses are.
- ChatBackend.GenerateAnswer: the edge-whitespace clause is stated as "the apology, empty, or without whitespace at either end". It does not say which characters begin and end the apology literal.

## Findings

| source | as written | input that shows it | evidently intended | confidence | as-written member | corrected member |
|---|---|---|---|---|---|---|
| static/chat.js:454-459 | `scrollToMessage(index)` takes the `index`-th element of `document.querySelectorAll('.message')`, but the submit's status bubble (static/chat.js:479), a failed submit's fallback error bubble (static/chat.js:578) and every debug panel (static/chat.js:284) carry class `message` too | a submit, question `q1`, answer `a1` with a debug panel, question `q2`: `q2`'s entry has index 2 and scrolls to `a1` | the entry scrolls to the element rendering the history message it stands for | high, not executed | ChatUi.ScrollMissesAfterStatusAndDebug | ChatUi.ScrollToHistory |
| static/chat.js:394-425 | entry indices count positions in the today, yesterday, earlier order, while the page and the history keep sending order | `q1` sent before midnight, `q2` after: `q2`'s entry has index 0, which is `q1` in the history and on the page | the entry carries its message's position in the history | medium, not executed | ChatUi.EntryMissesAcrossMidnight | ChatUi.FixedEntriesReachTheirMessage |
| static/script.js:99-101 | `cleanText(message)` is computed into `cleanedMessage`, but the bubble's `innerHTML` is built from the raw `message` | a reply `"<b>hi"`: the bubble receives `<b>hi`, tag included | the bubble shows `cleanedMessage`, with marks and tags removed | medium, not executed | ScriptUi.AsWrittenKeepsTags | ScriptUi.BotBubble |

=== FILE: app_backend.dfy ===
/**
 * The decision logic of app.py's two routes, `/submit-path` and `/ask`.
 * Unlike chat.py, app.py downloads only the exact object path, keys its
 * cache with spaces kept, answers an `ask` on an uncached path by splitting
 * the PDF and returning the chunks without an answer, and has no guard
 * against an empty context before calling the generator.
 */
module AppBackend {
  import opened Wrappers
  import opened Strings
  import opened ChunkKey
  import opened PdfLoader
  import opened Chunker
  import opened ChunkStore
  import opened Ranking
  import opened Context
  import ChatBackend

  /** How many chunks `ask` ranks into the context. */
  const TopK: nat := 3

  const PromptHead: string :=
    "You are an educational assistant. Use the context below to answer the question.\n\nContext:\n"
  const PromptTail: string := "\n\nAnswer:"

  /** app.py `load_pdf_from_gcs`: the object at exactly `file`; `None` where the download raises. */
  function LoadPdf(objects: ObjectStore, bucket: string, file: string): (r: Option<Bytes>)
    ensures r.Some? <==> objects.holds(bucket, file)
    ensures r.Some? ==> r.value == objects.download(bucket, file)
  {
    if objects.holds(bucket, file) then Some(objects.download(bucket, file)) else None
  }

  /** Whenever app.py finds the object, chat.py's search finds the same bytes: the exact path is its first spelling. */
  lemma ExactLoadAgrees(objects: ObjectStore, bucket: string, file: string)
    requires LoadPdf(objects, bucket, file).Some?
    ensures LoadPdfFromGcs(objects, bucket, file) == Ok(LoadPdf(objects, bucket, file).value)
  {
    ExactPathWins(objects, bucket, file);
  }

  /**
   * The chunks of a location, split from the PDF when nothing is cached:
   * the chunks and the cache after storing them, or `None` when the object
   * is missing or unreadable.
   */
  function Divide(loc: Location, objects: ObjectStore, reader: PdfReader): (r: Option<seq<string>>)
    ensures r.Some? <==> objects.holds(loc.bucket, loc.file) && reader(objects.download(loc.bucket, loc.file)).Some?
    ensures r.Some? ==> forall c :: c in r.value <==> c in reader(objects.download(loc.bucket, loc.file)).value && c != ""
  {
    match LoadPdf(objects, loc.bucket, loc.file)
    case None => None
    case Some(pdf) => ChunksOfPdf(reader, pdf)
  }

  // ---------------------------------------------------------------- submit

  datatype SubmitReply =
    | MissingPath
    | Divided(chunks: seq<string>)
    | AlreadyDivided(chunks: seq<string>)
    | SubmitFailed

  function SubmitStatus(r: SubmitReply): (code: nat)
    ensures code == 200 <==> r.Divided? || r.AlreadyDivided?
    ensures code == 400 <==> r.MissingPath?
    ensures code == 500 <==> r.SubmitFailed?
  {
    match r
    case MissingPath => 400
    case Divided(_) => 200
    case AlreadyDivided(_) => 200
    case SubmitFailed => 500
  }

  /**
   * `submit_path`: 400 without a path; 500 when the path has too few parts,
   * the object is missing or unreadable; the cached chunks when there are
   * some; otherwise the freshly split chunks, which are cached.
   */
  function SubmitPath(path: Option<string>, store: Store, objects: ObjectStore, reader: PdfReader): (r: (SubmitReply, Store))
    ensures r.0.MissingPath? <==> !Truthy(path)
    ensures r.0.AlreadyDivided? <==>
      Truthy(path) && ParseLocation(path.value).Some?
      && LoadChunks(store, ParseLocation(path.value).value.bucket, ParseLocation(path.value).value.file).Some?
    ensures r.0.AlreadyDivided? ==>
      Some(r.0.chunks) == LoadChunks(store, ParseLocation(path.value).value.bucket, ParseLocation(path.value).value.file)
    ensures !r.0.Divided? ==> r.1 == store
    ensures r.0.Divided? ==> (Truthy(path) && ParseLocation(path.value).Some? &&
      var loc := ParseLocation(path.value).value;
      && LoadChunks(store, loc.bucket, loc.file).None?
      && r.1 == StoreChunks(store, loc.bucket, loc.file, r.0.chunks)
      && Divide(loc, objects, reader) == Some(r.0.chunks))
    ensures Truthy(path) && ParseLocation(path.value).None? ==> r.0.SubmitFailed?
    ensures (&& Truthy(path) && ParseLocation(path.value).Some?
             && LoadChunks(store, ParseLocation(path.value).value.bucket, ParseLocation(path.value).value.file).None?)
      ==> match Divide(ParseLocation(path.value).value, objects, reader)
          case Some(chunks) => r.0 == Divided(chunks)
          case None => r.0.SubmitFailed?
  {
    if !Truthy(path) then (MissingPath, store)
    else match ParseLocation(path.value)
      case None => (SubmitFailed, store)
      case Some(loc) =>
        match LoadChunks(store, loc.bucket, loc.file)
        case Some(chunks) => (AlreadyDivided(chunks), store)
        case None =>
          match Divide(loc, objects, reader)
          case None => (SubmitFailed, store)
          case Some(chunks) => (Divided(chunks), StoreChunks(store, loc.bucket, loc.file, chunks))
  }

  /** A second submit of a path that succeeded returns the same chunks from the cache and changes nothing. */
  lemma SubmitIdempotent(path: Option<string>, store: Store, objects: ObjectStore, reader: PdfReader,
                         objects': ObjectStore, reader': PdfReader)
    requires SubmitStatus(SubmitPath(path, store, objects, reader).0) == 200
    ensures var (first, store') := SubmitPath(path, store, objects, reader);
      var again := SubmitPath(path, store', objects', reader');
      again.0 == AlreadyDivided(first.chunks) && again.1 == store'
  {
    var loc := ParseLocation(path.value).value;
    var (first, store') := SubmitPath(path, store, objects, reader);
    if first.Divided? {
      LoadAfterStore(store, loc.bucket, loc.file, first.chunks);
    }
  }

  // ---------------------------------------------------------------- ask

  datatype AskReply =
    | MissingInput
    | JustDivided(chunks: seq<string>)
    | Answered(answer: string)
    | AskFailed

  function AskStatus(r: AskReply): (code: nat)
    ensures code == 200 <==> r.JustDivided? || r.Answered?
    ensures code == 400 <==> r.MissingInput?
    ensures code == 500 <==> r.AskFailed?
  {
    match r
    case MissingInput => 400
    case JustDivided(_) => 200
    case Answered(_) => 200
    case AskFailed => 500
  }

  /**
   * app.py `generate_answer`: the generator's reply to the prompt, stripped,
   * whatever the context. `StripIsInfix` says what stripping keeps.
   */
  function GenerateAnswer(context: string, query: string, llm: string -> string): (r: string)
    ensures r == [] || (!PyIsSpace(r[0]) && !PyIsSpace(r[|r| - 1]))
    ensures |r| <= |llm(Prompt(PromptHead, context, query, PromptTail))|
    ensures r == Strip(llm(Prompt(PromptHead, context, query, PromptTail)), PyIsSpace)
  {
    var reply := llm(Prompt(PromptHead, context, query, PromptTail));
    StripIsInfix(reply, PyIsSpace);
    Strip(reply, PyIsSpace)
  }

  /** A reply without edge whitespace is passed on unchanged. */
  lemma GenerateAnswerKeepsCleanReply(context: string, query: string, llm: string -> string)
    requires var reply := llm(Prompt(PromptHead, context, query, PromptTail));
      reply == [] || (!PyIsSpace(reply[0]) && !PyIsSpace(reply[|reply| - 1]))
    ensures GenerateAnswer(context, query, llm) == llm(Prompt(PromptHead, context, query, PromptTail))
  {
    StripClean(llm(Prompt(PromptHead, context, query, PromptTail)), PyIsSpace);
  }

  /**
   * Where chat.py's `generate_answer` apologises for an empty context
   * without asking the generator, app.py's asks it anyway; on a non-empty
   * context and question both strip the generator's reply, each to its own prompt.
   */
  lemma GenerateAnswerVersusChat(context: string, query: string, llm: string -> string)
    ensures context == "" ==>
      && ChatBackend.GenerateAnswer(context, query, llm) == ChatBackend.CannotAnswer
      && GenerateAnswer(context, query, llm) == Strip(llm(Prompt(PromptHead, "", query, PromptTail)), PyIsSpace)
    ensures context != "" && query != "" ==>
      var chatPrompt := Prompt(ChatBackend.PromptHead, context, query, ChatBackend.PromptTail);
      var appPrompt := Prompt(PromptHead, context, query, PromptTail);
      && ChatBackend.GenerateAnswer(context, query, llm) == Strip(llm(chatPrompt), PyIsSpace)
      && GenerateAnswer(context, query, llm) == Strip(llm(appPrompt), PyIsSpace)
      && (llm(chatPrompt) == llm(appPrompt) ==>
            ChatBackend.GenerateAnswer(context, query, llm) == GenerateAnswer(context, query, llm))
  {
  }

  /** The reply on a cache hit: the answer from the top three chunks, or 500 when an embedding fails. */
  function AnswerFrom(chunks: seq<string>, question: string, emb: Embedder, llm: string -> string): (r: AskReply)
    ensures r.Answered? <==> emb.encodes(question) && AllEncode(chunks, emb)
    ensures !r.Answered? ==> r.AskFailed?
    ensures r.Answered? ==>
      r.answer == GenerateAnswer(JoinContext(AppRetrieve(chunks, question, emb, TopK).value), question, llm)
  {
    match AppRetrieve(chunks, question, emb, TopK)
    case None => AskFailed
    case Some(relevant) => Answered(GenerateAnswer(JoinContext(relevant), question, llm))
  }

  /**
   * `ask`: 400 without a path or a question; on a cache miss it splits and
   * caches the PDF exactly as `submit_path` does and returns the chunks
   * without answering; on a hit it ranks the top three chunks and answers
   * from their context. 500 when the path, the download, the PDF or an
   * embedding fails.
   */
  function Ask(path: Option<string>, question: Option<string>, store: Store, objects: ObjectStore,
               reader: PdfReader, emb: Embedder, llm: string -> string): (r: (AskReply, Store))
    ensures r.0.MissingInput? <==> !Truthy(path) || !Truthy(question)
    ensures !r.0.JustDivided? ==> r.1 == store
    ensures r.0.Answered? ==> (Truthy(path) && Truthy(question) && ParseLocation(path.value).Some?
      && LoadChunks(store, ParseLocation(path.value).value.bucket, ParseLocation(path.value).value.file).Some?)
  {
    if !Truthy(path) || !Truthy(question) then (MissingInput, store)
    else match ParseLocation(path.value)
      case None => (AskFailed, store)
      case Some(loc) =>
        match LoadChunks(store, loc.bucket, loc.file)
        case None =>
          (match Divide(loc, objects, reader)
           case None => (AskFailed, store)
           case Some(chunks) => (JustDivided(chunks), StoreChunks(store, loc.bucket, loc.file, chunks)))
        case Some(chunks) => (AnswerFrom(chunks, question.value, emb, llm), store)
  }

  /** On a cache hit the cache is unchanged and the reply is the answer from the cached chunks. */
  lemma CachedAsk(path: string, question: string, store: Store, objects: ObjectStore,
                  reader: PdfReader, emb: Embedder, llm: string -> string, chunks: seq<string>)
    requires path != "" && question != "" && ParseLocation(path).Some?
    requires LoadChunks(store, ParseLocation(path).value.bucket, ParseLocation(path).value.file) == Some(chunks)
    ensures Ask(Some(path), Some(question), store, objects, reader, emb, llm) == (AnswerFrom(chunks, question, emb, llm), store)
  {
  }

  /**
   * On a cache miss `ask` does what `submit_path` does, whatever the question,
   * embedder or generator: the same chunks, the same cache.
   */
  lemma UncachedAskIsSubmit(path: Option<string>, question: Option<string>, store: Store, objects: ObjectStore,
                            reader: PdfReader, emb: Embedder, llm: string -> string)
    requires Truthy(path) && Truthy(question) && ParseLocation(path.value).Some?
    requires LoadChunks(store, ParseLocation(path.value).value.bucket, ParseLocation(path.value).value.file).None?
    ensures var (reply, store') := Ask(path, question, store, objects, reader, emb, llm);
      var (sreply, sstore) := SubmitPath(path, store, objects, reader);
      && store' == sstore
      && (reply.JustDivided? <==> sreply.Divided?)
      && (reply.JustDivided? ==> reply.chunks == sreply.chunks)
  {
  }

  /** The reply on a cache miss depends neither on the embedder nor on the generator. */
  lemma UncachedAskIgnoresModels(path: Option<string>, question: Option<string>, store: Store, objects: ObjectStore,
                                 reader: PdfReader, emb: Embedder, llm: string -> string, emb': Embedder, llm': string -> string)
    requires Truthy(path) && ParseLocation(path.value).Some?
    requires LoadChunks(store, ParseLocation(path.value).value.bucket, ParseLocation(path.value).value.file).None?
    ensures Ask(path, question, store, objects, reader, emb, llm) == Ask(path, question, store, objects, reader, emb', llm')
  {
  }

  /**
   * After a successful submit, asking about the same path is answered from
   * the submitted chunks, and answered whenever every embedding succeeds.
   */
  lemma SubmitThenAskAnswers(path: string, question: string, store: Store, objects: ObjectStore,
                             reader: PdfReader, emb: Embedder, llm: string -> string)
    requires question != ""
    requires SubmitStatus(SubmitPath(Some(path), store, objects, reader).0) == 200
    ensures var (reply, store') := SubmitPath(Some(path), store, objects, reader);
      Ask(Some(path), Some(question), store', objects, reader, emb, llm) == (AnswerFrom(reply.chunks, question, emb, llm), store')
  {
    var loc := ParseLocation(path).value;
    var (reply, store') := SubmitPath(Some(path), store, objects, reader);
    if reply.Divided? {
      LoadAfterStore(store, loc.bucket, loc.file, reply.chunks);
    }
    CachedAsk(path, question, store', objects, reader, emb, llm, reply.chunks);
  }

  /**
   * Where chat.py answers 404 "No relevant context found", app.py still asks
   * the generator, with an empty context in the prompt.
   */
  lemma BlankChunksStillAsk(chunks: seq<string>, question: string, emb: Embedder, llm: string -> string)
    requires emb.encodes(question) && AllEncode(chunks, emb)
    requires forall i :: 0 <= i < |chunks| ==> AllSpace(chunks[i], PyIsSpace)
    ensures AnswerFrom(chunks, question, emb, llm) == Answered(Strip(llm(Prompt(PromptHead, "", question, PromptTail)), PyIsSpace))
  {
    var relevant := AppRetrieve(chunks, question, emb, TopK).value;
    forall i | 0 <= i < |relevant|
      ensures AllSpace(relevant[i], PyIsSpace)
    {
      assert relevant[i] in chunks;
    }
    ContextEmptyIff(relevant);
  }

  /**
   * Assuming both back ends run in the same working directory, so that their
   * chunk files land in one cache (nothing in either program arranges this):
   * for a path with no space in its file part, chunks chat.py has just
   * processed are found by app.py's `load_chunks`, so app.py reuses them.
   */
  lemma ChatCacheServesApp(bucket: string, file: string, store: Store, objects: ObjectStore, reader: PdfReader)
    requires '/' !in bucket && ' ' !in file
    requires ChatBackend.SubmitStatus(ChatBackend.SubmitPath(Some(GsPath(bucket, file)), store, objects, reader).0) == 200
    ensures var store' := ChatBackend.SubmitPath(Some(GsPath(bucket, file)), store, objects, reader).1;
      LoadChunks(store', bucket, file).Some?
  {
    KeysAgreeIffNoSpace(bucket, file);
  }
}

=== FILE: chat_backend.dfy ===
/**
 * The decision logic of chat.py's two routes, `/api/chat/submit-path` and
 * `/api/chat/ask`, and of its `generate_answer`. A route is a pure function
 * from the request fields, the chunk cache and the oracles (object store,
 * PDF reader, embedder, text generator) to a reply and the new cache.
 */
module ChatBackend {
  import opened Wrappers
  import opened Strings
  import opened ChunkKey
  import opened PdfLoader
  import opened Chunker
  import opened ChunkStore
  import opened Ranking
  import opened Context

  /** How many chunks `ask` ranks into the context. */
  const TopK: nat := 3
  /** Length after which a debug chunk text is cut and "..." appended. */
  const ChunkPreviewLength: nat := 200
  /** Length after which the reported context is cut and "..." appended. */
  const ContextPreviewLength: nat := 500

  const CannotAnswer: string := "I couldn't find enough context to answer that question."

  const PromptHead: string :=
    "You are an expert educational assistant. Provide detailed, structured answers to student questions.\n\nContext:\n"
  const PromptTail: string :=
    "\n\nFormat your answer with:\n- Bold for key terms\n- Italics for emphasis\n- Lists for multiple items\n"
    + "- Tables for comparative data\n- Headings for sections\n- Clear explanations with examples where needed\n\n"
    + "Answer in detail, covering all relevant aspects from the context. "
    + "If the question can't be answered from the context, say so explicitly.\n\nAnswer:"

  // ---------------------------------------------------------------- submit

  datatype SubmitReply =
    | MissingPath
    | UsingCached(chunksPath: string)
    | Processed(chunksPath: string, chunkCount: nat)
    | PdfNotFound(error: NotFound)
    | SubmitFailed

  function SubmitStatus(r: SubmitReply): (code: nat)
    ensures code == 200 <==> r.UsingCached? || r.Processed?
    ensures code == 400 <==> r.MissingPath?
    ensures code == 404 <==> r.PdfNotFound?
    ensures code == 500 <==> r.SubmitFailed?
  {
    match r
    case MissingPath => 400
    case UsingCached(_) => 200
    case Processed(_, _) => 200
    case PdfNotFound(_) => 404
    case SubmitFailed => 500
  }

  /**
   * `submit_path`: a missing path is 400; a path with fewer than three `/`
   * parts raises inside the handler (500); a cached chunks file is reused;
   * otherwise the PDF is fetched (404 when no spelling exists), split
   * (500 when unreadable) and its chunks cached under the chat.py key.
   */
  function SubmitPath(path: Option<string>, store: Store, objects: ObjectStore, reader: PdfReader): (r: (SubmitReply, Store))
    ensures r.0.MissingPath? <==> !Truthy(path)
    ensures r.0.UsingCached? <==> Truthy(path) && ChatChunksPath(path.value).Some? && ChatChunksPath(path.value).value in store
    ensures r.0.UsingCached? ==> r.0.chunksPath == ChatChunksPath(path.value).value
    ensures !r.0.Processed? ==> r.1 == store
    ensures r.0.Processed? ==>
      && Truthy(path) && ChatChunksPath(path.value) == Some(r.0.chunksPath)
      && r.0.chunksPath !in store
      && r.1.Keys == store.Keys + {r.0.chunksPath}
      && (forall k :: k in store ==> r.1[k] == store[k])
      && r.0.chunkCount == |r.1[r.0.chunksPath]|
    ensures r.0.PdfNotFound? ==> Truthy(path) && |r.0.error.tried| == 7
    ensures Truthy(path) && ChatChunksPath(path.value).None? ==> r.0.SubmitFailed?
    ensures (&& Truthy(path) && ChatChunksPath(path.value).Some? && ChatChunksPath(path.value).value !in store)
      ==> var loc := ParseLocation(path.value).value;
          match LoadPdfFromGcs(objects, loc.bucket, loc.file)
          case Err(e) => r.0 == PdfNotFound(e)
          case Ok(pdf) =>
            match ChunksOfPdf(reader, pdf)
            case None => r.0.SubmitFailed?
            case Some(chunks) => r.0.Processed? && r.1 == Put(store, ChatChunksPath(path.value).value, chunks)
  {
    if !Truthy(path) then (MissingPath, store)
    else match ChatChunksPath(path.value)
      case None => (SubmitFailed, store)
      case Some(key) =>
        if key in store then (UsingCached(key), store)
        else
          var loc := ParseLocation(path.value).value;
          match LoadPdfFromGcs(objects, loc.bucket, loc.file)
          case Err(e) => (PdfNotFound(e), store)
          case Ok(pdf) =>
            match ChunksOfPdf(reader, pdf)
            case None => (SubmitFailed, store)
            case Some(chunks) => (Processed(key, |chunks|), Put(store, key, chunks))
  }

  /**
   * What a successful first submit caches are the non-empty page texts of
   * the first spelling of the file the bucket holds.
   */
  lemma ProcessedCachesPageTexts(path: string, store: Store, objects: ObjectStore, reader: PdfReader)
    requires SubmitPath(Some(path), store, objects, reader).0.Processed?
    ensures var loc := ParseLocation(path).value;
      var (reply, store') := SubmitPath(Some(path), store, objects, reader);
      && LoadPdfFromGcs(objects, loc.bucket, loc.file).Ok?
      && ChunksOfPdf(reader, LoadPdfFromGcs(objects, loc.bucket, loc.file).value) == Some(store'[reply.chunksPath])
  {
  }

  /** A second submit of a path that succeeded reuses the cache and changes nothing. */
  lemma SubmitIdempotent(path: Option<string>, store: Store, objects: ObjectStore, reader: PdfReader,
                         objects': ObjectStore, reader': PdfReader)
    requires SubmitStatus(SubmitPath(path, store, objects, reader).0) == 200
    ensures var store' := SubmitPath(path, store, objects, reader).1;
      var again := SubmitPath(path, store', objects', reader');
      again.0.UsingCached? && again.1 == store'
  {
  }

  /** A cached path is answered without touching the object store or the PDF reader. */
  lemma CachedSubmitIgnoresStorage(path: Option<string>, store: Store, objects: ObjectStore, reader: PdfReader,
                                   objects': ObjectStore, reader': PdfReader)
    requires SubmitPath(path, store, objects, reader).0.UsingCached?
    ensures SubmitPath(path, store, objects', reader') == SubmitPath(path, store, objects, reader)
  {
  }

  // ---------------------------------------------------------------- answer

  /**
   * `generate_answer`: the fixed apology when the context or the question is
   * empty, otherwise the generator's reply to the prompt, stripped. The
   * generator is an oracle; its failure path is not modelled.
   */
  function GenerateAnswer(context: string, query: string, llm: string -> string): (r: string)
    ensures context == "" || query == "" ==> r == CannotAnswer
    ensures context != "" && query != "" ==>
      r == Strip(llm(Prompt(PromptHead, context, query, PromptTail)), PyIsSpace)
    ensures r == CannotAnswer || r == [] || (!PyIsSpace(r[0]) && !PyIsSpace(r[|r| - 1]))
  {
    if context == "" || query == "" then CannotAnswer
    else
      StripIsInfix(llm(Prompt(PromptHead, context, query, PromptTail)), PyIsSpace);
      Strip(llm(Prompt(PromptHead, context, query, PromptTail)), PyIsSpace)
  }

  /** With nothing to ask or nothing to answer from, the generator is never consulted. */
  lemma GuardSkipsGenerator(context: string, query: string, llm: string -> string, llm': string -> string)
    requires context == "" || query == ""
    ensures GenerateAnswer(context, query, llm) == GenerateAnswer(context, query, llm')
  {
  }

  // ---------------------------------------------------------------- ask

  /** One entry of the `top_chunks` debug list. */
  datatype DebugChunk = DebugChunk(text: string, score: int)

  datatype AskReply =
    | MissingInput
    | ChunksNotFound
    | NoContext(question: string, topChunks: seq<DebugChunk>)
    | Answered(answer: string, question: string, contextUsed: string, topChunks: seq<DebugChunk>)
    | AskFailed

  function AskStatus(r: AskReply): (code: nat)
    ensures code == 200 <==> r.Answered?
    ensures code == 400 <==> r.MissingInput?
    ensures code == 404 <==> r.ChunksNotFound? || r.NoContext?
    ensures code == 500 <==> r.AskFailed?
  {
    match r
    case MissingInput => 400
    case ChunksNotFound => 404
    case NoContext(_, _) => 404
    case Answered(_, _, _, _) => 200
    case AskFailed => 500
  }

  /** The debug list: every ranked chunk's text cut to 200 characters, with its score. */
  function DebugChunks(scored: seq<ScoredChunk>): (r: seq<DebugChunk>)
    ensures |r| == |scored|
    ensures forall i :: 0 <= i < |r| ==>
      r[i].score == scored[i].score && |r[i].text| <= ChunkPreviewLength + 3
      && (|scored[i].text| <= ChunkPreviewLength ==> r[i].text == scored[i].text)
      && (|scored[i].text| > ChunkPreviewLength ==>
            |r[i].text| == ChunkPreviewLength + 3
            && r[i].text[..ChunkPreviewLength] == scored[i].text[..ChunkPreviewLength]
            && r[i].text[ChunkPreviewLength..] == "...")
  {
    seq(|scored|, i requires 0 <= i < |scored| =>
      DebugChunk(Preview(scored[i].text, ChunkPreviewLength), scored[i].score))
  }

  /** The reply once the chunks are loaded and ranked: 404 on an empty context, an answer otherwise. */
  function AnswerFrom(scored: seq<ScoredChunk>, question: string, llm: string -> string): (r: AskReply)
    ensures r.NoContext? || r.Answered?
    ensures r.topChunks == DebugChunks(scored) && r.question == question
    ensures r.NoContext? <==> forall i :: 0 <= i < |scored| ==> AllSpace(scored[i].text, PyIsSpace)
    ensures r.Answered? ==>
      var context := JoinContext(ScoredTexts(scored));
      && r.answer == GenerateAnswer(context, question, llm)
      && r.contextUsed == Preview(context, ContextPreviewLength)
  {
    var context := JoinContext(ScoredTexts(scored));
    ContextEmptyIff(ScoredTexts(scored));
    if context == "" then NoContext(question, DebugChunks(scored))
    else Answered(GenerateAnswer(context, question, llm), question,
                  Preview(context, ContextPreviewLength), DebugChunks(scored))
  }

  /**
   * `ask`: 400 without a path or a question; 500 when the path has too few
   * parts or an embedding fails; 404 when nothing is cached for the path;
   * otherwise the top three chunks are ranked and joined into the context.
   */
  function Ask(path: Option<string>, question: Option<string>, store: Store, emb: Embedder, llm: string -> string): (r: AskReply)
    ensures r.MissingInput? <==> !Truthy(path) || !Truthy(question)
    ensures r.ChunksNotFound? <==>
      Truthy(path) && Truthy(question) && ChatChunksPath(path.value).Some? && ChatChunksPath(path.value).value !in store
    ensures r.NoContext? || r.Answered? ==>
      && r.question == question.value
      && |r.topChunks| <= TopK
      && forall i :: 0 <= i < |r.topChunks| ==> |r.topChunks[i].text| <= ChunkPreviewLength + 3
  {
    if !Truthy(path) || !Truthy(question) then MissingInput
    else match ChatChunksPath(path.value)
      case None => AskFailed
      case Some(key) =>
        if key !in store then ChunksNotFound
        else match RetrieveWithScores(store[key], question.value, emb, TopK)
          case None => AskFailed
          case Some(scored) => AnswerFrom(scored, question.value, llm)
  }

  /**
   * An answered question never gets the apology for empty input: the answer
   * is the generator's stripped reply to a prompt holding the joined texts of
   * the top three chunks of the cached path, and the reported context is
   * that context's preview.
   */
  lemma AnsweredUsesGenerator(path: Option<string>, question: Option<string>, store: Store, emb: Embedder, llm: string -> string)
    requires Ask(path, question, store, emb, llm).Answered?
    ensures var r := Ask(path, question, store, emb, llm);
      var key := ChatChunksPath(path.value).value;
      var context := JoinContext(ScoredTexts(RetrieveWithScores(store[key], question.value, emb, TopK).value));
      && context != ""
      && r.contextUsed == Preview(context, ContextPreviewLength)
      && r.answer == Strip(llm(Prompt(PromptHead, context, question.value, PromptTail)), PyIsSpace)
  {
  }

  /** A question about a path with nothing cached is refused before any embedding or generation. */
  lemma UncachedAskIgnoresModels(path: Option<string>, question: Option<string>, store: Store,
                                 emb: Embedder, llm: string -> string, emb': Embedder, llm': string -> string)
    requires Truthy(path) && ChatChunksPath(path.value).Some? && ChatChunksPath(path.value).value !in store
    ensures Ask(path, question, store, emb, llm) == Ask(path, question, store, emb', llm')
  {
  }

  /** When the ranked chunks are all whitespace the reply is 404 and the generator is never consulted. */
  lemma NoContextIgnoresGenerator(path: Option<string>, question: Option<string>, store: Store,
                                  emb: Embedder, llm: string -> string, llm': string -> string)
    requires Ask(path, question, store, emb, llm).NoContext?
    ensures Ask(path, question, store, emb, llm') == Ask(path, question, store, emb, llm)
  {
  }

  /**
   * With every embedding succeeding and the path cached, the reply is 404
   * "No relevant context found" exactly when the top three chunks are all whitespace.
   */
  lemma NoContextIff(path: string, question: string, store: Store, emb: Embedder, llm: string -> string)
    requires path != "" && question != ""
    requires ChatChunksPath(path).Some? && ChatChunksPath(path).value in store
    requires emb.encodes(question) && AllEncode(store[ChatChunksPath(path).value], emb)
    ensures var scored := RetrieveWithScores(store[ChatChunksPath(path).value], question, emb, TopK).value;
      var r := Ask(Some(path), Some(question), store, emb, llm);
      r.NoContext? <==> forall i :: 0 <= i < |scored| ==> AllSpace(scored[i].text, PyIsSpace)
  {
  }

  /**
   * After a successful submit, asking about the same path finds its chunks:
   * the reply is never "Chunks not found", and once every embedding succeeds
   * it is an answer or "No relevant context found".
   */
  lemma SubmitThenAsk(path: string, question: string, store: Store, objects: ObjectStore, reader: PdfReader,
                      emb: Embedder, llm: string -> string)
    requires question != ""
    requires SubmitStatus(SubmitPath(Some(path), store, objects, reader).0) == 200
    ensures var store' := SubmitPath(Some(path), store, objects, reader).1;
      var r := Ask(Some(path), Some(question), store', emb, llm);
      && !r.ChunksNotFound? && !r.MissingInput?
      && (emb.encodes(question) && AllEncode(store'[ChatChunksPath(path).value], emb) ==> r.NoContext? || r.Answered?)
  {
  }
}

=== FILE: chat_ui.dfy ===
/**
 * The pure part of static/chat.js: the board → class → subject → chapter
 * selection cascade with its resets, the submit gate, the option lists,
 * the storage path the page sends, the `sendMessage` guard, and the
 * sidebar history (grouping by day, 30-character previews, scroll bounds),
 * and the chat pane whose `.message` elements `scrollToMessage` counts.
 */
module ChatUi {
  import opened Wrappers
  import opened Strings
  import opened ChunkKey

  /** The bucket every front-end path names. */
  const Bucket: string := "rag-project-storagebucket"

  lemma BucketHasNoSlash()
    ensures '/' !in Bucket
  {
    assert forall i :: 0 <= i < |Bucket| ==> Bucket[i] != '/';
  }

  // ---------------------------------------------------------------- selection

  /** The page's `state`: the four choices and whether a question is in flight. */
  datatype ChatState = ChatState(board: string, cls: string, subject: string, chapter: string, processing: bool)

  const Initial: ChatState := ChatState("", "", "", "", false)

  /** A board button: sets the board and, through `showClassSelection`, clears every later choice. */
  function ChooseBoard(s: ChatState, v: string): (r: ChatState)
    ensures r.board == v && r.cls == "" && r.subject == "" && r.chapter == ""
    ensures r.processing == s.processing
  {
    ChatState(v, "", "", "", s.processing)
  }

  /** A class button: sets the class and, through `showSubjectSelection`, clears subject and chapter. */
  function ChooseClass(s: ChatState, v: string): (r: ChatState)
    ensures r.board == s.board && r.cls == v && r.subject == "" && r.chapter == ""
    ensures r.processing == s.processing
  {
    s.(cls := v, subject := "", chapter := "")
  }

  /** A subject button: sets the subject and, through `showChapterSelection`, clears the chapter. */
  function ChooseSubject(s: ChatState, v: string): (r: ChatState)
    ensures r.board == s.board && r.cls == s.cls && r.subject == v && r.chapter == ""
    ensures r.processing == s.processing
  {
    s.(subject := v, chapter := "")
  }

  /** A chapter button: sets the chapter only. */
  function ChooseChapter(s: ChatState, v: string): (r: ChatState)
    ensures r.board == s.board && r.cls == s.cls && r.subject == s.subject && r.chapter == v
    ensures r.processing == s.processing
  {
    s.(chapter := v)
  }

  predicate Complete(s: ChatState)
  {
    s.board != "" && s.cls != "" && s.subject != "" && s.chapter != ""
  }

  /** `updateSubmitButton`: the button is disabled unless all four choices are made. */
  function SubmitDisabled(s: ChatState): (disabled: bool)
    ensures disabled <==> s.board == "" || s.cls == "" || s.subject == "" || s.chapter == ""
  {
    !Complete(s)
  }

  /** A later choice is only ever set when every earlier one is. */
  predicate Cascaded(s: ChatState)
  {
    && (s.cls != "" ==> s.board != "")
    && (s.subject != "" ==> s.cls != "")
    && (s.chapter != "" ==> s.subject != "")
  }

  /**
   * The cascade is kept by every choice made from a visible button: a
   * level's buttons are shown only once the level above it is chosen.
   */
  lemma ChoicesKeepCascade(s: ChatState, v: string)
    requires Cascaded(s)
    ensures Cascaded(ChooseBoard(s, v))
    ensures s.board != "" ==> Cascaded(ChooseClass(s, v))
    ensures s.cls != "" ==> Cascaded(ChooseSubject(s, v))
    ensures s.subject != "" ==> Cascaded(ChooseChapter(s, v))
  {
  }

  /** Changing any level above the chapter disables the submit button again. */
  lemma UpperChoiceDisablesSubmit(s: ChatState, v: string)
    ensures SubmitDisabled(ChooseBoard(s, v))
    ensures SubmitDisabled(ChooseClass(s, v))
    ensures SubmitDisabled(ChooseSubject(s, v))
  {
  }

  /** Four non-empty choices made in order enable the submit button, whatever came before. */
  lemma FourChoicesEnableSubmit(s: ChatState, b: string, c: string, sub: string, ch: string)
    requires b != "" && c != "" && sub != "" && ch != ""
    ensures var r := ChooseChapter(ChooseSubject(ChooseClass(ChooseBoard(s, b), c), sub), ch);
      !SubmitDisabled(r) && r.board == b && r.cls == c && r.subject == sub && r.chapter == ch
  {
  }

  // ---------------------------------------------------------------- option lists

  const AllClasses: seq<string> := ["Class 6", "Class 7", "Class 8", "Class 9", "Class 10", "Class 11", "Class 12"]

  /** The class buttons `showClassSelection` builds for a board. */
  function ClassOptions(board: string): (r: seq<string>)
    ensures board == "NCERT" ==> |r| == 7
    ensures board != "NCERT" ==> |r| == 4
    ensures r[|r| - 4..] == ["Class 9", "Class 10", "Class 11", "Class 12"]
    ensures forall c :: c in r ==> c in AllClasses
    ensures forall c :: c in ["Class 6", "Class 7", "Class 8"] ==> (c in r <==> board == "NCERT")
    ensures r == AllClasses[|AllClasses| - |r|..]
  {
    if board == "NCERT" then AllClasses else AllClasses[3..]
  }

  /** The subject buttons `showSubjectSelection` builds for a class. */
  function SubjectOptions(cls: string): (r: seq<string>)
    ensures cls == "Class 11" || cls == "Class 12" ==> |r| == 6
    ensures cls != "Class 11" && cls != "Class 12" ==> |r| == 2
    ensures r[..2] == ["Mathematics", "Science"]
    ensures cls == "Class 11" || cls == "Class 12" ==> r[2..] == ["Physics", "Chemistry", "Biology", "Computer Science"]
    ensures forall sub :: sub in ["Physics", "Chemistry", "Biology", "Computer Science"] ==>
      (sub in r <==> cls == "Class 11" || cls == "Class 12")
  {
    var base := ["Mathematics", "Science"];
    if cls in ["Class 11", "Class 12"] then base + ["Physics", "Chemistry", "Biology", "Computer Science"]
    else base
  }

  /** The chapter buttons `showChapterSelection` builds: "Chapter 1" to "Chapter 10". */
  function ChapterOptions(): (r: seq<string>)
    ensures |r| == 10
    ensures forall i :: 0 <= i < 10 ==> r[i] == "Chapter " + NatToString(i + 1)
    ensures forall i :: 0 <= i < 10 ==> ' ' in r[i]
  {
    seq(10, i requires 0 <= i < 10 => assert ("Chapter " + NatToString(i + 1))[7] == ' '; "Chapter " + NatToString(i + 1))
  }

  lemma ChapterOptionsEnds()
    ensures ChapterOptions()[0] == "Chapter 1" && ChapterOptions()[9] == "Chapter 10"
  {
    assert NatToString(10) == NatToString(1) + [DigitChar(0)];
  }

  // ---------------------------------------------------------------- paths

  /** The object path the page asks about: the chapter's spaces become `_`. */
  function ObjectPath(s: ChatState): (file: string)
    ensures |file| == |s.board| + |s.cls| + |s.subject| + |s.chapter| + 3
    ensures ' ' !in file[|file| - |s.chapter|..]
    ensures (&& '/' !in s.board && '/' !in s.cls && '/' !in s.subject && '/' !in s.chapter)
      ==> Split(file, '/') == [s.board, s.cls, s.subject, ReplaceChar(s.chapter, ' ', '_')]
  {
    ObjectPathSplits(s.board, s.cls, s.subject, s.chapter);
    s.board + "/" + s.cls + "/" + s.subject + "/" + ReplaceChar(s.chapter, ' ', '_')
  }

  lemma ObjectPathSplits(board: string, cls: string, subject: string, chapter: string)
    ensures var file := board + "/" + cls + "/" + subject + "/" + ReplaceChar(chapter, ' ', '_');
      (&& '/' !in board && '/' !in cls && '/' !in subject && '/' !in chapter)
      ==> Split(file, '/') == [board, cls, subject, ReplaceChar(chapter, ' ', '_')]
  {
    var replaced := ReplaceChar(chapter, ' ', '_');
    if '/' !in board && '/' !in cls && '/' !in subject && '/' !in chapter {
      ReplaceSpaceKeepsOut(chapter);
      JoinFour(board, cls, subject, replaced);
      SplitJoin([board, cls, subject, replaced], '/');
    }
  }

  lemma ReplaceSpaceKeepsOut(chapter: string)
    requires '/' !in chapter
    ensures '/' !in ReplaceChar(chapter, ' ', '_')
  {
    var replaced := ReplaceChar(chapter, ' ', '_');
    forall i | 0 <= i < |replaced|
      ensures replaced[i] != '/'
    {
      assert chapter[i] in chapter;
    }
  }

  lemma JoinFour(a: string, b: string, c: string, d: string)
    ensures Join([a, b, c, d], '/') == a + "/" + b + "/" + c + "/" + d
  {
    var parts := [a, b, c, d];
    assert parts[1..][1..][1..] == [d];
    assert parts[1..][1..] == [c, d];
    assert parts[1..] == [b, c, d];
    assert Join([c, d], '/') == c + "/" + d;
    assert Join([b, c, d], '/') == b + "/" + (c + "/" + d);
  }

  /** The `gs://` string `sendMessage` and `buildPathString` send; ChatPathParses states what it holds. */
  function ChatPath(s: ChatState): string
  {
    GsPath(Bucket, ObjectPath(s))
  }

  /** The back ends read the page's path back as the page's bucket and object path. */
  lemma ChatPathParses(s: ChatState)
    ensures ParseLocation(ChatPath(s)) == Some(Location(Bucket, ObjectPath(s)))
  {
    BucketHasNoSlash();
    ParseGsPath(Bucket, ObjectPath(s));
  }

  const SelectAllFirst: string := "Please select all options first"

  /** `buildPathString`: the path when all four choices are made, the thrown message otherwise. */
  function BuildPathString(s: ChatState): (r: Result<string, string>)
    ensures r.Err? <==> SubmitDisabled(s)
    ensures r.Err? ==> r.error == SelectAllFirst
    ensures r.Ok? ==> ParseLocation(r.value) == Some(Location(Bucket, ObjectPath(s)))
  {
    ChatPathParses(s);
    if !Complete(s) then Err(SelectAllFirst) else Ok(ChatPath(s))
  }

  /** The body `sendMessage` posts. */
  datatype AskRequest = AskRequest(path: string, question: string)

  /**
   * `sendMessage`: nothing is sent for a question that trims to nothing or
   * while a request is in flight; otherwise the trimmed question is sent with
   * the page's path. Unlike submitting, sending does not check the selection.
   */
  function SendMessage(s: ChatState, input: string): (r: Option<AskRequest>)
    ensures r.None? <==> AllSpace(input, JsIsSpace) || s.processing
    ensures r.Some? ==> r.value.question != "" && r.value.question == Strip(input, JsIsSpace)
    ensures r.Some? ==> ParseLocation(r.value.path) == Some(Location(Bucket, ObjectPath(s)))
  {
    StripEmptyIff(input, JsIsSpace);
    ChatPathParses(s);
    var question := Strip(input, JsIsSpace);
    if question == "" || s.processing then None
    else Some(AskRequest(ChatPath(s), question))
  }

  /** With all four choices made, the question goes to the very path the submit button sent. */
  lemma SendUsesSubmittedPath(s: ChatState, input: string)
    requires !SubmitDisabled(s)
    requires SendMessage(s, input).Some?
    ensures BuildPathString(s) == Ok(SendMessage(s, input).value.path)
  {
  }

  // ---------------------------------------------------------------- history

  datatype Sender = User | Bot

  /** A chat message; the timestamp is a number on the same clock as the day thresholds. */
  datatype Message = Message(content: string, sender: Sender, timestamp: int)

  datatype Day = Today | Yesterday | Earlier

  /** The day bucket of a timestamp, given the start of today and the start of yesterday. */
  function DayOf(t: int, today: int, yesterday: int): (d: Day)
    requires yesterday <= today
    ensures d == Today <==> t >= today
    ensures d == Earlier <==> t < yesterday
  {
    if t >= today then Today else if t >= yesterday then Yesterday else Earlier
  }

  /** The messages of one day bucket, in history order. */
  function OnDay(history: seq<Message>, d: Day, today: int, yesterday: int): (r: seq<Message>)
    requires yesterday <= today
    ensures |r| <= |history|
    ensures forall i :: 0 <= i < |r| ==> DayOf(r[i].timestamp, today, yesterday) == d
  {
    if history == [] then []
    else
      assert history == [history[0]] + history[1..];
      (if DayOf(history[0].timestamp, today, yesterday) == d then [history[0]] else [])
        + OnDay(history[1..], d, today, yesterday)
  }

  /** Bucketing keeps order: the buckets of a concatenation are the concatenated buckets. */
  lemma {:induction false} OnDayConcat(a: seq<Message>, b: seq<Message>, d: Day, today: int, yesterday: int)
    requires yesterday <= today
    ensures OnDay(a + b, d, today, yesterday) == OnDay(a, d, today, yesterday) + OnDay(b, d, today, yesterday)
  {
    if a == [] {
      assert a + b == b;
    } else {
      assert (a + b)[1..] == a[1..] + b;
      OnDayConcat(a[1..], b, d, today, yesterday);
    }
  }

  /** A bucket holds exactly the history's messages of its day. */
  lemma {:induction false} OnDayMembers(history: seq<Message>, d: Day, today: int, yesterday: int)
    requires yesterday <= today
    ensures forall m :: m in OnDay(history, d, today, yesterday) <==> m in history && DayOf(m.timestamp, today, yesterday) == d
  {
    if history != [] {
      OnDayMembers(history[1..], d, today, yesterday);
      assert history == [history[0]] + history[1..];
    }
  }

  /** Adding `h` to the bucket `d` of three buckets adds it once to their union. */
  lemma AddToOneBucket(h: Message, d: Day, t: seq<Message>, y: seq<Message>, e: seq<Message>,
                       t': seq<Message>, y': seq<Message>, e': seq<Message>)
    requires t' == (if d == Today then [h] else []) + t
    requires y' == (if d == Yesterday then [h] else []) + y
    requires e' == (if d == Earlier then [h] else []) + e
    ensures multiset(t') + multiset(y') + multiset(e') == multiset{h} + (multiset(t) + multiset(y) + multiset(e))
  {
    match d
    case Today =>
      assert multiset(t') == multiset{h} + multiset(t) && y' == y && e' == e;
    case Yesterday =>
      assert multiset(y') == multiset{h} + multiset(y) && t' == t && e' == e;
    case Earlier =>
      assert multiset(e') == multiset{h} + multiset(e) && t' == t && y' == y;
  }

  /** The buckets of a non-empty history are those of its tail with the first message added once. */
  lemma BucketsStep(history: seq<Message>, today: int, yesterday: int)
    requires yesterday <= today && history != []
    ensures var rest := history[1..];
      multiset(OnDay(history, Today, today, yesterday)) + multiset(OnDay(history, Yesterday, today, yesterday))
        + multiset(OnDay(history, Earlier, today, yesterday))
      == multiset{history[0]} + (multiset(OnDay(rest, Today, today, yesterday)) + multiset(OnDay(rest, Yesterday, today, yesterday))
        + multiset(OnDay(rest, Earlier, today, yesterday)))
  {
    var rest := history[1..];
    AddToOneBucket(history[0], DayOf(history[0].timestamp, today, yesterday),
      OnDay(rest, Today, today, yesterday), OnDay(rest, Yesterday, today, yesterday), OnDay(rest, Earlier, today, yesterday),
      OnDay(history, Today, today, yesterday), OnDay(history, Yesterday, today, yesterday), OnDay(history, Earlier, today, yesterday));
  }

  lemma BagOfCons(s: seq<Message>)
    requires s != []
    ensures multiset(s) == multiset{s[0]} + multiset(s[1..])
  {
    assert s == [s[0]] + s[1..];
  }

  /** Every message lands in exactly one bucket: the three buckets together are a permutation of the history. */
  lemma {:induction false} BucketsPartition(history: seq<Message>, today: int, yesterday: int)
    requires yesterday <= today
    ensures multiset(OnDay(history, Today, today, yesterday)) + multiset(OnDay(history, Yesterday, today, yesterday))
      + multiset(OnDay(history, Earlier, today, yesterday)) == multiset(history)
  {
    if history != [] {
      BucketsStep(history, today, yesterday);
      BucketsPartition(history[1..], today, yesterday);
      BagOfCons(history);
    }
  }

  /** A history that falls in one bucket is that bucket, unchanged. */
  lemma {:induction false} OneBucketKeepsHistory(history: seq<Message>, d: Day, today: int, yesterday: int)
    requires yesterday <= today
    requires forall i :: 0 <= i < |history| ==> DayOf(history[i].timestamp, today, yesterday) == d
    ensures OnDay(history, d, today, yesterday) == history
  {
    if history != [] {
      OneBucketKeepsHistory(history[1..], d, today, yesterday);
      assert history == [history[0]] + history[1..];
    }
  }

  /** `createHistoryItem`'s text: the message itself up to 30 characters, else its first 30 and "...". */
  function HistoryPreview(content: string): (r: string)
    ensures |content| <= 30 ==> r == content
    ensures |content| > 30 ==> |r| == 33 && r[..30] == content[..30] && r[30..] == "..."
  {
    Preview(content, 30)
  }

  /** A sidebar entry: the index it scrolls to and the preview it shows. */
  datatype HistoryItem = HistoryItem(index: nat, preview: string, timestamp: int)

  /** The number of user messages from position `from` on. */
  function UserCount(msgs: seq<Message>, from: nat): nat
    requires from <= |msgs|
    decreases |msgs| - from
  {
    if from == |msgs| then 0 else (if msgs[from].sender == User then 1 else 0) + UserCount(msgs, from + 1)
  }

  /** `it` is the entry of a user message of `msgs`, numbered `offset` plus its position. */
  predicate PointsAt(msgs: seq<Message>, offset: nat, it: HistoryItem)
  {
    && offset <= it.index < offset + |msgs|
    && msgs[it.index - offset].sender == User
    && it.preview == HistoryPreview(msgs[it.index - offset].content)
  }

  /**
   * The entries for one bucket from position `from` on: one per user
   * message, numbered `offset` plus its position in the bucket.
   */
  function ItemsFrom(msgs: seq<Message>, offset: nat, from: nat): (r: seq<HistoryItem>)
    requires from <= |msgs|
    ensures forall k :: 0 <= k < |r| ==> PointsAt(msgs, offset, r[k]) && offset + from <= r[k].index
    ensures |r| == UserCount(msgs, from)
    ensures forall j, k :: 0 <= j < k < |r| ==> r[j].index < r[k].index
    decreases |msgs| - from
  {
    if from == |msgs| then []
    else
      var rest := ItemsFrom(msgs, offset, from + 1);
      if msgs[from].sender == User then
        var it := HistoryItem(offset + from, HistoryPreview(msgs[from].content), msgs[from].timestamp);
        ItemsCons(msgs, offset, from, it, rest);
        [it] + rest
      else rest
  }

  /** An entry for the user message at `from`, put before the entries of the later ones. */
  lemma ItemsCons(msgs: seq<Message>, offset: nat, from: nat, it: HistoryItem, rest: seq<HistoryItem>)
    requires from < |msgs| && it.index == offset + from && PointsAt(msgs, offset, it)
    requires forall k :: 0 <= k < |rest| ==> PointsAt(msgs, offset, rest[k]) && offset + from + 1 <= rest[k].index
    requires forall j, k :: 0 <= j < k < |rest| ==> rest[j].index < rest[k].index
    ensures var r := [it] + rest;
      && (forall k :: 0 <= k < |r| ==> PointsAt(msgs, offset, r[k]) && offset + from <= r[k].index)
      && forall j, k :: 0 <= j < k < |r| ==> r[j].index < r[k].index
  {
    var r := [it] + rest;
    assert forall k :: 1 <= k < |r| ==> r[k] == rest[k - 1];
  }

  /** The entries for one bucket, numbered from `offset`. */
  function Items(msgs: seq<Message>, offset: nat): seq<HistoryItem>
  {
    ItemsFrom(msgs, offset, 0)
  }

  datatype HistoryGroup = HistoryGroup(day: Day, items: seq<HistoryItem>)

  datatype HistoryView = NoHistoryYet | Groups(groups: seq<HistoryGroup>)

  /** The order the sidebar lists messages in: today's, then yesterday's, then earlier ones. */
  function Regrouped(history: seq<Message>, today: int, yesterday: int): (r: seq<Message>)
    requires yesterday <= today
  {
    OnDay(history, Today, today, yesterday) + OnDay(history, Yesterday, today, yesterday)
      + OnDay(history, Earlier, today, yesterday)
  }

  /** Where a bucket starts in the regrouped list. */
  function Offset(history: seq<Message>, d: Day, today: int, yesterday: int): nat
    requires yesterday <= today
  {
    match d
    case Today => 0
    case Yesterday => |OnDay(history, Today, today, yesterday)|
    case Earlier => |OnDay(history, Today, today, yesterday)| + |OnDay(history, Yesterday, today, yesterday)|
  }

  function GroupOf(history: seq<Message>, d: Day, today: int, yesterday: int): HistoryGroup
    requires yesterday <= today
  {
    HistoryGroup(d, Items(OnDay(history, d, today, yesterday), Offset(history, d, today, yesterday)))
  }

  /**
   * One group per non-empty bucket, entries numbered by position in the
   * regrouped list; RenderHistory and GroupsAreBuckets state what the groups hold.
   */
  function GroupsFrom(history: seq<Message>, today: int, yesterday: int): seq<HistoryGroup>
    requires yesterday <= today
  {
    (if OnDay(history, Today, today, yesterday) != [] then [GroupOf(history, Today, today, yesterday)] else [])
    + (if OnDay(history, Yesterday, today, yesterday) != [] then [GroupOf(history, Yesterday, today, yesterday)] else [])
    + (if OnDay(history, Earlier, today, yesterday) != [] then [GroupOf(history, Earlier, today, yesterday)] else [])
  }

  /**
   * `renderHistory`: a placeholder for an empty history; otherwise a group
   * per non-empty day bucket, in the order today, yesterday, earlier.
   */
  function RenderHistory(history: seq<Message>, today: int, yesterday: int): (r: HistoryView)
    requires yesterday <= today
    ensures r.NoHistoryYet? <==> history == []
    ensures r.Groups? ==> 1 <= |r.groups| <= 3
  {
    if history == [] then NoHistoryYet
    else
      assert OnDay(history, DayOf(history[0].timestamp, today, yesterday), today, yesterday) != [];
      Groups(GroupsFrom(history, today, yesterday))
  }

  /** An entry of a bucket placed after `pre` indexes that bucket's message in `pre + msgs + post`. */
  lemma ItemIndexes(pre: seq<Message>, msgs: seq<Message>, post: seq<Message>, it: HistoryItem)
    requires it in Items(msgs, |pre|)
    ensures var all := pre + msgs + post;
      PointsAt(all, 0, it) && all[it.index] == msgs[it.index - |pre|]
  {
    var r := Items(msgs, |pre|);
    var k :| 0 <= k < |r| && r[k] == it;
    assert PointsAt(msgs, |pre|, it);
    assert (pre + msgs + post)[it.index] == msgs[it.index - |pre|];
  }

  /** An entry of one bucket's group indexes a user message of that bucket in the regrouped list. */
  lemma BucketItemPoints(history: seq<Message>, d: Day, today: int, yesterday: int, it: HistoryItem)
    requires yesterday <= today
    requires it in GroupOf(history, d, today, yesterday).items
    ensures var all := Regrouped(history, today, yesterday);
      PointsAt(all, 0, it) && DayOf(all[it.index].timestamp, today, yesterday) == d
  {
    var t := OnDay(history, Today, today, yesterday);
    var y := OnDay(history, Yesterday, today, yesterday);
    var e := OnDay(history, Earlier, today, yesterday);
    match d
    case Today =>
      ItemIndexes([], t, y + e, it);
      assert [] + t + (y + e) == t + y + e;
    case Yesterday =>
      ItemIndexes(t, y, e, it);
    case Earlier =>
      ItemIndexes(t + y, e, [], it);
      assert t + y + e + [] == t + y + e;
  }

  /** Every group shown is the group of its own day bucket. */
  lemma GroupsAreBuckets(history: seq<Message>, today: int, yesterday: int, g: HistoryGroup)
    requires yesterday <= today
    requires g in GroupsFrom(history, today, yesterday)
    ensures g == GroupOf(history, g.day, today, yesterday)
  {
  }

  /**
   * Every sidebar entry points, in the regrouped list, at a user message of
   * its own day bucket and shows that message's preview.
   */
  lemma HistoryItemsPointAtUserMessages(history: seq<Message>, today: int, yesterday: int)
    requires yesterday <= today
    ensures var all := Regrouped(history, today, yesterday);
      forall g, it :: g in GroupsFrom(history, today, yesterday) && it in g.items ==>
        PointsAt(all, 0, it) && DayOf(all[it.index].timestamp, today, yesterday) == g.day
  {
    forall g, it | g in GroupsFrom(history, today, yesterday) && it in g.items
      ensures var all := Regrouped(history, today, yesterday);
        PointsAt(all, 0, it) && DayOf(all[it.index].timestamp, today, yesterday) == g.day
    {
      GroupsAreBuckets(history, today, yesterday, g);
      BucketItemPoints(history, g.day, today, yesterday, it);
    }
  }

  /** A bucket no message of the history falls in is empty. */
  lemma {:induction false} EmptyBucket(history: seq<Message>, d: Day, today: int, yesterday: int)
    requires yesterday <= today
    requires forall i :: 0 <= i < |history| ==> DayOf(history[i].timestamp, today, yesterday) != d
    ensures OnDay(history, d, today, yesterday) == []
  {
    if history != [] {
      EmptyBucket(history[1..], d, today, yesterday);
    }
  }

  /** When the whole history is from today, entry numbers are plain positions in the history. */
  lemma TodayOnlyIndicesArePositions(history: seq<Message>, today: int, yesterday: int)
    requires yesterday <= today
    requires forall i :: 0 <= i < |history| ==> history[i].timestamp >= today
    ensures Regrouped(history, today, yesterday) == history
  {
    OneBucketKeepsHistory(history, Today, today, yesterday);
    EmptyBucket(history, Yesterday, today, yesterday);
    EmptyBucket(history, Earlier, today, yesterday);
  }

  /**
   * `scrollToMessage`: the message to scroll to, if the index is within the
   * `count` messages on the page. `None` as index stands for `parseInt`'s NaN.
   */
  function ScrollTarget(index: Option<int>, count: nat): (r: Option<nat>)
    ensures r.Some? <==> index.Some? && 0 <= index.value < count
    ensures r.Some? ==> r.value == index.value
  {
    match index
    case Some(i) => if 0 <= i < count then Some(i) else None
    case None => None
  }

  /**
   * Every sidebar entry scrolls somewhere: its index is below the history
   * length, and the page shows at least one message per history entry.
   */
  lemma HistoryItemsScroll(history: seq<Message>, today: int, yesterday: int, count: nat)
    requires yesterday <= today && |history| <= count
    ensures forall g, it :: g in GroupsFrom(history, today, yesterday) && it in g.items ==>
      ScrollTarget(Some(it.index), count) == Some(it.index)
  {
    HistoryItemsPointAtUserMessages(history, today, yesterday);
    BucketsPartition(history, today, yesterday);
    var all := Regrouped(history, today, yesterday);
    assert |multiset(all)| == |multiset(history)|;
  }

  /*
   * The chat pane. `scrollToMessage` counts the page's `.message` elements,
   * and more than the history's messages carry that class: the status bubble
   * of a submit, the error bubble a failed submit falls back to, and the
   * debug panel do too.
   */

  /** An element of the chat pane with class `message`. */
  datatype PageElement =
    | Rendered(msg: Message)      // `renderMessage`, one per history message
    | StatusBubble(text: string)  // `showProcessingMessage`, kept by a submit's `updateProcessingMessage`,
                                  // or `submitPath`'s fallback `errorDiv` (class `message bot error`)
    | DebugPanel                  // `addDebugInfo`

  /** The history messages among the page's elements, in page order. */
  function Shown(page: seq<PageElement>): (r: seq<Message>)
    ensures |r| <= |page|
  {
    if page == [] then [] else ShownOne(page[0]) + Shown(page[1..])
  }

  /** The history message an element shows, if any. */
  function ShownOne(e: PageElement): (r: seq<Message>)
    ensures r == [] <==> !e.Rendered?
    ensures e.Rendered? ==> r == [e.msg]
  {
    if e.Rendered? then [e.msg] else []
  }

  /** Counting rendered messages distributes over a split page. */
  lemma {:induction false} ShownConcat(a: seq<PageElement>, b: seq<PageElement>)
    ensures Shown(a + b) == Shown(a) + Shown(b)
  {
    if a == [] {
      assert [] + b == b;
    } else {
      var ab := a + b;
      assert ab[0] == a[0] && ab[1..] == a[1..] + b;
      ShownConcat(a[1..], b);
    }
  }

  /** Appending one element adds the message it shows, if any. */
  lemma ShownAppend(page: seq<PageElement>, e: PageElement)
    ensures Shown(page + [e]) == Shown(page) + ShownOne(e)
  {
    ShownConcat(page, [e]);
    assert [e][1..] == [];
  }

  /** Taking out an element that shows no message keeps the history the page shows. */
  lemma ShownRemove(page: seq<PageElement>, i: nat)
    requires i < |page| && !page[i].Rendered?
    ensures Shown(page[..i] + page[i + 1..]) == Shown(page)
  {
    var pre, post := page[..i], page[i + 1..];
    var upTo := pre + [page[i]];
    assert page == upTo + post;
    ShownAppend(pre, page[i]);
    assert Shown(upTo) == Shown(pre);
    ShownConcat(upTo, post);
    ShownConcat(pre, post);
  }

  /** The session's history next to the pane that shows it. */
  datatype Chat = Chat(history: seq<Message>, page: seq<PageElement>)

  /** The history is exactly the rendered messages of the page. */
  predicate InSync(c: Chat)
  {
    c.history == Shown(c.page)
  }

  /** `addUserMessage` / `addBotMessage`: push to the history and render at the end of the pane. */
  function AddMessage(c: Chat, m: Message): (r: Chat)
    ensures r.history == c.history + [m]
    ensures InSync(c) ==> InSync(r)
  {
    ShownAppend(c.page, Rendered(m));
    Chat(c.history + [m], c.page + [Rendered(m)])
  }

  /** `showProcessingMessage` and `addDebugInfo`: an element that is no history message. */
  function AddElement(c: Chat, e: PageElement): (r: Chat)
    requires !e.Rendered?
    ensures r.history == c.history && |r.page| == |c.page| + 1 && r.page[|c.page|] == e
    ensures InSync(c) ==> InSync(r)
  {
    ShownAppend(c.page, e);
    Chat(c.history, c.page + [e])
  }

  /** `sendMessage` removing its processing bubble at position `i`. */
  function RemoveElement(c: Chat, i: nat): (r: Chat)
    requires i < |c.page| && !c.page[i].Rendered?
    ensures r.history == c.history && |r.page| == |c.page| - 1
    ensures InSync(c) ==> InSync(r)
  {
    ShownRemove(c.page, i);
    Chat(c.history, c.page[..i] + c.page[i + 1..])
  }

  /**
   * `scrollToMessage(index)` as written: the `index`-th `.message` element
   * of the page, whatever it holds.
   */
  function ScrollElement(page: seq<PageElement>, index: int): (r: Option<PageElement>)
    ensures r.Some? <==> 0 <= index < |page|
    ensures r.Some? ==> r.value == page[index]
  {
    match ScrollTarget(Some(index), |page|)
    case Some(i) => Some(page[i])
    case None => None
  }

  /**
   * A submit, a question, its answer with a debug panel, a second question:
   * the second question's sidebar entry carries index 2 and scrolls to the
   * first answer.
   */
  lemma ScrollMissesAfterStatusAndDebug()
    ensures var q1, a1, q2 := Message("q1", User, 1), Message("a1", Bot, 2), Message("q2", User, 3);
      var c := AddMessage(AddElement(AddMessage(AddMessage(
        AddElement(Chat([], []), StatusBubble("PDF processed")), q1), a1), DebugPanel), q2);
      && InSync(c) && c.history == [q1, a1, q2]
      && GroupsFrom(c.history, 0, 0) == [HistoryGroup(Today, [HistoryItem(0, "q1", 1), HistoryItem(2, "q2", 3)])]
      && ScrollElement(c.page, 2) == Some(Rendered(a1))
  {
    var q1, a1, q2 := Message("q1", User, 1), Message("a1", Bot, 2), Message("q2", User, 3);
    assert InSync(Chat([], []));
    TodayEntries(q1, a1, q2);
  }

  /** The example questions are short enough to show in full. */
  lemma ShortPreviews()
    ensures HistoryPreview("q1") == "q1" && HistoryPreview("q2") == "q2"
  {
    assert |"q1"| == 2 && |"q2"| == 2;
  }

  /** The sidebar of a today-only history question, answer, question. */
  lemma TodayEntries(q1: Message, a1: Message, q2: Message)
    requires q1 == Message("q1", User, 1) && a1 == Message("a1", Bot, 2) && q2 == Message("q2", User, 3)
    ensures GroupsFrom([q1, a1, q2], 0, 0) == [HistoryGroup(Today, [HistoryItem(0, "q1", 1), HistoryItem(2, "q2", 3)])]
  {
    var h := [q1, a1, q2];
    assert ItemsFrom(h, 0, 0) == [HistoryItem(0, "q1", 1), HistoryItem(2, "q2", 3)] by {
      TodayItems(q1, a1, q2);
    }
    assert OnDay(h, Today, 0, 0) == h by {
      OneBucketKeepsHistory(h, Today, 0, 0);
    }
    assert OnDay(h, Yesterday, 0, 0) == [] && OnDay(h, Earlier, 0, 0) == [] by {
      EmptyBucket(h, Yesterday, 0, 0);
      EmptyBucket(h, Earlier, 0, 0);
    }
  }

  /** The entries of question, answer, question: the questions at positions 0 and 2. */
  lemma TodayItems(q1: Message, a1: Message, q2: Message)
    requires q1 == Message("q1", User, 1) && a1 == Message("a1", Bot, 2) && q2 == Message("q2", User, 3)
    ensures ItemsFrom([q1, a1, q2], 0, 0) == [HistoryItem(0, "q1", 1), HistoryItem(2, "q2", 3)]
  {
    var h := [q1, a1, q2];
    ShortPreviews();
    assert ItemsFrom(h, 0, 3) == [];
    assert ItemsFrom(h, 0, 2) == [HistoryItem(2, "q2", 3)];
    assert ItemsFrom(h, 0, 1) == [HistoryItem(2, "q2", 3)];
  }

  /**
   * Where the `index`-th history message sits among the page's `.message`
   * elements: the element a sidebar entry stands for.
   */
  function PagePosition(page: seq<PageElement>, index: nat): (r: Option<nat>)
    ensures r.Some? <==> index < |Shown(page)|
    ensures r.Some? ==> r.value < |page| && page[r.value] == Rendered(Shown(page)[index])
  {
    if page == [] then None
    else
      var head := |ShownOne(page[0])|;
      if head == 1 && index == 0 then
        Some(0)
      else
        var rest := PagePosition(page[1..], index - head);
        PagePositionStep(page, index, rest);
        Shifted(rest)
  }

  /** A position one element further on. */
  function Shifted(p: Option<nat>): (r: Option<nat>)
    ensures r.Some? <==> p.Some?
    ensures r.Some? ==> r.value == p.value + 1
  {
    match p
    case Some(i) => Some(i + 1)
    case None => None
  }

  /** What the search after the first element means for the whole page. */
  lemma PagePositionStep(page: seq<PageElement>, index: nat, rest: Option<nat>)
    requires page != [] && index >= |ShownOne(page[0])|
    requires rest.Some? <==> index - |ShownOne(page[0])| < |Shown(page[1..])|
    requires rest.Some? ==> (rest.value < |page| - 1
      && page[1..][rest.value] == Rendered(Shown(page[1..])[index - |ShownOne(page[0])|]))
    ensures var r := Shifted(rest);
      && (r.Some? <==> index < |Shown(page)|)
      && (r.Some? ==> r.value < |page| && page[r.value] == Rendered(Shown(page)[index]))
  {
    var head, tail := ShownOne(page[0]), Shown(page[1..]);
    assert Shown(page) == head + tail;
    if rest.Some? {
      assert page[rest.value + 1] == page[1..][rest.value];
      assert Shown(page)[index] == tail[index - |head|];
    }
  }

  /**
   * The element `PagePosition` finds has exactly `index` history messages
   * before it: it is the `index`-th one, not merely an equal message.
   */
  lemma {:induction false} PagePositionCounts(page: seq<PageElement>, index: nat, p: nat)
    requires PagePosition(page, index) == Some(p)
    ensures |Shown(page[..p])| == index
  {
    var head := |ShownOne(page[0])|;
    if head == 1 && index == 0 {
      assert page[..0] == [];
    } else {
      PagePositionUnfolds(page, index);
      PagePositionCounts(page[1..], index - head, p - 1);
      CountsStep(page, index, p - 1);
    }
  }

  /** Past a first element it does not stop at, the search goes on one element further. */
  lemma PagePositionUnfolds(page: seq<PageElement>, index: nat)
    requires page != [] && !(|ShownOne(page[0])| == 1 && index == 0)
    requires index - |ShownOne(page[0])| >= 0
    ensures PagePosition(page, index) == Shifted(PagePosition(page[1..], index - |ShownOne(page[0])|))
  {
  }

  /** A count after the first element, shifted past it. */
  lemma CountsStep(page: seq<PageElement>, index: nat, p: nat)
    requires page != [] && p < |page| - 1 && index >= |ShownOne(page[0])|
    requires |Shown(page[1..][..p])| == index - |ShownOne(page[0])|
    ensures |Shown(page[..p + 1])| == index
  {
    ShownPrefixStep(page, p);
  }

  /** A prefix of the page shows the first element's message, then the rest's. */
  lemma ShownPrefixStep(page: seq<PageElement>, p: nat)
    requires p < |page| - 1
    ensures Shown(page[..p + 1]) == ShownOne(page[0]) + Shown(page[1..][..p])
  {
    var first, after := [page[0]], page[1..][..p];
    assert page[..p + 1] == first + after;
    ShownConcat(first, after);
    assert Shown(first) == ShownOne(page[0]) by {
      assert first[1..] == [];
    }
  }

  /**
   * `scrollToMessage` counting only the rendered history messages: the
   * element reached holds the history message the index names.
   */
  function ScrollToHistory(page: seq<PageElement>, index: Option<int>): (r: Option<nat>)
    ensures r.Some? <==> index.Some? && 0 <= index.value < |Shown(page)|
    ensures r.Some? ==> r.value < |page| && page[r.value] == Rendered(Shown(page)[index.value])
  {
    match ScrollTarget(index, |Shown(page)|)
    case Some(i) => PagePosition(page, i)
    case None => None
  }

  /** The element the corrected scroll reaches has exactly `index` history messages before it. */
  lemma ScrollToHistoryCounts(page: seq<PageElement>, index: int)
    requires 0 <= index < |Shown(page)|
    ensures ScrollToHistory(page, Some(index)).Some?
    ensures |Shown(page[..ScrollToHistory(page, Some(index)).value])| == index
  {
    PagePositionCounts(page, index, ScrollToHistory(page, Some(index)).value);
  }

  /** On a page that shows nothing but the history, both scrolls reach the same element. */
  lemma ScrollAgreesOnPlainPage(page: seq<PageElement>, index: int)
    requires forall k :: 0 <= k < |page| ==> page[k].Rendered?
    ensures ScrollToHistory(page, Some(index)) == ScrollTarget(Some(index), |page|)
  {
    PlainPageShowsAll(page);
    if 0 <= index < |page| {
      var p := ScrollToHistory(page, Some(index)).value;
      ScrollToHistoryCounts(page, index);
      PlainPageShowsAll(page[..p]);
    }
  }

  /** A page of rendered messages only shows one history message per element. */
  lemma {:induction false} PlainPageShowsAll(page: seq<PageElement>)
    requires forall k :: 0 <= k < |page| ==> page[k].Rendered?
    ensures |Shown(page)| == |page|
  {
    if page != [] {
      PlainPageShowsAll(page[1..]);
    }
  }

  /**
   * A question sent before midnight and one after: the sidebar lists the
   * later one first with index 0, and index 0 is the earlier question, on
   * the page and in the history alike.
   */
  lemma EntryMissesAcrossMidnight()
    ensures var q1, q2 := Message("q1", User, -10), Message("q2", User, 5);
      var c := AddMessage(AddMessage(Chat([], []), q1), q2);
      && InSync(c) && c.history == [q1, q2]
      && GroupsFrom(c.history, 0, -100)
        == [HistoryGroup(Today, [HistoryItem(0, "q2", 5)]), HistoryGroup(Yesterday, [HistoryItem(1, "q1", -10)])]
      && ScrollElement(c.page, 0) == Some(Rendered(q1))
      && ScrollToHistory(c.page, Some(0)) == Some(0) && c.page[0] == Rendered(q1)
  {
    var q1, q2 := Message("q1", User, -10), Message("q2", User, 5);
    assert InSync(Chat([], []));
    MidnightEntries(q1, q2);
  }

  /** The sidebar of a question before midnight and one after. */
  lemma MidnightEntries(q1: Message, q2: Message)
    requires q1 == Message("q1", User, -10) && q2 == Message("q2", User, 5)
    ensures GroupsFrom([q1, q2], 0, -100)
      == [HistoryGroup(Today, [HistoryItem(0, "q2", 5)]), HistoryGroup(Yesterday, [HistoryItem(1, "q1", -10)])]
  {
    var h := [q1, q2];
    assert OnDay(h, Today, 0, -100) == [q2] && OnDay(h, Yesterday, 0, -100) == [q1] by {
      assert OnDay(h[1..], Today, 0, -100) == [q2];
      assert OnDay(h[1..], Yesterday, 0, -100) == [];
    }
    assert OnDay(h, Earlier, 0, -100) == [] by {
      EmptyBucket(h, Earlier, 0, -100);
    }
    assert ItemsFrom([q2], 0, 0) == [HistoryItem(0, "q2", 5)] && ItemsFrom([q1], 1, 0) == [HistoryItem(1, "q1", -10)] by {
      ShortPreviews();
    }
  }

  /** `it` is the entry of the user message at its own index in the history. */
  predicate EntryOf(history: seq<Message>, it: HistoryItem)
  {
    && it.index < |history|
    && history[it.index].sender == User
    && it.preview == HistoryPreview(history[it.index].content)
    && it.timestamp == history[it.index].timestamp
  }

  /** Some entry of `r` carries index `i`. */
  predicate HasEntry(r: seq<HistoryItem>, i: nat)
  {
    exists k :: 0 <= k < |r| && r[k].index == i
  }

  /**
   * The entries of day `d` numbered by position in the history itself, the
   * order the page shows the messages in, from position `from` on.
   */
  function DayItemsFrom(history: seq<Message>, d: Day, today: int, yesterday: int, from: nat): (r: seq<HistoryItem>)
    requires yesterday <= today && from <= |history|
    ensures forall k :: 0 <= k < |r| ==>
      from <= r[k].index && EntryOf(history, r[k]) && DayOf(history[r[k].index].timestamp, today, yesterday) == d
    ensures forall j, k :: 0 <= j < k < |r| ==> r[j].index < r[k].index
    ensures forall i :: (from <= i < |history| && history[i].sender == User
      && DayOf(history[i].timestamp, today, yesterday) == d) ==> HasEntry(r, i)
    decreases |history| - from
  {
    if from == |history| then []
    else
      var rest := DayItemsFrom(history, d, today, yesterday, from + 1);
      if history[from].sender == User && DayOf(history[from].timestamp, today, yesterday) == d then
        var it := HistoryItem(from, HistoryPreview(history[from].content), history[from].timestamp);
        DayItemsCons(history, d, today, yesterday, from, it, rest);
        [it] + rest
      else rest
  }

  /** An entry for the message at `from`, put before the entries of the later messages. */
  lemma DayItemsCons(history: seq<Message>, d: Day, today: int, yesterday: int, from: nat, it: HistoryItem, rest: seq<HistoryItem>)
    requires yesterday <= today && from < |history|
    requires it.index == from && EntryOf(history, it) && DayOf(history[from].timestamp, today, yesterday) == d
    requires forall k :: 0 <= k < |rest| ==>
      from + 1 <= rest[k].index && EntryOf(history, rest[k]) && DayOf(history[rest[k].index].timestamp, today, yesterday) == d
    requires forall j, k :: 0 <= j < k < |rest| ==> rest[j].index < rest[k].index
    requires forall i :: (from + 1 <= i < |history| && history[i].sender == User
      && DayOf(history[i].timestamp, today, yesterday) == d) ==> HasEntry(rest, i)
    ensures var r := [it] + rest;
      && (forall k :: 0 <= k < |r| ==>
        from <= r[k].index && EntryOf(history, r[k]) && DayOf(history[r[k].index].timestamp, today, yesterday) == d)
      && (forall j, k :: 0 <= j < k < |r| ==> r[j].index < r[k].index)
      && forall i :: (from <= i < |history| && history[i].sender == User
        && DayOf(history[i].timestamp, today, yesterday) == d) ==> HasEntry(r, i)
  {
    ConsKeepsEntries(it, rest);
  }

  /** Putting an entry in front keeps every entry the rest had. */
  lemma ConsKeepsEntries(it: HistoryItem, rest: seq<HistoryItem>)
    ensures HasEntry([it] + rest, it.index)
    ensures forall i :: HasEntry(rest, i) ==> HasEntry([it] + rest, i)
    ensures forall k :: 1 <= k < |[it] + rest| ==> ([it] + rest)[k] == rest[k - 1]
  {
    var r := [it] + rest;
    assert r[0].index == it.index;
    forall i | HasEntry(rest, i)
      ensures HasEntry(r, i)
    {
      var k :| 0 <= k < |rest| && rest[k].index == i;
      assert r[k + 1] == rest[k];
    }
  }

  function FixedGroupOf(history: seq<Message>, d: Day, today: int, yesterday: int): HistoryGroup
    requires yesterday <= today
  {
    HistoryGroup(d, DayItemsFrom(history, d, today, yesterday, 0))
  }

  /**
   * `renderHistory`'s groups with every entry numbered by its message's
   * position in the history rather than in the regrouped list.
   */
  function FixedGroupsFrom(history: seq<Message>, today: int, yesterday: int): (r: seq<HistoryGroup>)
    requires yesterday <= today
    ensures forall g :: g in r ==> g == FixedGroupOf(history, g.day, today, yesterday)
    ensures forall i :: 0 <= i < |history| && history[i].sender == User ==>
      exists g :: g in r && g.day == DayOf(history[i].timestamp, today, yesterday) && HasEntry(g.items, i)
  {
    var t := OnDay(history, Today, today, yesterday);
    var y := OnDay(history, Yesterday, today, yesterday);
    var e := OnDay(history, Earlier, today, yesterday);
    NonEmptyBuckets(history, today, yesterday);
    (if t != [] then [FixedGroupOf(history, Today, today, yesterday)] else [])
    + (if y != [] then [FixedGroupOf(history, Yesterday, today, yesterday)] else [])
    + (if e != [] then [FixedGroupOf(history, Earlier, today, yesterday)] else [])
  }

  /** A message's own day bucket is not empty. */
  lemma NonEmptyBuckets(history: seq<Message>, today: int, yesterday: int)
    requires yesterday <= today
    ensures forall i :: 0 <= i < |history| ==> OnDay(history, DayOf(history[i].timestamp, today, yesterday), today, yesterday) != []
  {
    forall i | 0 <= i < |history|
      ensures OnDay(history, DayOf(history[i].timestamp, today, yesterday), today, yesterday) != []
    {
      OnDayMembers(history, DayOf(history[i].timestamp, today, yesterday), today, yesterday);
      assert history[i] in history;
    }
  }

  /**
   * With entries numbered by history position and the scroll counting only
   * rendered messages, every sidebar entry reaches the element showing the
   * user message it previews.
   */
  lemma FixedEntriesReachTheirMessage(c: Chat, today: int, yesterday: int)
    requires yesterday <= today && InSync(c)
    ensures forall g, it :: g in FixedGroupsFrom(c.history, today, yesterday) && it in g.items ==>
      && ScrollToHistory(c.page, Some(it.index)).Some?
      && c.page[ScrollToHistory(c.page, Some(it.index)).value] == Rendered(c.history[it.index])
      && EntryOf(c.history, it) && DayOf(c.history[it.index].timestamp, today, yesterday) == g.day
  {
  }
}

=== FILE: chunk_key.dfy ===
/**
 * Where a document's chunks are cached: the location parsed out of a
 * `gs://bucket/a/b/c` string, and the two cache-file names the back ends
 * derive from it (chat.py strips spaces from the file part, app.py keeps them).
 */
module ChunkKey {
  import opened Wrappers
  import opened Strings

  /** A storage location: the bucket and the object path inside it. */
  datatype Location = Location(bucket: string, file: string)

  const Suffix: string := "_chunks.json"

  /**
   * `bucket = path.split('/')[2]`, `file = '/'.join(path.split('/')[3:])`.
   * `None` stands for the IndexError raised when the path has fewer than three parts.
   */
  function ParseLocation(path: string): (r: Option<Location>)
    ensures r.None? <==> Count(path, '/') < 2
    ensures r.Some? ==> '/' !in r.value.bucket
  {
    var parts := Split(path, '/');
    if |parts| < 3 then None else Some(Location(parts[2], Join(parts[3..], '/')))
  }

  /** The scheme prefix every front end puts in front of the bucket. */
  function GsPath(bucket: string, file: string): string
  {
    "gs://" + bucket + "/" + file
  }

  /** Parsing a `gs://bucket/file` string gives back the bucket and the file, whatever the file holds. */
  lemma ParseGsPath(bucket: string, file: string)
    requires '/' !in bucket
    ensures ParseLocation(GsPath(bucket, file)) == Some(Location(bucket, file))
  {
    var path := GsPath(bucket, file);
    assert path == "gs:" + ['/'] + ("" + ['/'] + (bucket + ['/'] + file));
    SplitAfterPart("gs:", "" + ['/'] + (bucket + ['/'] + file), '/');
    SplitAfterPart("", bucket + ['/'] + file, '/');
    SplitAfterPart(bucket, file, '/');
    var parts := Split(path, '/');
    assert parts == ["gs:", "", bucket] + Split(file, '/');
    assert parts[3..] == Split(file, '/');
    JoinSplit(file, '/');
  }

  /** The file part of the chat.py cache name: `/` becomes `_`, then every space is removed. */
  function ChatFilePart(file: string): (r: string)
    ensures '/' !in r && ' ' !in r
    ensures |r| <= |file|
  {
    RemoveChar(ReplaceChar(file, '/', '_'), ' ')
  }

  /** chat.py's `get_chunks_path`; `None` where it raises IndexError. */
  function ChatChunksPath(path: string): (r: Option<string>)
    ensures r.None? <==> Count(path, '/') < 2
  {
    match ParseLocation(path)
    case None => None
    case Some(loc) => Some(loc.bucket + "_" + ChatFilePart(loc.file) + Suffix)
  }

  /** app.py's cache-file name for `(bucket, file)`: `/` becomes `_`, spaces stay. */
  function AppChunksFilename(bucket: string, file: string): (r: string)
    ensures |r| == |bucket| + |file| + 1 + |Suffix|
    ensures r[..|bucket|] == bucket && r[|r| - |Suffix|..] == Suffix
    ensures r[|bucket|] == '_'
    ensures forall k :: 0 <= k < |file| ==> r[|bucket| + 1 + k] == (if file[k] == '/' then '_' else file[k])
  {
    bucket + "_" + ReplaceChar(file, '/', '_') + Suffix
  }

  /**
   * For a path a front end builds, the chat.py key keeps the bucket verbatim
   * (spaces included) and has a file part free of `/` and of spaces.
   */
  lemma ChatKeyShape(bucket: string, file: string)
    requires '/' !in bucket
    ensures var m := ChatFilePart(file);
      && ChatChunksPath(GsPath(bucket, file)) == Some(bucket + "_" + m + Suffix)
      && '/' !in m && ' ' !in m
  {
    ParseGsPath(bucket, file);
  }

  lemma {:induction false} CountPositive(s: string, c: char)
    requires c in s
    ensures Count(s, c) >= 1
  {
    if s[0] != c {
      assert c in s[1..];
      CountPositive(s[1..], c);
    }
  }

  lemma {:induction false} RemoveAbsent(s: string, c: char)
    requires c !in s
    ensures RemoveChar(s, c) == s
  {
    if s != [] {
      assert c !in s[1..];
      RemoveAbsent(s[1..], c);
      assert s == [s[0]] + s[1..];
    }
  }

  /**
   * The two back ends share a cache file for a location exactly when its
   * file path holds no space.
   */
  lemma KeysAgreeIffNoSpace(bucket: string, file: string)
    requires '/' !in bucket
    ensures ChatChunksPath(GsPath(bucket, file)) == Some(AppChunksFilename(bucket, file))
        <==> ' ' !in file
  {
    ParseGsPath(bucket, file);
    var replaced := ReplaceChar(file, '/', '_');
    if ' ' in file {
      var i :| 0 <= i < |file| && file[i] == ' ';
      assert replaced[i] == ' ';
      CountPositive(replaced, ' ');
      assert |ChatFilePart(file)| < |replaced|;
    } else {
      assert ' ' !in replaced;
      RemoveAbsent(replaced, ' ');
    }
  }

  lemma {:induction false} ReplaceConcat(a: string, b: string, x: char, y: char)
    ensures ReplaceChar(a + b, x, y) == ReplaceChar(a, x, y) + ReplaceChar(b, x, y)
  {
    if a != [] {
      assert (a + b)[1..] == a[1..] + b;
      ReplaceConcat(a[1..], b, x, y);
    } else {
      assert a + b == b;
    }
  }

  /**
   * The chat.py key cannot tell a space from its absence: `Chapter 1` and
   * `Chapter1` share one cache file.
   */
  lemma ChatKeyIgnoresSpaces(x: string, y: string)
    ensures ChatFilePart(x + " " + y) == ChatFilePart(x + y)
  {
    var rx := ReplaceChar(x, '/', '_');
    var ry := ReplaceChar(y, '/', '_');
    var sp := ReplaceChar(" ", '/', '_');
    assert sp == " ";
    assert ReplaceChar(x + " " + y, '/', '_') == rx + " " + ry by {
      ReplaceConcat(x + " ", y, '/', '_');
      ReplaceConcat(x, " ", '/', '_');
    }
    assert ReplaceChar(x + y, '/', '_') == rx + ry by {
      ReplaceConcat(x, y, '/', '_');
    }
    assert RemoveChar(rx + " " + ry, ' ') == RemoveChar(rx, ' ') + RemoveChar(ry, ' ') by {
      RemoveConcat(rx + " ", ry, ' ');
      RemoveConcat(rx, " ", ' ');
      assert RemoveChar(" ", ' ') == "";
      assert RemoveChar(rx, ' ') + "" == RemoveChar(rx, ' ');
    }
    RemoveConcat(rx, ry, ' ');
  }

  /**
   * The app.py key cannot tell `/` from `_`: `a/b` and `a_b` in one bucket
   * share one cache file.
   */
  lemma AppKeyConflatesSlash(bucket: string, x: string, y: string)
    ensures AppChunksFilename(bucket, x + "/" + y) == AppChunksFilename(bucket, x + "_" + y)
  {
    assert ReplaceChar(x + "/" + y, '/', '_') == ReplaceChar(x + "_" + y, '/', '_');
  }
}

=== FILE: chunk_store.dfy ===
/**
 * The chunk cache: the JSON files the back ends write next to themselves,
 * seen as a map from file name to the stored chunk list. chat.py addresses
 * it with `get_chunks_path`, app.py with `store_chunks` / `load_chunks`.
 */
module ChunkStore {
  import opened Wrappers
  import opened ChunkKey

  type Store = map<string, seq<string>>

  /** Reading a cache file: its chunks, or `None` when the file does not exist. */
  function Get(store: Store, key: string): (r: Option<seq<string>>)
    ensures r.Some? <==> key in store
    ensures r.Some? ==> r.value == store[key]
  {
    if key in store then Some(store[key]) else None
  }

  /** Writing a cache file: it now holds `chunks`; every other file is untouched. */
  function Put(store: Store, key: string, chunks: seq<string>): (r: Store)
    ensures r.Keys == store.Keys + {key}
    ensures Get(r, key) == Some(chunks)
    ensures forall k :: k != key ==> Get(r, k) == Get(store, k)
  {
    store[key := chunks]
  }

  /** app.py's `store_chunks(bucket_name, file_path, chunks)`. */
  function StoreChunks(store: Store, bucket: string, file: string, chunks: seq<string>): (r: Store)
    ensures Get(r, AppChunksFilename(bucket, file)) == Some(chunks)
    ensures forall k :: k != AppChunksFilename(bucket, file) ==> Get(r, k) == Get(store, k)
    ensures |r.Keys - store.Keys| <= 1
  {
    Put(store, AppChunksFilename(bucket, file), chunks)
  }

  /** app.py's `load_chunks(bucket_name, file_path)`. */
  function LoadChunks(store: Store, bucket: string, file: string): (r: Option<seq<string>>)
    ensures r.None? <==> AppChunksFilename(bucket, file) !in store
  {
    Get(store, AppChunksFilename(bucket, file))
  }

  /** What `store_chunks` wrote, `load_chunks` reads back. */
  lemma LoadAfterStore(store: Store, bucket: string, file: string, chunks: seq<string>)
    ensures LoadChunks(StoreChunks(store, bucket, file, chunks), bucket, file) == Some(chunks)
  {
  }

  /**
   * After a store, any location reads the new chunks exactly when its file
   * name coincides with the stored one, and otherwise reads what it read before.
   */
  lemma LoadOtherAfterStore(store: Store, bucket: string, file: string, chunks: seq<string>, bucket': string, file': string)
    ensures LoadChunks(StoreChunks(store, bucket, file, chunks), bucket', file')
      == if AppChunksFilename(bucket', file') == AppChunksFilename(bucket, file) then Some(chunks)
         else LoadChunks(store, bucket', file')
  {
  }

  /** A location that was never stored reads as `None`. */
  lemma LoadNeverStored(bucket: string, file: string)
    ensures LoadChunks(map[], bucket, file) == None
  {
  }
}

=== FILE: chunker.dfy ===
/**
 * `split_pdf_into_chunks` of both back ends: a chunk is the extracted text of
 * one page, pages whose text is empty are skipped, page order is kept.
 * The PDF text extractor is an oracle.
 */
module Chunker {
  import opened Wrappers
  import opened PdfLoader

  /** PyPDF2 as an oracle: the text of every page, or `None` when the bytes are not a readable PDF. */
  type PdfReader = Bytes -> Option<seq<string>>

  /** chat.py's list comprehension over the page texts. */
  function SplitPdfIntoChunks(pages: seq<string>): (chunks: seq<string>)
    ensures |chunks| <= |pages|
    ensures forall c :: c in chunks <==> c in pages && c != ""
  {
    if pages == [] then []
    else
      assert pages == [pages[0]] + pages[1..];
      (if pages[0] != "" then [pages[0]] else []) + SplitPdfIntoChunks(pages[1..])
  }

  /** The chunks of a PDF, or `None` when the reader rejects its bytes. */
  function ChunksOfPdf(reader: PdfReader, pdf: Bytes): (r: Option<seq<string>>)
    ensures r.None? <==> reader(pdf).None?
    ensures r.Some? ==> forall c :: c in r.value <==> c in reader(pdf).value && c != ""
  {
    match reader(pdf)
    case None => None
    case Some(pages) => Some(SplitPdfIntoChunks(pages))
  }

  /** Chunking a document made of two runs of pages chunks each run in turn. */
  lemma {:induction false} ChunksOfConcat(a: seq<string>, b: seq<string>)
    ensures SplitPdfIntoChunks(a + b) == SplitPdfIntoChunks(a) + SplitPdfIntoChunks(b)
  {
    if a == [] {
      assert a + b == b;
    } else {
      assert (a + b)[0] == a[0];
      assert (a + b)[1..] == a[1..] + b;
      ChunksOfConcat(a[1..], b);
    }
  }

  /** Indices, from `from` on, of the pages whose text is not empty, in increasing order. */
  function TextPageIndices(pages: seq<string>, from: nat): (idx: seq<nat>)
    requires from <= |pages|
    ensures forall j :: 0 <= j < |idx| ==> from <= idx[j] < |pages| && pages[idx[j]] != ""
    ensures forall j, k :: 0 <= j < k < |idx| ==> idx[j] < idx[k]
    ensures forall i :: from <= i < |pages| && pages[i] != "" ==> i in idx
    decreases |pages| - from
  {
    if from == |pages| then []
    else if pages[from] != "" then [from] + TextPageIndices(pages, from + 1)
    else TextPageIndices(pages, from + 1)
  }

  /**
   * Chunk `j` is the text of the `j`-th non-empty page: one chunk per
   * non-empty page, in page order, nothing else.
   */
  lemma {:induction false} ChunksArePageTexts(pages: seq<string>, from: nat)
    requires from <= |pages|
    ensures var idx := TextPageIndices(pages, from);
      var chunks := SplitPdfIntoChunks(pages[from..]);
      |chunks| == |idx| && forall j :: 0 <= j < |idx| ==> chunks[j] == pages[idx[j]]
    decreases |pages| - from
  {
    if from < |pages| {
      ChunksArePageTexts(pages, from + 1);
      var rest := TextPageIndices(pages, from + 1);
      var tail := SplitPdfIntoChunks(pages[from + 1..]);
      assert pages[from..] == [pages[from]] + pages[from + 1..];
      ChunksOfConcat([pages[from]], pages[from + 1..]);
      if pages[from] != "" {
        assert SplitPdfIntoChunks(pages[from..]) == [pages[from]] + tail;
        assert TextPageIndices(pages, from) == [from] + rest;
      } else {
        assert SplitPdfIntoChunks(pages[from..]) == tail;
      }
    }
  }

  /** A document whose every page has text yields its pages unchanged. */
  lemma {:induction false} ChunksOfTextPages(pages: seq<string>)
    requires forall i :: 0 <= i < |pages| ==> pages[i] != ""
    ensures SplitPdfIntoChunks(pages) == pages
  {
    if pages != [] {
      ChunksOfTextPages(pages[1..]);
      assert pages == [pages[0]] + pages[1..];
    }
  }

  /** Chunking is idempotent: the chunks of the chunks are the chunks. */
  lemma ChunkingIdempotent(pages: seq<string>)
    ensures SplitPdfIntoChunks(SplitPdfIntoChunks(pages)) == SplitPdfIntoChunks(pages)
  {
    var chunks := SplitPdfIntoChunks(pages);
    assert forall i :: 0 <= i < |chunks| ==> chunks[i] in chunks;
    ChunksOfTextPages(chunks);
  }

  /** app.py's loop over `enumerate(reader.pages)`: it builds the same chunks as chat.py. */
  method AppSplitPdfIntoChunks(pages: seq<string>) returns (chunks: seq<string>)
    ensures chunks == SplitPdfIntoChunks(pages)
  {
    chunks := [];
    var i := 0;
    while i < |pages|
      invariant 0 <= i <= |pages|
      invariant chunks == SplitPdfIntoChunks(pages[..i])
    {
      var text := pages[i];
      if text != "" {
        chunks := chunks + [text];
      }
      ChunksOfConcat(pages[..i], [pages[i]]);
      assert pages[..i + 1] == pages[..i] + [pages[i]];
      i := i + 1;
    }
    assert pages[..i] == pages;
  }
}

=== FILE: context.dfy ===
/**
 * The context handed to the text generator: the ranked chunks with their
 * newlines turned into spaces, joined by single spaces, stripped at both ends
 * (chat.py and app.py build it the same way).
 */
module Context {
  import opened Strings

  /** Every chunk with `"\n"` replaced by `" "`. */
  function Flattened(chunks: seq<string>): (r: seq<string>)
    ensures |r| == |chunks|
    ensures forall i :: 0 <= i < |r| ==> '\n' !in r[i] && |r[i]| == |chunks[i]|
    ensures forall i, k :: 0 <= i < |r| && 0 <= k < |chunks[i]| ==>
      r[i][k] == (if chunks[i][k] == '\n' then ' ' else chunks[i][k])
  {
    seq(|chunks|, i requires 0 <= i < |chunks| => ReplaceChar(chunks[i], '\n', ' '))
  }

  lemma {:induction false} JoinAvoids(parts: seq<string>, sep: char, c: char)
    requires c != sep
    requires forall i :: 0 <= i < |parts| ==> c !in parts[i]
    ensures c !in Join(parts, sep)
  {
    if |parts| > 1 {
      JoinAvoids(parts[1..], sep, c);
    }
  }

  lemma {:induction false} JoinAllSpace(parts: seq<string>, sep: char, ws: char -> bool)
    requires ws(sep)
    ensures AllSpace(Join(parts, sep), ws) <==> forall i :: 0 <= i < |parts| ==> AllSpace(parts[i], ws)
  {
    if |parts| > 1 {
      JoinAllSpace(parts[1..], sep, ws);
      var rest := Join(parts[1..], sep);
      var s := parts[0] + [sep] + rest;
      assert s[..|parts[0]|] == parts[0];
      assert s[|parts[0]| + 1..] == rest;
      if AllSpace(s, ws) {
        assert AllSpace(parts[0], ws);
        assert AllSpace(rest, ws);
      }
      assert forall i :: 1 <= i < |parts| ==> parts[i] == parts[1..][i - 1];
    }
  }

  lemma StripKeepsOut(s: string, ws: char -> bool, c: char)
    requires c !in s
    ensures c !in Strip(s, ws)
  {
    var l := StripLeft(s, ws);
    var r := StripRight(l, ws);
    assert forall i :: 0 <= i < |l| ==> l[i] == s[|s| - |l| + i];
    assert forall i :: 0 <= i < |r| ==> r[i] == l[i];
  }

  /** `" ".join(chunk.replace("\n", " ") for chunk in chunks).strip()` */
  function JoinContext(chunks: seq<string>): (r: string)
    ensures '\n' !in r
    ensures r == [] || (!PyIsSpace(r[0]) && !PyIsSpace(r[|r| - 1]))
    ensures var joined := Join(Flattened(chunks), ' ');
      var i := |joined| - |StripLeft(joined, PyIsSpace)|;
      && i + |r| <= |joined| && r == joined[i..i + |r|]
      && AllSpace(joined[..i], PyIsSpace) && AllSpace(joined[i + |r|..], PyIsSpace)
  {
    var joined := Join(Flattened(chunks), ' ');
    JoinAvoids(Flattened(chunks), ' ', '\n');
    StripKeepsOut(joined, PyIsSpace, '\n');
    StripIsInfix(joined, PyIsSpace);
    Strip(joined, PyIsSpace)
  }

  /**
   * Chunks without newlines whose space-join has no whitespace at either end
   * give that join, unchanged, as the context.
   */
  lemma JoinContextOfCleanChunks(chunks: seq<string>)
    requires forall i :: 0 <= i < |chunks| ==> '\n' !in chunks[i]
    requires var j := Join(chunks, ' '); j == [] || (!PyIsSpace(j[0]) && !PyIsSpace(j[|j| - 1]))
    ensures JoinContext(chunks) == Join(chunks, ' ')
  {
    var flat := Flattened(chunks);
    forall i | 0 <= i < |chunks|
      ensures flat[i] == chunks[i]
    {
      assert forall k :: 0 <= k < |chunks[i]| ==> chunks[i][k] != '\n';
    }
    assert flat == chunks;
    StripClean(Join(chunks, ' '), PyIsSpace);
  }

  /**
   * The context is empty exactly when every chunk is whitespace only, which
   * is when the back end answers "No relevant context found".
   */
  lemma ContextEmptyIff(chunks: seq<string>)
    ensures JoinContext(chunks) == [] <==> forall i :: 0 <= i < |chunks| ==> AllSpace(chunks[i], PyIsSpace)
  {
    var flat := Flattened(chunks);
    StripEmptyIff(Join(flat, ' '), PyIsSpace);
    JoinAllSpace(flat, ' ', PyIsSpace);
    forall i | 0 <= i < |chunks|
      ensures AllSpace(flat[i], PyIsSpace) <==> AllSpace(chunks[i], PyIsSpace)
    {
      assert forall k :: 0 <= k < |chunks[i]| ==> PyIsSpace(flat[i][k]) == PyIsSpace(chunks[i][k]);
    }
  }

  /** The context of one chunk that has no whitespace at all is that chunk. */
  lemma ContextOfOneWord(chunk: string)
    requires forall k :: 0 <= k < |chunk| ==> !PyIsSpace(chunk[k])
    ensures JoinContext([chunk]) == chunk
  {
    assert PyIsSpace('\n');
    assert ReplaceChar(chunk, '\n', ' ') == chunk;
    assert Flattened([chunk]) == [chunk];
  }

  /** What separates the context from the question in both generator prompts. */
  const QuestionLabel: string := "\n\nQuestion: "

  /**
   * A generator prompt: a fixed `head` ending in "Context:", the context,
   * the question label, the question, a fixed `tail`. Both the context and
   * the question appear verbatim at known offsets.
   */
  function Prompt(head: string, context: string, query: string, tail: string): (r: string)
    ensures |r| == |head| + |context| + |QuestionLabel| + |query| + |tail|
    ensures r[..|head|] == head && r[|r| - |tail|..] == tail
    ensures r[|head|..|head| + |context|] == context
    ensures r[|head| + |context|..|head| + |context| + |QuestionLabel|] == QuestionLabel
    ensures r[|head| + |context| + |QuestionLabel|..|r| - |tail|] == query
  {
    head + context + QuestionLabel + query + tail
  }

  /** Two prompts with the same frame and equally long contexts agree exactly when context and question agree. */
  lemma PromptInjective(head: string, tail: string, c1: string, q1: string, c2: string, q2: string)
    requires |c1| == |c2|
    ensures Prompt(head, c1, q1, tail) == Prompt(head, c2, q2, tail) <==> c1 == c2 && q1 == q2
  {
    var p1 := Prompt(head, c1, q1, tail);
    var p2 := Prompt(head, c2, q2, tail);
    if p1 == p2 {
      assert c1 == p1[|head|..|head| + |c1|] == c2;
      assert q1 == p1[|head| + |c1| + |QuestionLabel|..|p1| - |tail|] == q2;
    }
  }
}

=== FILE: pdf_loader.dfy ===
/**
 * chat.py's `load_pdf_from_gcs`: seven spellings of the object path are
 * tried in a fixed order and the first one the bucket holds is downloaded.
 * The object store itself is an oracle.
 */
module PdfLoader {
  import opened Wrappers
  import opened Strings

  type Bytes = seq<bv8>

  /** The object store: whether `bucket` holds an object at a path, and that object's bytes. */
  datatype ObjectStore = ObjectStore(holds: (string, string) -> bool, download: (string, string) -> Bytes)

  /** The FileNotFoundError raised when no spelling exists, with the spellings it lists. */
  datatype NotFound = FileNotFound(bucket: string, file: string, tried: seq<string>)

  /** The spellings tried, in priority order. */
  function PathVariations(file: string): (vs: seq<string>)
    ensures |vs| == 7 && vs[0] == file
    ensures vs[1] == file + ".pdf"
    ensures ' ' !in vs[2]
    ensures forall i :: 2 <= i < 7 ==> |vs[i]| == |file|
    ensures forall k :: 0 <= k < |file| ==> vs[2][k] == (if file[k] == ' ' then '_' else file[k])
    ensures ReplacedWindows(file, "Chapter ", "Chapter_", vs[3])
    ensures ReplacedWindows(file, "Class ", "class_", vs[4])
    ensures forall k :: 0 <= k < |file| ==>
      vs[5][k] as int == (if IsAsciiUpper(file[k]) then file[k] as int + 32 else file[k] as int)
    ensures forall k :: 0 <= k < |file| ==>
      vs[6][k] as int == (if IsAsciiLower(file[k]) then file[k] as int - 32 else file[k] as int)
    ensures forall k :: 0 <= k < |file| ==> !IsAsciiUpper(vs[5][k]) && !IsAsciiLower(vs[6][k])
  {
    LastCharUnique("Chapter ");
    LastCharUnique("Class ");
    ReplaceAllWindows(file, "Chapter ", "Chapter_");
    ReplaceAllWindows(file, "Class ", "class_");
    [ file,
      file + ".pdf",
      ReplaceChar(file, ' ', '_'),
      ReplaceAll(file, "Chapter ", "Chapter_"),
      ReplaceAll(file, "Class ", "class_"),
      AsciiLower(file),
      AsciiUpper(file) ]
  }

  /** Index of the first path in `vs` that `holds` accepts, if any. */
  function FirstExisting(vs: seq<string>, holds: string -> bool): (r: Option<nat>)
    ensures r.Some? ==> r.value < |vs| && holds(vs[r.value])
    ensures r.Some? ==> forall j :: 0 <= j < r.value ==> !holds(vs[j])
    ensures r.None? <==> forall j :: 0 <= j < |vs| ==> !holds(vs[j])
  {
    if vs == [] then None
    else if holds(vs[0]) then Some(0)
    else match FirstExisting(vs[1..], holds)
      case None => None
      case Some(i) => Some(i + 1)
  }

  /** The bytes of the first existing spelling, or FileNotFoundError when none exists. */
  function LoadPdfFromGcs(objects: ObjectStore, bucket: string, file: string): (r: Result<Bytes, NotFound>)
    ensures r.Err? <==> forall i :: 0 <= i < 7 ==> !objects.holds(bucket, PathVariations(file)[i])
    ensures r.Err? ==> r.error == FileNotFound(bucket, file, PathVariations(file))
    ensures r.Ok? ==> exists i :: (0 <= i < 7
      && objects.holds(bucket, PathVariations(file)[i])
      && (forall j :: 0 <= j < i ==> !objects.holds(bucket, PathVariations(file)[j]))
      && r.value == objects.download(bucket, PathVariations(file)[i]))
  {
    var vs := PathVariations(file);
    match FirstExisting(vs, v => objects.holds(bucket, v))
    case Some(i) => Ok(objects.download(bucket, vs[i]))
    case None => Err(FileNotFound(bucket, file, vs))
  }

  /** When the path as given exists, no other spelling is consulted. */
  lemma ExactPathWins(objects: ObjectStore, bucket: string, file: string)
    requires objects.holds(bucket, file)
    ensures LoadPdfFromGcs(objects, bucket, file) == Ok(objects.download(bucket, file))
  {
  }

  /** The result depends on the store only through the seven spellings. */
  lemma OnlyVariationsMatter(a: ObjectStore, b: ObjectStore, bucket: string, file: string)
    requires forall i :: 0 <= i < 7 ==>
      a.holds(bucket, PathVariations(file)[i]) == b.holds(bucket, PathVariations(file)[i])
      && a.download(bucket, PathVariations(file)[i]) == b.download(bucket, PathVariations(file)[i])
    ensures LoadPdfFromGcs(a, bucket, file) == LoadPdfFromGcs(b, bucket, file)
  {
    var vs := PathVariations(file);
    var fa := FirstExisting(vs, v => a.holds(bucket, v));
    var fb := FirstExisting(vs, v => b.holds(bucket, v));
  }
}

=== FILE: ranking.dfy ===
/**
 * The three rankings of the back ends. Each scores every chunk against the
 * query with the embedding oracle, sorts descending and keeps the first k:
 *
 *   - chat.py `retrieve_relevant_chunks_with_scores` (the live path): stable
 *     sort on the score, equal scores keep chunk order;
 *   - chat.py `retrieve_relevant_chunks`: the same order over the chunks that
 *     encode, keeps only positive scores, falls back to the first k chunks;
 *   - app.py `retrieve_relevant_chunks`: sort on `(score, chunk)` tuples, so
 *     equal scores are ordered by chunk text, descending.
 *
 * Python's `list.sort(reverse=True)` is stable, so all three are one
 * insertion sort over `Entry` values under a strict total order `Before`
 * that differs only in how equal scores are broken.
 */
module Ranking {
  import opened Wrappers

  /** The sentence-embedding model as an oracle: whether `encode` succeeds on a text, and the dot product of two texts' embeddings. */
  datatype Embedder = Embedder(encodes: string -> bool, similarity: (string, string) -> int)

  /** One scored chunk: its score, its position in the chunk list, its text. */
  datatype Entry = Entry(score: int, index: nat, text: string)

  /** How two chunks with equal scores are ordered. */
  datatype TieBreak =
    | FirstSeen       // stable sort on the score alone: the earlier chunk first
    | TextDescending  // sort on `(score, chunk)`: the greater text first, then the earlier chunk

  /** Python's `a < b` on strings: lexicographic by code point. */
  predicate TextBelow(a: string, b: string)
    decreases |a|
  {
    if a == [] then b != []
    else if b == [] then false
    else a[0] < b[0] || (a[0] == b[0] && TextBelow(a[1..], b[1..]))
  }

  lemma {:induction false} TextBelowIrreflexive(a: string)
    ensures !TextBelow(a, a)
    decreases |a|
  {
    if a != [] {
      TextBelowIrreflexive(a[1..]);
    }
  }

  lemma {:induction false} TextBelowTransitive(a: string, b: string, c: string)
    requires TextBelow(a, b) && TextBelow(b, c)
    ensures TextBelow(a, c)
    decreases |a|
  {
    if a != [] && a[0] == b[0] && b[0] == c[0] {
      TextBelowTransitive(a[1..], b[1..], c[1..]);
    }
  }

  lemma TextBelowAsymmetric(a: string, b: string)
    requires TextBelow(a, b)
    ensures !TextBelow(b, a)
  {
    if TextBelow(b, a) {
      TextBelowTransitive(a, b, a);
      TextBelowIrreflexive(a);
    }
  }

  lemma {:induction false} TextBelowTotal(a: string, b: string)
    requires a != b
    ensures TextBelow(a, b) || TextBelow(b, a)
    decreases |a|
  {
    if a != [] && b != [] && a[0] == b[0] {
      assert a == [a[0]] + a[1..];
      assert b == [b[0]] + b[1..];
      TextBelowTotal(a[1..], b[1..]);
    }
  }

  /** Ordering of entries with equal scores. */
  predicate TieBefore(tb: TieBreak, a: Entry, b: Entry)
  {
    match tb
    case FirstSeen => a.index < b.index
    case TextDescending => TextBelow(b.text, a.text) || (a.text == b.text && a.index < b.index)
  }

  /** `a` comes before `b` in the descending sort. */
  predicate Before(tb: TieBreak, a: Entry, b: Entry)
  {
    a.score > b.score || (a.score == b.score && TieBefore(tb, a, b))
  }

  lemma BeforeIrreflexive(tb: TieBreak, a: Entry)
    ensures !Before(tb, a, a)
  {
    TextBelowIrreflexive(a.text);
  }

  lemma BeforeTransitive(tb: TieBreak, a: Entry, b: Entry, c: Entry)
    requires Before(tb, a, b) && Before(tb, b, c)
    ensures Before(tb, a, c)
  {
    if tb == TextDescending && a.score == b.score == c.score
      && TextBelow(b.text, a.text) && TextBelow(c.text, b.text)
    {
      TextBelowTransitive(c.text, b.text, a.text);
    }
  }

  lemma BeforeTotal(tb: TieBreak, a: Entry, b: Entry)
    requires a.index != b.index
    ensures Before(tb, a, b) || Before(tb, b, a)
  {
    if a.text != b.text {
      TextBelowTotal(a.text, b.text);
    }
  }

  predicate Sorted(tb: TieBreak, xs: seq<Entry>)
  {
    forall i, j :: 0 <= i < j < |xs| ==> Before(tb, xs[i], xs[j])
  }

  predicate DistinctIndices(xs: seq<Entry>)
  {
    forall i, j :: 0 <= i < j < |xs| ==> xs[i].index != xs[j].index
  }

  /** Inserts `e` after every entry that comes before it. */
  function Insert(tb: TieBreak, e: Entry, xs: seq<Entry>): (r: seq<Entry>)
    ensures multiset(r) == multiset(xs) + multiset{e}
  {
    if xs == [] then [e]
    else if Before(tb, e, xs[0]) then [e] + xs
    else
      assert xs == [xs[0]] + xs[1..];
      [xs[0]] + Insert(tb, e, xs[1..])
  }

  /** Insertion sort: the order `list.sort(reverse=True)` leaves the entries in. */
  function Sort(tb: TieBreak, xs: seq<Entry>): (r: seq<Entry>)
    ensures multiset(r) == multiset(xs)
    ensures |r| == |xs|
  {
    if xs == [] then []
    else
      assert xs == [xs[0]] + xs[1..];
      var r := Insert(tb, xs[0], Sort(tb, xs[1..]));
      assert |r| == |multiset(r)|;
      r
  }

  /** The sort keeps every entry: an entry of the input sits at some position of the output, and vice versa. */
  lemma SortKeeps(tb: TieBreak, xs: seq<Entry>, e: Entry)
    ensures e in xs <==> e in Sort(tb, xs)
  {
    assert e in xs <==> e in multiset(xs);
    assert e in Sort(tb, xs) <==> e in multiset(Sort(tb, xs));
  }

  lemma InsertKeeps(tb: TieBreak, e: Entry, xs: seq<Entry>, y: Entry)
    ensures y in Insert(tb, e, xs) <==> y == e || y in xs
  {
    assert y in Insert(tb, e, xs) <==> y in multiset(Insert(tb, e, xs));
    assert y in xs <==> y in multiset(xs);
  }

  lemma {:induction false} InsertSorted(tb: TieBreak, e: Entry, xs: seq<Entry>)
    requires Sorted(tb, xs)
    requires forall y :: y in xs ==> y.index != e.index
    ensures Sorted(tb, Insert(tb, e, xs))
  {
    if xs == [] {
    } else if Before(tb, e, xs[0]) {
      var r := [e] + xs;
      forall i, j | 0 <= i < j < |r|
        ensures Before(tb, r[i], r[j])
      {
        if i == 0 && j > 1 {
          BeforeTransitive(tb, e, xs[0], xs[j - 1]);
        }
      }
    } else {
      BeforeTotal(tb, e, xs[0]);
      var rest := Insert(tb, e, xs[1..]);
      InsertSorted(tb, e, xs[1..]);
      var r := [xs[0]] + rest;
      forall j | 1 <= j < |r|
        ensures Before(tb, xs[0], r[j])
      {
        var y := r[j];
        assert y == rest[j - 1];
        InsertKeeps(tb, e, xs[1..], y);
        if y != e {
          var k :| 0 <= k < |xs[1..]| && xs[1..][k] == y;
          assert xs[k + 1] == y;
        }
      }
    }
  }

  /** The sort puts entries with distinct indices in strictly increasing `Before` order. */
  lemma {:induction false} SortSorted(tb: TieBreak, xs: seq<Entry>)
    requires DistinctIndices(xs)
    ensures Sorted(tb, Sort(tb, xs))
  {
    if xs != [] {
      SortSorted(tb, xs[1..]);
      var s := Sort(tb, xs[1..]);
      forall y | y in s
        ensures y.index != xs[0].index
      {
        assert y in multiset(xs[1..]);
        var k :| 0 <= k < |xs[1..]| && xs[1..][k] == y;
        assert xs[k + 1] == y;
      }
      InsertSorted(tb, xs[0], s);
    }
  }

  /** The first `k` entries of the sorted list: Python's `scored_chunks[:top_k]` after the sort. */
  function Top(tb: TieBreak, xs: seq<Entry>, k: nat): (r: seq<Entry>)
    ensures |r| == Min(k, |xs|)
    ensures forall e :: e in r ==> e in xs
    ensures multiset(r) <= multiset(xs)
  {
    var s := Sort(tb, xs);
    forall e | e in s[..Min(k, |xs|)]
      ensures e in xs
    {
      assert e in multiset(s);
    }
    assert s == s[..Min(k, |xs|)] + s[Min(k, |xs|)..];
    s[..Min(k, |xs|)]
  }

  /**
   * The top `k` come in `Before` order, and every entry left out comes after
   * the last entry kept.
   */
  lemma TopOrdered(tb: TieBreak, xs: seq<Entry>, k: nat)
    requires DistinctIndices(xs)
    ensures Sorted(tb, Top(tb, xs, k))
    ensures var t := Top(tb, xs, k);
      |t| > 0 ==> forall e :: e in xs && e !in t ==> Before(tb, t[|t| - 1], e)
  {
    var s := Sort(tb, xs);
    var m := Min(k, |xs|);
    SortSorted(tb, xs);
    assert Top(tb, xs, k) == s[..m];
    SortedPrefix(tb, s, m);
    forall e | e in xs && e !in s[..m] && m > 0
      ensures Before(tb, s[m - 1], e)
    {
      SortKeeps(tb, xs, e);
      SortedPrefixLeads(tb, s, m, e);
    }
  }

  lemma SortedPrefix(tb: TieBreak, s: seq<Entry>, m: nat)
    requires Sorted(tb, s) && m <= |s|
    ensures Sorted(tb, s[..m])
  {
    forall i, j | 0 <= i < j < m
      ensures Before(tb, s[..m][i], s[..m][j])
    {
      assert s[..m][i] == s[i] && s[..m][j] == s[j];
    }
  }

  /** In a sorted list, an entry outside the first `m` comes after the `m`-th. */
  lemma SortedPrefixLeads(tb: TieBreak, s: seq<Entry>, m: nat, e: Entry)
    requires Sorted(tb, s) && 0 < m <= |s|
    requires e in s && e !in s[..m]
    ensures Before(tb, s[m - 1], e)
  {
    var p :| 0 <= p < |s| && s[p] == e;
    forall q | 0 <= q < m
      ensures s[q] != e
    {
      assert s[q] == s[..m][q];
    }
    assert m - 1 < p;
  }

  /** With at least one entry, the first of the sorted list comes before every other entry. */
  lemma SortedHeadLeads(tb: TieBreak, xs: seq<Entry>)
    requires DistinctIndices(xs) && xs != []
    ensures forall e :: e in xs ==> e == Sort(tb, xs)[0] || Before(tb, Sort(tb, xs)[0], e)
  {
    var s := Sort(tb, xs);
    SortSorted(tb, xs);
    forall e | e in xs
      ensures e == s[0] || Before(tb, s[0], e)
    {
      SortKeeps(tb, xs, e);
      var p :| 0 <= p < |s| && s[p] == e;
    }
  }

  /** Chunk `i` scored against the query, at position `i`. */
  function Entries(chunks: seq<string>, query: string, emb: Embedder): (r: seq<Entry>)
    ensures |r| == |chunks|
    ensures forall i :: 0 <= i < |r| ==> r[i] == Entry(emb.similarity(query, chunks[i]), i, chunks[i])
  {
    seq(|chunks|, i requires 0 <= i < |chunks| => Entry(emb.similarity(query, chunks[i]), i, chunks[i]))
  }

  predicate IncreasingIndices(xs: seq<Entry>)
  {
    forall i, j :: 0 <= i < j < |xs| ==> xs[i].index < xs[j].index
  }

  /** The entries whose text encodes: the chunks the `except` clause does not skip. */
  function Encoded(xs: seq<Entry>, emb: Embedder): (r: seq<Entry>)
    ensures forall e :: e in r <==> e in xs && emb.encodes(e.text)
    ensures |r| <= |xs|
    ensures multiset(r) <= multiset(xs)
  {
    if xs == [] then []
    else
      assert xs == [xs[0]] + xs[1..];
      (if emb.encodes(xs[0].text) then [xs[0]] else []) + Encoded(xs[1..], emb)
  }

  lemma {:induction false} EncodedIncreasing(xs: seq<Entry>, emb: Embedder)
    requires IncreasingIndices(xs)
    ensures IncreasingIndices(Encoded(xs, emb))
  {
    if xs != [] {
      EncodedIncreasing(xs[1..], emb);
      var rest := Encoded(xs[1..], emb);
      forall e | e in rest
        ensures xs[0].index < e.index
      {
        var k :| 0 <= k < |xs[1..]| && xs[1..][k] == e;
        assert xs[k + 1] == e;
      }
    }
  }

  /** The entries with a positive score, in order. */
  function Positive(xs: seq<Entry>): (r: seq<Entry>)
    ensures forall e :: e in r <==> e in xs && e.score > 0
    ensures |r| <= |xs|
    ensures (forall e :: e in xs ==> e.score <= 0) ==> r == []
    ensures multiset(r) <= multiset(xs)
  {
    if xs == [] then []
    else
      assert xs == [xs[0]] + xs[1..];
      (if xs[0].score > 0 then [xs[0]] else []) + Positive(xs[1..])
  }

  function Texts(xs: seq<Entry>): (r: seq<string>)
    ensures |r| == |xs|
    ensures forall i :: 0 <= i < |xs| ==> r[i] == xs[i].text
  {
    seq(|xs|, i requires 0 <= i < |xs| => xs[i].text)
  }

  lemma TextsConcat(a: seq<Entry>, b: seq<Entry>)
    ensures Texts(a + b) == Texts(a) + Texts(b)
  {
  }

  /** Taking texts keeps multiset inclusion: a sub-multiset of entries has a sub-multiset of texts. */
  lemma {:induction false} TextsSubMultiset(xs: seq<Entry>, ys: seq<Entry>)
    requires multiset(xs) <= multiset(ys)
    ensures multiset(Texts(xs)) <= multiset(Texts(ys))
    decreases |xs|
  {
    if xs != [] {
      HeadIn(xs, ys);
      var j :| 0 <= j < |ys| && ys[j] == xs[0];
      var rest := ys[..j] + ys[j + 1..];
      DropOne(xs, ys, j);
      TextsSubMultiset(xs[1..], rest);
      TextsDropOne(ys, j);
      TextsCons(xs);
      AddSame(multiset(Texts(xs[1..])), multiset(Texts(rest)), xs[0].text);
    }
  }

  lemma HeadIn(xs: seq<Entry>, ys: seq<Entry>)
    requires xs != [] && multiset(xs) <= multiset(ys)
    ensures xs[0] in ys
  {
    assert xs[0] in multiset(xs);
  }

  lemma TextsCons(xs: seq<Entry>)
    requires xs != []
    ensures multiset(Texts(xs)) == multiset(Texts(xs[1..])) + multiset{xs[0].text}
  {
    assert Texts(xs) == [xs[0].text] + Texts(xs[1..]);
  }

  lemma AddSame(a: multiset<string>, b: multiset<string>, t: string)
    requires a <= b
    ensures a + multiset{t} <= b + multiset{t}
  {
  }

  /** Matching the head of `xs` with entry `j` of `ys` leaves a sub-multiset on both sides. */
  lemma DropOne(xs: seq<Entry>, ys: seq<Entry>, j: nat)
    requires xs != [] && j < |ys| && ys[j] == xs[0] && multiset(xs) <= multiset(ys)
    ensures multiset(xs[1..]) <= multiset(ys[..j] + ys[j + 1..])
  {
    var x := xs[0];
    var rest := ys[..j] + ys[j + 1..];
    assert xs == [x] + xs[1..];
    assert ys == ys[..j] + [x] + ys[j + 1..];
    assert multiset(ys) == multiset(rest) + multiset{x};
    assert multiset(xs) == multiset(xs[1..]) + multiset{x};
    forall y
      ensures multiset(xs[1..])[y] <= multiset(rest)[y]
    {
      assert multiset(xs)[y] <= multiset(ys)[y];
    }
  }

  /** Dropping entry `j` drops exactly its text from the multiset of texts. */
  lemma TextsDropOne(ys: seq<Entry>, j: nat)
    requires j < |ys|
    ensures multiset(Texts(ys)) == multiset(Texts(ys[..j] + ys[j + 1..])) + multiset{ys[j].text}
  {
    var pre, post := ys[..j], ys[j + 1..];
    var upTo := pre + [ys[j]];
    var a, b := Texts(pre), Texts(post);
    assert Texts(ys) == a + [ys[j].text] + b by {
      assert ys == upTo + post;
      TextsConcat(upTo, post);
      TextsConcat(pre, [ys[j]]);
    }
    assert Texts(pre + post) == a + b by {
      TextsConcat(pre, post);
    }
  }

  /** The texts of the entries are the chunks themselves. */
  lemma EntriesTexts(chunks: seq<string>, query: string, emb: Embedder)
    ensures Texts(Entries(chunks, query, emb)) == chunks
  {
  }

  /** A `(chunk, score)` pair as chat.py returns them. */
  datatype ScoredChunk = ScoredChunk(text: string, score: int)

  function Pairs(xs: seq<Entry>): (r: seq<ScoredChunk>)
    ensures |r| == |xs|
    ensures forall i :: 0 <= i < |xs| ==> r[i] == ScoredChunk(xs[i].text, xs[i].score)
  {
    seq(|xs|, i requires 0 <= i < |xs| => ScoredChunk(xs[i].text, xs[i].score))
  }

  /** The chunk texts of a list of `(chunk, score)` pairs. */
  function ScoredTexts(scored: seq<ScoredChunk>): (r: seq<string>)
    ensures |r| == |scored| && forall i :: 0 <= i < |r| ==> r[i] == scored[i].text
  {
    seq(|scored|, i requires 0 <= i < |scored| => scored[i].text)
  }

  /** The ranked texts never repeat a chunk more often than the chunk list holds it. */
  lemma RankedTextsSubMultiset(tb: TieBreak, chunks: seq<string>, query: string, emb: Embedder, topK: nat)
    ensures multiset(Texts(Ranked(tb, chunks, query, emb, topK))) <= multiset(chunks)
  {
    var es := Entries(chunks, query, emb);
    TextsSubMultiset(Ranked(tb, chunks, query, emb, topK), es);
    EntriesTexts(chunks, query, emb);
  }

  predicate AllEncode(chunks: seq<string>, emb: Embedder)
  {
    forall i :: 0 <= i < |chunks| ==> emb.encodes(chunks[i])
  }

  /** The top `topK` chunks scored against the query, in `tb` order. */
  function Ranked(tb: TieBreak, chunks: seq<string>, query: string, emb: Embedder, topK: nat): seq<Entry>
  {
    Top(tb, Entries(chunks, query, emb), topK)
  }

  /** Each ranked entry is the chunk at its index, with that chunk's score. */
  lemma RankedAreChunks(tb: TieBreak, chunks: seq<string>, query: string, emb: Embedder, topK: nat)
    ensures var t := Ranked(tb, chunks, query, emb, topK);
      forall p :: 0 <= p < |t| ==>
        (t[p].index < |chunks| && t[p].text == chunks[t[p].index] && t[p].score == emb.similarity(query, t[p].text))
  {
    var es := Entries(chunks, query, emb);
    var t := Ranked(tb, chunks, query, emb, topK);
    forall p | 0 <= p < |t|
      ensures t[p].index < |chunks| && t[p].text == chunks[t[p].index]
      ensures t[p].score == emb.similarity(query, t[p].text)
    {
      assert t[p] in es;
      var j :| 0 <= j < |es| && es[j] == t[p];
    }
  }

  /**
   * Every chunk kept fewer times than the chunk list holds it (a duplicate
   * page counts once per copy) scores no higher than the last one kept.
   */
  lemma RankedOmittedBelow(tb: TieBreak, chunks: seq<string>, query: string, emb: Embedder, topK: nat)
    ensures var t := Ranked(tb, chunks, query, emb, topK);
      |t| > 0 ==> forall c :: c in chunks && CopyLeftOut(Texts(t), chunks, c) ==>
        emb.similarity(query, c) <= t[|t| - 1].score
  {
    var t := Ranked(tb, chunks, query, emb, topK);
    forall c | c in chunks && CopyLeftOut(Texts(t), chunks, c) && |t| > 0
      ensures emb.similarity(query, c) <= t[|t| - 1].score
    {
      RankedCopyBelow(tb, chunks, query, emb, topK, c);
    }
  }

  lemma RankedCopyBelow(tb: TieBreak, chunks: seq<string>, query: string, emb: Embedder, topK: nat, c: string)
    requires multiset(Texts(Ranked(tb, chunks, query, emb, topK)))[c] < multiset(chunks)[c]
    ensures var t := Ranked(tb, chunks, query, emb, topK);
      |t| > 0 ==> emb.similarity(query, c) <= t[|t| - 1].score
  {
    var es := Entries(chunks, query, emb);
    var t := Top(tb, es, topK);
    EntriesTexts(chunks, query, emb);
    TopOrdered(tb, es, topK);
    TopOmitsCopy(tb, es, topK, c);
    var e :| e in es && e !in t && e.text == c;
    EntryScore(chunks, query, emb, e);
    if |t| > 0 {
      assert Before(tb, t[|t| - 1], e);
    }
  }

  /** A text kept fewer times than the entries hold it has a copy among the entries left out. */
  lemma TopOmitsCopy(tb: TieBreak, xs: seq<Entry>, k: nat, c: string)
    requires DistinctIndices(xs)
    requires multiset(Texts(Top(tb, xs, k)))[c] < multiset(Texts(xs))[c]
    ensures exists e :: e in xs && e !in Top(tb, xs, k) && e.text == c
  {
    var s := Sort(tb, xs);
    var m := Min(k, |xs|);
    var t, rest := s[..m], s[m..];
    assert c in Texts(rest) by {
      SortTexts(tb, xs);
      assert s == t + rest;
      TextsConcat(t, rest);
    }
    var j :| 0 <= j < |rest| && Texts(rest)[j] == c;
    var e := s[m + j];
    assert e == rest[j];
    SortKeeps(tb, xs, e);
    SortSorted(tb, xs);
    SortedPrefixLeaves(tb, s, m, m + j);
  }

  /** The sort keeps the multiset of texts. */
  lemma SortTexts(tb: TieBreak, xs: seq<Entry>)
    ensures multiset(Texts(Sort(tb, xs))) == multiset(Texts(xs))
  {
    TextsSubMultiset(xs, Sort(tb, xs));
    TextsSubMultiset(Sort(tb, xs), xs);
  }

  /** In a sorted list, an entry at or after position `m` is not among the first `m`. */
  lemma SortedPrefixLeaves(tb: TieBreak, s: seq<Entry>, m: nat, p: nat)
    requires Sorted(tb, s) && m <= p < |s|
    ensures s[p] !in s[..m]
  {
    forall q | 0 <= q < m
      ensures s[..m][q] != s[p]
    {
      assert Before(tb, s[q], s[p]);
      BeforeIrreflexive(tb, s[p]);
    }
  }

  /** Skipping chunks that fail to encode keeps every copy of a text that encodes. */
  lemma {:induction false} EncodedCount(xs: seq<Entry>, emb: Embedder, c: string)
    requires emb.encodes(c)
    ensures multiset(Texts(Encoded(xs, emb)))[c] == multiset(Texts(xs))[c]
  {
    if xs != [] {
      var rest := xs[1..];
      EncodedCount(rest, emb, c);
      var head := if emb.encodes(xs[0].text) then [xs[0]] else [];
      var kept := multiset(Texts(head))[c];
      assert multiset(Texts(Encoded(xs, emb)))[c] == kept + multiset(Texts(Encoded(rest, emb)))[c] by {
        assert Encoded(xs, emb) == head + Encoded(rest, emb);
        TextsConcat(head, Encoded(rest, emb));
      }
      assert multiset(Texts(xs))[c] == multiset(Texts(rest))[c] + multiset{xs[0].text}[c] by {
        TextsCons(xs);
      }
      assert kept == multiset{xs[0].text}[c] by {
        if emb.encodes(xs[0].text) {
          assert Texts(head) == [xs[0].text];
        } else {
          assert Texts(head) == [];
        }
      }
    }
  }

  /** The `score > 0` filter keeps every copy of a text whose entries all score above zero. */
  lemma {:induction false} PositiveCount(xs: seq<Entry>, c: string)
    requires forall e :: e in xs && e.text == c ==> e.score > 0
    ensures multiset(Texts(Positive(xs)))[c] == multiset(Texts(xs))[c]
  {
    if xs != [] {
      var rest := xs[1..];
      assert xs[0] in xs;
      PositiveCount(rest, c);
      var head := if xs[0].score > 0 then [xs[0]] else [];
      var kept := multiset(Texts(head))[c];
      assert multiset(Texts(Positive(xs)))[c] == kept + multiset(Texts(Positive(rest)))[c] by {
        assert Positive(xs) == head + Positive(rest);
        TextsConcat(head, Positive(rest));
      }
      assert multiset(Texts(xs))[c] == multiset(Texts(rest))[c] + multiset{xs[0].text}[c] by {
        TextsCons(xs);
      }
      assert kept == multiset{xs[0].text}[c] by {
        if xs[0].score > 0 {
          assert Texts(head) == [xs[0].text];
        } else {
          assert Texts(head) == [];
        }
      }
    }
  }

  /** The ranked entries are sorted, are the chunks with their scores, and outrank every chunk left out. */
  lemma RankedFacts(tb: TieBreak, chunks: seq<string>, query: string, emb: Embedder, topK: nat)
    ensures var t := Ranked(tb, chunks, query, emb, topK);
      && |t| == Min(topK, |chunks|)
      && Sorted(tb, t)
      && (forall p :: 0 <= p < |t| ==>
            (t[p].index < |chunks| && t[p].text == chunks[t[p].index] && t[p].score == emb.similarity(query, t[p].text)))
      && (|t| > 0 ==> forall c :: c in chunks && CopyLeftOut(Texts(t), chunks, c) ==>
            emb.similarity(query, c) <= t[|t| - 1].score)
  {
    TopOrdered(tb, Entries(chunks, query, emb), topK);
    RankedAreChunks(tb, chunks, query, emb, topK);
    RankedOmittedBelow(tb, chunks, query, emb, topK);
  }

  /**
   * chat.py `retrieve_relevant_chunks_with_scores`: the `topK` best
   * `(chunk, score)` pairs, best first. `None` stands for the exception
   * `encode` raises on the query or on any chunk.
   */
  function RetrieveWithScores(chunks: seq<string>, query: string, emb: Embedder, topK: nat): (r: Option<seq<ScoredChunk>>)
    ensures r.Some? <==> emb.encodes(query) && AllEncode(chunks, emb)
    ensures r.Some? ==> |r.value| == Min(topK, |chunks|)
    ensures r.Some? ==> forall i :: 0 <= i < |r.value| ==>
      r.value[i].text in chunks && r.value[i].score == emb.similarity(query, r.value[i].text)
    ensures r.Some? ==> forall i, j :: 0 <= i < j < |r.value| ==> r.value[i].score >= r.value[j].score
    ensures r.Some? ==> multiset(ScoredTexts(r.value)) <= multiset(chunks)
    ensures r.Some? && |r.value| > 0 ==> forall c :: c in chunks && CopyLeftOut(ScoredTexts(r.value), chunks, c) ==>
      emb.similarity(query, c) <= r.value[|r.value| - 1].score
  {
    if !emb.encodes(query) || !AllEncode(chunks, emb) then None
    else
      RankedPairs(chunks, query, emb, topK);
      Some(Pairs(Ranked(FirstSeen, chunks, query, emb, topK)))
  }

  /** The ranked entries as `(chunk, score)` pairs, with the facts RetrieveWithScores promises. */
  lemma RankedPairs(chunks: seq<string>, query: string, emb: Embedder, topK: nat)
    ensures var ps := Pairs(Ranked(FirstSeen, chunks, query, emb, topK));
      && |ps| == Min(topK, |chunks|)
      && (forall i :: 0 <= i < |ps| ==> ps[i].text in chunks && ps[i].score == emb.similarity(query, ps[i].text))
      && (forall i, j :: 0 <= i < j < |ps| ==> ps[i].score >= ps[j].score)
      && multiset(ScoredTexts(ps)) <= multiset(chunks)
      && (|ps| > 0 ==> forall c :: c in chunks && CopyLeftOut(ScoredTexts(ps), chunks, c) ==>
            emb.similarity(query, c) <= ps[|ps| - 1].score)
  {
    var t := Ranked(FirstSeen, chunks, query, emb, topK);
    var ps := Pairs(t);
    assert ScoredTexts(ps) == Texts(t);
    RankedTextsSubMultiset(FirstSeen, chunks, query, emb, topK);
    RankedFacts(FirstSeen, chunks, query, emb, topK);
    forall i | 0 <= i < |ps|
      ensures ps[i].text in chunks && ps[i].score == emb.similarity(query, ps[i].text)
    {
      assert ps[i].text == chunks[t[i].index];
    }
    forall i, j | 0 <= i < j < |ps|
      ensures ps[i].score >= ps[j].score
    {
      assert Before(FirstSeen, t[i], t[j]);
    }
  }

  /**
   * Stability of the live ranking: of two returned chunks with equal scores,
   * the one earlier in the chunk list comes first.
   */
  lemma RetrieveWithScoresStable(chunks: seq<string>, query: string, emb: Embedder, topK: nat)
    ensures var t := Ranked(FirstSeen, chunks, query, emb, topK);
      && (RetrieveWithScores(chunks, query, emb, topK).Some? ==> RetrieveWithScores(chunks, query, emb, topK).value == Pairs(t))
      && forall p, q :: 0 <= p < q < |t| ==>
        t[p].score > t[q].score || (t[p].score == t[q].score && t[p].index < t[q].index)
  {
    RankedFacts(FirstSeen, chunks, query, emb, topK);
  }

  /** A chunk that scores strictly above every other chunk is returned first. */
  lemma BestChunkFirst(chunks: seq<string>, query: string, emb: Embedder, topK: nat, m: nat)
    requires emb.encodes(query) && AllEncode(chunks, emb)
    requires topK >= 1 && m < |chunks|
    requires forall i :: 0 <= i < |chunks| && i != m ==> emb.similarity(query, chunks[i]) < emb.similarity(query, chunks[m])
    ensures RetrieveWithScores(chunks, query, emb, topK).value[0].text == chunks[m]
  {
    RankedHeadIsBest(chunks, query, emb, topK, m);
    assert RetrieveWithScores(chunks, query, emb, topK).value == Pairs(Ranked(FirstSeen, chunks, query, emb, topK));
  }

  lemma RankedHeadIsBest(chunks: seq<string>, query: string, emb: Embedder, topK: nat, m: nat)
    requires topK >= 1 && m < |chunks|
    requires forall i :: 0 <= i < |chunks| && i != m ==> emb.similarity(query, chunks[i]) < emb.similarity(query, chunks[m])
    ensures |Ranked(FirstSeen, chunks, query, emb, topK)| > 0
    ensures Ranked(FirstSeen, chunks, query, emb, topK)[0].text == chunks[m]
  {
    var es := Entries(chunks, query, emb);
    var s := Sort(FirstSeen, es);
    assert es[m] in es;
    SortedHeadLeads(FirstSeen, es);
    SortKeeps(FirstSeen, es, s[0]);
    var j :| 0 <= j < |es| && es[j] == s[0];
    assert Ranked(FirstSeen, chunks, query, emb, topK)[0] == s[0];
  }

  /** `r` holds `c` fewer times than `chunks` does: some copy of `c` was left out. */
  predicate CopyLeftOut(r: seq<string>, chunks: seq<string>, c: string)
  {
    multiset(r)[c] < multiset(chunks)[c]
  }

  /** The positive-score entries among the top `topK` encoded chunks, best first. */
  function RelevantEntries(chunks: seq<string>, query: string, emb: Embedder, topK: nat): seq<Entry>
  {
    Positive(Top(FirstSeen, Encoded(Entries(chunks, query, emb), emb), topK))
  }

  /**
   * chat.py `retrieve_relevant_chunks` before its fallback: the texts of the
   * positive-score chunks among the top `topK` chunks that encode, best
   * first. A chunk that encodes and is left out scores no higher than the
   * last one kept.
   */
  function RelevantTexts(chunks: seq<string>, query: string, emb: Embedder, topK: nat): (r: seq<string>)
    ensures |r| <= Min(topK, |chunks|)
    ensures forall c :: c in r ==> c in chunks && emb.encodes(c) && emb.similarity(query, c) > 0
    ensures multiset(r) <= multiset(chunks)
    ensures SimilarityDescends(r, query, emb)
    ensures |r| > 0 ==> forall c :: c in chunks && emb.encodes(c) && CopyLeftOut(r, chunks, c) ==>
      emb.similarity(query, c) <= emb.similarity(query, r[|r| - 1])
    ensures forall c :: c in chunks && emb.encodes(c) && emb.similarity(query, c) > 0 && CopyLeftOut(r, chunks, c) ==>
      |r| == topK
  {
    RelevantFacts(chunks, query, emb, topK);
    Texts(RelevantEntries(chunks, query, emb, topK))
  }

  /** The facts RelevantTexts promises, about the texts of RelevantEntries. */
  lemma RelevantFacts(chunks: seq<string>, query: string, emb: Embedder, topK: nat)
    ensures var r := Texts(RelevantEntries(chunks, query, emb, topK));
      && |r| <= Min(topK, |chunks|)
      && (forall c :: c in r ==> c in chunks && emb.encodes(c) && emb.similarity(query, c) > 0)
      && multiset(r) <= multiset(chunks)
      && SimilarityDescends(r, query, emb)
      && (|r| > 0 ==> forall c :: c in chunks && emb.encodes(c) && CopyLeftOut(r, chunks, c) ==>
            emb.similarity(query, c) <= emb.similarity(query, r[|r| - 1]))
      && (forall c :: c in chunks && emb.encodes(c) && emb.similarity(query, c) > 0 && CopyLeftOut(r, chunks, c) ==>
            |r| == topK)
  {
    var pos := RelevantEntries(chunks, query, emb, topK);
    RelevantSound(chunks, query, emb, topK);
    TextsOfSomeMember(pos);
    RelevantSubMultiset(chunks, query, emb, topK);
    RelevantOrdered(chunks, query, emb, topK);
    RelevantOmittedBelow(chunks, query, emb, topK);
    RelevantComplete(chunks, query, emb, topK);
  }

  /** Every relevant entry is a chunk at its index that encodes and scores above zero. */
  lemma RelevantSound(chunks: seq<string>, query: string, emb: Embedder, topK: nat)
    ensures var pos := RelevantEntries(chunks, query, emb, topK);
      && |pos| <= Min(topK, |chunks|)
      && forall e :: e in pos ==>
        e.index < |chunks| && e.text == chunks[e.index] && emb.encodes(e.text)
        && e.score == emb.similarity(query, e.text) && e.score > 0
  {
    var all := Entries(chunks, query, emb);
    var es := Encoded(all, emb);
    var t := Top(FirstSeen, es, topK);
    var pos := Positive(t);
    forall e | e in pos
      ensures e.index < |chunks| && e.text == chunks[e.index] && emb.encodes(e.text)
      ensures e.score == emb.similarity(query, e.text) && e.score > 0
    {
      assert e in t;
      assert e in es;
      var j :| 0 <= j < |all| && all[j] == e;
    }
  }

  lemma RelevantSubMultiset(chunks: seq<string>, query: string, emb: Embedder, topK: nat)
    ensures multiset(Texts(RelevantEntries(chunks, query, emb, topK))) <= multiset(chunks)
  {
    var all := Entries(chunks, query, emb);
    var es := Encoded(all, emb);
    var t := Top(FirstSeen, es, topK);
    assert multiset(Positive(t)) <= multiset(all);
    TextsSubMultiset(Positive(t), all);
    EntriesTexts(chunks, query, emb);
  }

  /** Texts are in non-increasing order of their similarity to the query. */
  predicate SimilarityDescends(r: seq<string>, query: string, emb: Embedder)
  {
    forall i, j :: 0 <= i < j < |r| ==> emb.similarity(query, r[i]) >= emb.similarity(query, r[j])
  }

  /** Scores never increase along the list. */
  predicate ScoresDescend(xs: seq<Entry>)
  {
    forall i, j :: 0 <= i < j < |xs| ==> xs[i].score >= xs[j].score
  }

  lemma HeadDominates(xs: seq<Entry>, e: Entry)
    requires ScoresDescend(xs) && xs != [] && e in xs[1..]
    ensures xs[0].score >= e.score
  {
    var k :| 0 <= k < |xs[1..]| && xs[1..][k] == e;
    assert xs[k + 1] == e;
  }

  /** Filtering keeps a non-increasing score order. */
  lemma {:induction false} PositiveKeepsOrder(xs: seq<Entry>)
    requires ScoresDescend(xs)
    ensures ScoresDescend(Positive(xs))
  {
    if xs != [] {
      assert ScoresDescend(xs[1..]) by {
        forall i, j | 0 <= i < j < |xs[1..]|
          ensures xs[1..][i].score >= xs[1..][j].score
        {
          assert xs[1..][i] == xs[i + 1] && xs[1..][j] == xs[j + 1];
        }
      }
      PositiveKeepsOrder(xs[1..]);
      var rest := Positive(xs[1..]);
      if xs[0].score > 0 {
        ConsDescends(xs[0], rest, xs);
        assert Positive(xs) == [xs[0]] + rest;
      } else {
        assert Positive(xs) == rest;
      }
    }
  }

  lemma ConsDescends(x: Entry, rest: seq<Entry>, xs: seq<Entry>)
    requires ScoresDescend(rest) && ScoresDescend(xs) && xs != [] && x == xs[0]
    requires forall e :: e in rest ==> e in xs[1..]
    ensures ScoresDescend([x] + rest)
  {
    var r := [x] + rest;
    forall i, j | 0 <= i < j < |r|
      ensures r[i].score >= r[j].score
    {
      assert r[j] == rest[j - 1];
      if i == 0 {
        assert rest[j - 1] in rest;
        HeadDominates(xs, rest[j - 1]);
      } else {
        assert r[i] == rest[i - 1];
      }
    }
  }

  lemma RelevantOrdered(chunks: seq<string>, query: string, emb: Embedder, topK: nat)
    ensures var r := Texts(RelevantEntries(chunks, query, emb, topK));
      forall i, j :: 0 <= i < j < |r| ==> emb.similarity(query, r[i]) >= emb.similarity(query, r[j])
  {
    var all := Entries(chunks, query, emb);
    var es := Encoded(all, emb);
    var t := Top(FirstSeen, es, topK);
    assert ScoresDescend(t) by {
      EncodedIncreasing(all, emb);
      TopOrdered(FirstSeen, es, topK);
      forall i, j | 0 <= i < j < |t|
        ensures t[i].score >= t[j].score
      {
        assert Before(FirstSeen, t[i], t[j]);
      }
    }
    PositiveKeepsOrder(t);
    RelevantSound(chunks, query, emb, topK);
    var pos := Positive(t);
    var r := Texts(pos);
    forall i, j | 0 <= i < j < |r|
      ensures emb.similarity(query, r[i]) >= emb.similarity(query, r[j])
    {
      assert pos[i] in pos && pos[j] in pos;
    }
  }

  /**
   * An encodable chunk kept fewer times than the chunk list holds it scores
   * no higher than the last relevant one.
   */
  lemma RelevantOmittedBelow(chunks: seq<string>, query: string, emb: Embedder, topK: nat)
    ensures var r := Texts(RelevantEntries(chunks, query, emb, topK));
      |r| > 0 ==> forall c :: c in chunks && emb.encodes(c) && CopyLeftOut(r, chunks, c) ==>
        emb.similarity(query, c) <= emb.similarity(query, r[|r| - 1])
  {
    var pos := RelevantEntries(chunks, query, emb, topK);
    var r := Texts(pos);
    RelevantSound(chunks, query, emb, topK);
    forall c | c in chunks && emb.encodes(c) && CopyLeftOut(r, chunks, c) && |r| > 0
      ensures emb.similarity(query, c) <= emb.similarity(query, r[|r| - 1])
    {
      assert pos[|pos| - 1] in pos;
      if emb.similarity(query, c) > 0 {
        RelevantCopyLeftOut(chunks, query, emb, topK, c);
      }
    }
  }

  /** With every score positive, the filter keeps everything. */
  lemma {:induction false} PositiveOfPositive(xs: seq<Entry>)
    requires forall e :: e in xs ==> e.score > 0
    ensures Positive(xs) == xs
  {
    if xs != [] {
      assert xs[0] in xs;
      PositiveOfPositive(xs[1..]);
      assert xs == [xs[0]] + xs[1..];
    }
  }

  /**
   * No positive chunk is dropped while there is room: an encodable chunk
   * scoring above zero is kept fewer times than the chunk list holds it only
   * when `topK` relevant texts were kept.
   */
  lemma RelevantComplete(chunks: seq<string>, query: string, emb: Embedder, topK: nat)
    ensures var r := Texts(RelevantEntries(chunks, query, emb, topK));
      forall c :: c in chunks && emb.encodes(c) && emb.similarity(query, c) > 0 && CopyLeftOut(r, chunks, c) ==>
        |r| == topK
  {
    var r := Texts(RelevantEntries(chunks, query, emb, topK));
    forall c | c in chunks && emb.encodes(c) && emb.similarity(query, c) > 0 && CopyLeftOut(r, chunks, c)
      ensures |r| == topK
    {
      RelevantCopyLeftOut(chunks, query, emb, topK, c);
    }
  }

  /**
   * A positive encodable chunk returned fewer times than the chunk list holds
   * it has a copy outside the top `topK`: so the top is full and all positive,
   * and the copy scores no higher than its last entry.
   */
  lemma RelevantCopyLeftOut(chunks: seq<string>, query: string, emb: Embedder, topK: nat, c: string)
    requires emb.encodes(c) && emb.similarity(query, c) > 0
    requires multiset(Texts(RelevantEntries(chunks, query, emb, topK)))[c] < multiset(chunks)[c]
    ensures var pos := RelevantEntries(chunks, query, emb, topK);
      && |pos| == topK
      && (|pos| > 0 ==> emb.similarity(query, c) <= pos[|pos| - 1].score)
  {
    var es := Encoded(Entries(chunks, query, emb), emb);
    EncodedCopies(chunks, query, emb, topK, c);
    CopyOutsideTop(chunks, query, emb, topK, c);
    TopLeavesPositive(es, topK, emb.similarity(query, c));
  }

  /** A text the top `topK` encoded entries hold fewer times than all of them has an entry, with its own score, outside the top. */
  lemma CopyOutsideTop(chunks: seq<string>, query: string, emb: Embedder, topK: nat, c: string)
    requires var es := Encoded(Entries(chunks, query, emb), emb);
      multiset(Texts(Top(FirstSeen, es, topK)))[c] < multiset(Texts(es))[c]
    ensures var es := Encoded(Entries(chunks, query, emb), emb);
      && IncreasingIndices(es)
      && exists e :: e in es && e !in Top(FirstSeen, es, topK) && e.score == emb.similarity(query, c)
  {
    var all := Entries(chunks, query, emb);
    var es := Encoded(all, emb);
    EncodedIncreasing(all, emb);
    TopOmitsCopy(FirstSeen, es, topK, c);
    var e :| e in es && e !in Top(FirstSeen, es, topK) && e.text == c;
    EntryScore(chunks, query, emb, e);
  }

  /** An entry of the chunk list carries its own text's score. */
  lemma EntryScore(chunks: seq<string>, query: string, emb: Embedder, e: Entry)
    requires e in Entries(chunks, query, emb)
    ensures e.score == emb.similarity(query, e.text)
  {
    var es := Entries(chunks, query, emb);
    var i :| 0 <= i < |es| && es[i] == e;
  }

  /** Before the `score > 0` filter, the top `topK` encoded entries still hold fewer copies of `c` than the chunk list. */
  lemma EncodedCopies(chunks: seq<string>, query: string, emb: Embedder, topK: nat, c: string)
    requires emb.encodes(c) && emb.similarity(query, c) > 0
    requires multiset(Texts(RelevantEntries(chunks, query, emb, topK)))[c] < multiset(chunks)[c]
    ensures var es := Encoded(Entries(chunks, query, emb), emb);
      multiset(Texts(Top(FirstSeen, es, topK)))[c] < multiset(Texts(es))[c]
  {
    var all := Entries(chunks, query, emb);
    var t := Top(FirstSeen, Encoded(all, emb), topK);
    forall x | x in t && x.text == c
      ensures x.score > 0
    {
      EntryScore(chunks, query, emb, x);
    }
    PositiveCount(t, c);
    EncodedCount(all, emb, c);
    EntriesTexts(chunks, query, emb);
  }

  /** A positive entry left out of the top `k` means the top is full, all positive, and no lower than it. */
  lemma TopLeavesPositive(es: seq<Entry>, k: nat, score: int)
    requires IncreasingIndices(es) && score > 0
    requires exists e :: e in es && e !in Top(FirstSeen, es, k) && e.score == score
    ensures var pos := Positive(Top(FirstSeen, es, k));
      && |pos| == k
      && (|pos| > 0 ==> score <= pos[|pos| - 1].score)
  {
    var e :| e in es && e !in Top(FirstSeen, es, k) && e.score == score;
    TopFullOrHolds(FirstSeen, es, k, e);
    TopAbovePositive(es, k, e);
    PositiveOfPositive(Top(FirstSeen, es, k));
    TopOrdered(FirstSeen, es, k);
  }

  lemma TextsOfSomeMember(xs: seq<Entry>)
    ensures forall c :: c in Texts(xs) ==> exists e :: e in xs && e.text == c
  {
    forall c | c in Texts(xs)
      ensures exists e :: e in xs && e.text == c
    {
      var k :| 0 <= k < |xs| && Texts(xs)[k] == c;
      assert xs[k] in xs;
    }
  }

  lemma TextsOfMembers(xs: seq<Entry>)
    ensures forall e :: e in xs ==> e.text in Texts(xs)
  {
    forall e | e in xs
      ensures e.text in Texts(xs)
    {
      var k :| 0 <= k < |xs| && xs[k] == e;
      assert Texts(xs)[k] == e.text;
    }
  }

  /** The top `k` is full, or it holds every entry. */
  lemma TopFullOrHolds(tb: TieBreak, es: seq<Entry>, k: nat, e: Entry)
    requires e in es
    ensures |Top(tb, es, k)| == k || e in Top(tb, es, k)
  {
    if k >= |es| {
      SortKeeps(tb, es, e);
    }
  }

  /** Every entry of the top `k` scores at least as high as an entry left out. */
  lemma TopAbovePositive(es: seq<Entry>, k: nat, e: Entry)
    requires IncreasingIndices(es)
    requires e in es && e.score > 0
    ensures e !in Top(FirstSeen, es, k) ==> forall x :: x in Top(FirstSeen, es, k) ==> x.score > 0
  {
    var t := Top(FirstSeen, es, k);
    TopOrdered(FirstSeen, es, k);
    forall x | x in t && e !in t
      ensures x.score > 0
    {
      var p :| 0 <= p < |t| && t[p] == x;
      if p < |t| - 1 {
        assert Before(FirstSeen, t[p], t[|t| - 1]);
      }
    }
  }

  /** Filtering keeps the `Before` order of the entries that remain. */
  lemma {:induction false} PositiveSorted(tb: TieBreak, xs: seq<Entry>)
    requires Sorted(tb, xs)
    ensures Sorted(tb, Positive(xs))
  {
    if xs != [] {
      SortedTail(tb, xs);
      PositiveSorted(tb, xs[1..]);
      var rest := Positive(xs[1..]);
      if xs[0].score > 0 {
        ConsSorted(tb, rest, xs);
        assert Positive(xs) == [xs[0]] + rest;
      } else {
        assert Positive(xs) == rest;
      }
    }
  }

  lemma SortedTail(tb: TieBreak, xs: seq<Entry>)
    requires Sorted(tb, xs) && xs != []
    ensures Sorted(tb, xs[1..])
  {
    forall i, j | 0 <= i < j < |xs[1..]|
      ensures Before(tb, xs[1..][i], xs[1..][j])
    {
      assert xs[1..][i] == xs[i + 1] && xs[1..][j] == xs[j + 1];
    }
  }

  lemma ConsSorted(tb: TieBreak, rest: seq<Entry>, xs: seq<Entry>)
    requires Sorted(tb, rest) && Sorted(tb, xs) && xs != []
    requires forall e :: e in rest ==> e in xs[1..]
    ensures Sorted(tb, [xs[0]] + rest)
  {
    var r := [xs[0]] + rest;
    forall i, j | 0 <= i < j < |r|
      ensures Before(tb, r[i], r[j])
    {
      assert r[j] == rest[j - 1];
      if i == 0 {
        assert rest[j - 1] in rest;
        var k :| 0 <= k < |xs[1..]| && xs[1..][k] == rest[j - 1];
        assert xs[k + 1] == rest[j - 1];
      } else {
        assert r[i] == rest[i - 1];
      }
    }
  }

  /**
   * Stability of `retrieve_relevant_chunks`: the relevant texts are the
   * texts of entries that name their chunk, in descending score order, and
   * of two with equal scores the one earlier in the chunk list comes first.
   */
  lemma RelevantStable(chunks: seq<string>, query: string, emb: Embedder, topK: nat)
    ensures var pos := RelevantEntries(chunks, query, emb, topK);
      && RelevantTexts(chunks, query, emb, topK) == Texts(pos)
      && (forall p :: 0 <= p < |pos| ==> pos[p].index < |chunks| && pos[p].text == chunks[pos[p].index])
      && forall p, q :: 0 <= p < q < |pos| ==>
        pos[p].score > pos[q].score || (pos[p].score == pos[q].score && pos[p].index < pos[q].index)
  {
    var all := Entries(chunks, query, emb);
    var es := Encoded(all, emb);
    var t := Top(FirstSeen, es, topK);
    var pos := Positive(t);
    EncodedIncreasing(all, emb);
    TopOrdered(FirstSeen, es, topK);
    PositiveSorted(FirstSeen, t);
    RelevantSound(chunks, query, emb, topK);
    forall p | 0 <= p < |pos|
      ensures pos[p].index < |chunks| && pos[p].text == chunks[pos[p].index]
    {
      assert pos[p] in pos;
    }
  }

  /**
   * chat.py `retrieve_relevant_chunks` (defined, not called by `ask`):
   * chunks that fail to encode are skipped; only positive scores among the
   * top `topK` are kept; with none, or when the query fails to encode, the
   * first `topK` chunks are returned instead.
   */
  function RetrieveRelevantChunks(chunks: seq<string>, query: string, emb: Embedder, topK: nat): (r: seq<string>)
    ensures |r| <= topK && |r| <= |chunks|
    ensures forall c :: c in r ==> c in chunks
    ensures !emb.encodes(query) ==> r == chunks[..Min(topK, |chunks|)]
    ensures r == chunks[..Min(topK, |chunks|)] ||
      forall c :: c in r ==> emb.encodes(c) && emb.similarity(query, c) > 0
    ensures multiset(r) <= multiset(chunks)
    ensures (&& emb.encodes(query) && topK >= 1
             && exists i :: 0 <= i < |chunks| && emb.encodes(chunks[i]) && emb.similarity(query, chunks[i]) > 0)
      ==> r == RelevantTexts(chunks, query, emb, topK)
    ensures (&& emb.encodes(query)
             && forall i :: 0 <= i < |chunks| && emb.encodes(chunks[i]) ==> emb.similarity(query, chunks[i]) <= 0)
      ==> r == chunks[..Min(topK, |chunks|)]
  {
    var fallback := chunks[..Min(topK, |chunks|)];
    assert chunks == fallback + chunks[Min(topK, |chunks|)..];
    if !emb.encodes(query) then fallback
    else
      var relevant := RelevantTexts(chunks, query, emb, topK);
      if topK == 0 then fallback
      else
        FallbackIffNoPositive(chunks, query, emb, topK);
        if relevant == [] then fallback else relevant
  }

  lemma NoPositiveMeansFallback(chunks: seq<string>, query: string, emb: Embedder, topK: nat)
    requires forall i :: 0 <= i < |chunks| && emb.encodes(chunks[i]) ==> emb.similarity(query, chunks[i]) <= 0
    ensures RelevantTexts(chunks, query, emb, topK) == []
  {
    var r := RelevantTexts(chunks, query, emb, topK);
    forall c | c in chunks && emb.encodes(c)
      ensures emb.similarity(query, c) <= 0
    {
      var i :| 0 <= i < |chunks| && chunks[i] == c;
    }
  }

  lemma PositiveMeansRelevant(chunks: seq<string>, query: string, emb: Embedder, topK: nat, i: nat)
    requires topK >= 1 && i < |chunks|
    requires emb.encodes(chunks[i]) && emb.similarity(query, chunks[i]) > 0
    ensures RelevantTexts(chunks, query, emb, topK) != []
  {
    var all := Entries(chunks, query, emb);
    var es := Encoded(all, emb);
    var t := Top(FirstSeen, es, topK);
    assert all[i] in all;
    assert all[i] in es;
    EncodedIncreasing(all, emb);
    SortedHeadLeads(FirstSeen, es);
    assert t[0] == Sort(FirstSeen, es)[0];
    assert t[0].score > 0;
    assert t[0] in Positive(t);
  }

  /**
   * With a query that encodes and `topK >= 1`, the fallback is taken exactly
   * when no chunk that encodes has a positive score.
   */
  lemma FallbackIffNoPositive(chunks: seq<string>, query: string, emb: Embedder, topK: nat)
    requires emb.encodes(query) && topK >= 1
    ensures RelevantTexts(chunks, query, emb, topK) == []
      <==> forall i :: 0 <= i < |chunks| && emb.encodes(chunks[i]) ==> emb.similarity(query, chunks[i]) <= 0
  {
    if i :| 0 <= i < |chunks| && emb.encodes(chunks[i]) && emb.similarity(query, chunks[i]) > 0 {
      PositiveMeansRelevant(chunks, query, emb, topK, i);
    } else {
      NoPositiveMeansFallback(chunks, query, emb, topK);
    }
  }

  /** In a `TextDescending` sort, of two entries with equal scores the earlier text is not below the later one. */
  lemma TextDescendingOrder(t: seq<Entry>)
    requires Sorted(TextDescending, t)
    ensures forall i, j :: 0 <= i < j < |t| ==>
      t[i].score > t[j].score || (t[i].score == t[j].score && !TextBelow(t[i].text, t[j].text))
  {
    forall i, j | 0 <= i < j < |t|
      ensures t[i].score > t[j].score || (t[i].score == t[j].score && !TextBelow(t[i].text, t[j].text))
    {
      assert Before(TextDescending, t[i], t[j]);
      if TextBelow(t[j].text, t[i].text) {
        TextBelowAsymmetric(t[j].text, t[i].text);
      } else {
        TextBelowIrreflexive(t[i].text);
      }
    }
  }

  /**
   * Texts are in non-increasing order of their similarity to the query, and
   * of equal similarity no text comes before one it is below.
   */
  predicate SimilarityThenTextDescends(r: seq<string>, query: string, emb: Embedder)
  {
    forall i, j :: 0 <= i < j < |r| ==>
      var si := emb.similarity(query, r[i]);
      var sj := emb.similarity(query, r[j]);
      si > sj || (si == sj && !TextBelow(r[i], r[j]))
  }

  /**
   * app.py `retrieve_relevant_chunks`: the `topK` best chunk texts, best
   * first, equal scores ordered by text, descending. `None` stands for the
   * exception `encode` raises.
   */
  function AppRetrieve(chunks: seq<string>, query: string, emb: Embedder, topK: nat): (r: Option<seq<string>>)
    ensures r.Some? <==> emb.encodes(query) && AllEncode(chunks, emb)
    ensures r.Some? ==> |r.value| == Min(topK, |chunks|)
    ensures r.Some? ==> forall c :: c in r.value ==> c in chunks
    ensures r.Some? ==> multiset(r.value) <= multiset(chunks)
    ensures r.Some? ==> SimilarityThenTextDescends(r.value, query, emb)
    ensures r.Some? && |r.value| > 0 ==> forall c :: c in chunks && CopyLeftOut(r.value, chunks, c) ==>
      emb.similarity(query, c) <= emb.similarity(query, r.value[|r.value| - 1])
  {
    if !emb.encodes(query) || !AllEncode(chunks, emb) then None
    else
      var t := Ranked(TextDescending, chunks, query, emb, topK);
      RankedFacts(TextDescending, chunks, query, emb, topK);
      RankedTextsSubMultiset(TextDescending, chunks, query, emb, topK);
      TextDescendingOrder(t);
      Some(Texts(t))
  }

  /**
   * app.py's ranking by position: the texts returned are those of the top
   * `topK` entries (each naming its chunk with its own score, by
   * RankedFacts), in descending score, equal scores by text descending and
   * equal texts in chunk order; every chunk position left out comes after
   * the last one kept.
   */
  lemma AppRetrieveRanked(chunks: seq<string>, query: string, emb: Embedder, topK: nat)
    ensures var t := Ranked(TextDescending, chunks, query, emb, topK);
      var r := AppRetrieve(chunks, query, emb, topK);
      && (r.Some? ==> r.value == Texts(t))
      && (forall p, q :: 0 <= p < q < |t| ==>
            || t[p].score > t[q].score
            || (t[p].score == t[q].score && TextBelow(t[q].text, t[p].text))
            || (t[p].score == t[q].score && t[p].text == t[q].text && t[p].index < t[q].index))
      && (|t| > 0 ==> forall e :: e in Entries(chunks, query, emb) && e !in t ==> Before(TextDescending, t[|t| - 1], e))
  {
    var es := Entries(chunks, query, emb);
    var t := Top(TextDescending, es, topK);
    TopOrdered(TextDescending, es, topK);
    forall p, q | 0 <= p < q < |t|
      ensures Before(TextDescending, t[p], t[q])
    {
    }
  }

  /**
   * Two copies of the best page are both returned: with chunks `a, b, a`
   * and `a` scoring above `b`, the top two are `a, a`.
   */
  lemma AppKeepsDuplicateCopies(chunks: seq<string>, query: string, emb: Embedder)
    requires |chunks| == 3 && chunks[0] == chunks[2] && AllEncode(chunks, emb) && emb.encodes(query)
    requires emb.similarity(query, chunks[0]) > emb.similarity(query, chunks[1])
    ensures AppRetrieve(chunks, query, emb, 2) == Some([chunks[0], chunks[0]])
  {
    TopTwoOfThree(chunks, query, emb, AppRetrieve(chunks, query, emb, 2).value);
  }

  /** Any two texts that meet AppRetrieve's contract on `a, b, a` with `a` scoring above `b` are `a, a`. */
  lemma TopTwoOfThree(chunks: seq<string>, query: string, emb: Embedder, v: seq<string>)
    requires |chunks| == 3 && chunks[0] == chunks[2]
    requires emb.similarity(query, chunks[0]) > emb.similarity(query, chunks[1])
    requires |v| == Min(2, |chunks|) && forall c :: c in v ==> c in chunks
    requires SimilarityThenTextDescends(v, query, emb)
    requires |v| > 0 ==> forall c :: c in chunks && CopyLeftOut(v, chunks, c) ==>
      emb.similarity(query, c) <= emb.similarity(query, v[|v| - 1])
    ensures v == [chunks[0], chunks[0]]
  {
    var a, b := chunks[0], chunks[1];
    var first, second := v[0], v[1];
    assert second == a by {
      assert chunks == [a, b, a];
      assert multiset(chunks)[a] == 2;
      assert v == [first] + [second];
      assert multiset(v) == multiset{first} + multiset{second};
      assert second in v;
    }
    assert first == a by {
      assert first in v;
      assert emb.similarity(query, first) >= emb.similarity(query, second);
    }
    assert v == [first] + [second];
  }
}

=== FILE: script_ui.dfy ===
/**
 * The pure part of static/script.js, the page that talks to app.py: the
 * four `select*` setters, the `submitPath` and `askQuestion` guards, the
 * verbatim `fullPath`, and the two regular-expression rewriters
 * `formatText` and `cleanText`, written out as left-to-right scanners with
 * JavaScript's global-replace semantics.
 */
module ScriptUi {
  import opened Wrappers
  import opened Strings
  import opened ChunkKey
  import ChatUi

  // ---------------------------------------------------------------- selection

  /** The page's `path` object. */
  datatype PathState = PathState(board: string, cls: string, subject: string, chapter: string)

  const Empty: PathState := PathState("", "", "", "")

  function SelectBoard(p: PathState, v: string): (r: PathState)
    ensures r.board == v && r.cls == p.cls && r.subject == p.subject && r.chapter == p.chapter
  {
    p.(board := v)
  }

  function SelectClass(p: PathState, v: string): (r: PathState)
    ensures r.board == p.board && r.cls == v && r.subject == p.subject && r.chapter == p.chapter
  {
    p.(cls := v)
  }

  function SelectSubject(p: PathState, v: string): (r: PathState)
    ensures r.board == p.board && r.cls == p.cls && r.subject == v && r.chapter == p.chapter
  {
    p.(subject := v)
  }

  function SelectChapter(p: PathState, v: string): (r: PathState)
    ensures r.board == p.board && r.cls == p.cls && r.subject == p.subject && r.chapter == v
  {
    p.(chapter := v)
  }

  /** Unlike chat.js, choosing an earlier level clears nothing: setters on different fields commute. */
  lemma SettersCommute(p: PathState, b: string, c: string, sub: string, ch: string)
    ensures SelectBoard(SelectChapter(p, ch), b) == SelectChapter(SelectBoard(p, b), ch)
    ensures SelectClass(SelectSubject(p, sub), c) == SelectSubject(SelectClass(p, c), sub)
  {
  }

  // ---------------------------------------------------------------- paths

  /**
   * The object path: the four fields joined by `/`, spaces kept. FullPath
   * states how it parses back, PagesAgreeIffChapterHasNoSpace how it compares
   * with the chat page's.
   */
  function ObjectPath(p: PathState): (file: string)
    ensures |file| == |p.board| + |p.cls| + |p.subject| + |p.chapter| + 3
  {
    p.board + "/" + p.cls + "/" + p.subject + "/" + p.chapter
  }

  /** `fullPath`. */
  function FullPath(p: PathState): (r: string)
    ensures ParseLocation(r) == Some(Location(ChatUi.Bucket, ObjectPath(p)))
  {
    ChatUi.BucketHasNoSlash();
    ParseGsPath(ChatUi.Bucket, ObjectPath(p));
    GsPath(ChatUi.Bucket, ObjectPath(p))
  }

  /** `submitPath`: the path posted, or `None` (an alert) unless all four fields are set. */
  function SubmitPath(p: PathState): (r: Option<string>)
    ensures r.Some? <==> p.board != "" && p.cls != "" && p.subject != "" && p.chapter != ""
    ensures r.Some? ==> ParseLocation(r.value) == Some(Location(ChatUi.Bucket, ObjectPath(p)))
  {
    if p.board == "" || p.cls == "" || p.subject == "" || p.chapter == "" then None
    else Some(FullPath(p))
  }

  /** The body `askQuestion` posts. */
  datatype AskRequest = AskRequest(path: string, question: string)

  /** `askQuestion`: nothing for a question that trims to nothing; the selection is not checked. */
  function AskQuestion(p: PathState, input: string): (r: Option<AskRequest>)
    ensures r.None? <==> AllSpace(input, JsIsSpace)
    ensures r.Some? ==> r.value.question == Strip(input, JsIsSpace) && r.value.question != ""
    ensures r.Some? ==> r.value.path == FullPath(p)
  {
    StripEmptyIff(input, JsIsSpace);
    var question := Strip(input, JsIsSpace);
    if question == "" then None else Some(AskRequest(FullPath(p), question))
  }

  /** The chat.js state with the same four choices. */
  function AsChatState(p: PathState): ChatUi.ChatState
  {
    ChatUi.ChatState(p.board, p.cls, p.subject, p.chapter, false)
  }

  lemma {:induction false} ReplaceAbsent(s: string, a: char, b: char)
    requires a !in s
    ensures ReplaceChar(s, a, b) == s
  {
    if s != [] {
      assert a !in s[1..];
      ReplaceAbsent(s[1..], a, b);
      assert s == [s[0]] + s[1..];
    }
  }

  /**
   * The two pages name the same object exactly when the chapter has no
   * space: chat.js writes the chapter's spaces as `_`, script.js keeps them.
   */
  lemma PagesAgreeIffChapterHasNoSpace(p: PathState)
    ensures FullPath(p) == ChatUi.ChatPath(AsChatState(p)) <==> ' ' !in p.chapter
  {
    var pre := p.board + "/" + p.cls + "/" + p.subject + "/";
    var mine := ObjectPath(p);
    var theirs := ChatUi.ObjectPath(AsChatState(p));
    var replaced := ReplaceChar(p.chapter, ' ', '_');
    assert mine == pre + p.chapter && theirs == pre + replaced;
    assert FullPath(p) == ChatUi.ChatPath(AsChatState(p)) <==> mine == theirs by {
      ChatUi.BucketHasNoSlash();
      ParseGsPath(ChatUi.Bucket, mine);
      ParseGsPath(ChatUi.Bucket, theirs);
    }
    assert mine == theirs <==> p.chapter == replaced by {
      if mine == theirs {
        assert mine[|pre|..] == p.chapter && theirs[|pre|..] == replaced;
      }
    }
    if ' ' !in p.chapter {
      ReplaceAbsent(p.chapter, ' ', '_');
    }
  }

  // ---------------------------------------------------------------- formatText

  /** The characters JavaScript's `.` does not match. */
  predicate IsLineTerminator(c: char)
  {
    c == '\n' || c == '\r' || c as int == 0x2028 || c as int == 0x2029
  }

  /** `**` starts at `i`. */
  predicate StarsAt(s: string, i: int)
  {
    0 <= i && i + 1 < |s| && s[i] == '*' && s[i + 1] == '*'
  }

  /**
   * Where the lazy `(.*?)\*\*` closes when started at `from`: the first `**`
   * at or after `from` with no line terminator before it, if any.
   */
  function CloseAt(s: string, from: nat): (r: Option<nat>)
    requires from <= |s|
    ensures r.Some? ==> from <= r.value && StarsAt(s, r.value)
    ensures r.Some? ==> forall k :: from <= k < r.value ==> !StarsAt(s, k) && !IsLineTerminator(s[k])
    ensures r.None? ==> forall q :: from <= q && StarsAt(s, q) ==>
      exists k :: from <= k < q && IsLineTerminator(s[k])
    decreases |s| - from
  {
    if from + 1 >= |s| then None
    else if StarsAt(s, from) then Some(from)
    else if IsLineTerminator(s[from]) then None
    else CloseAt(s, from + 1)
  }

  const Open: string := "<strong>"
  const Close: string := "</strong>"

  /** `formatText` on the characters from `p` on. */
  function FormatFrom(s: string, p: nat): string
    requires p <= |s|
    decreases |s| - p
  {
    if p == |s| then ""
    else if StarsAt(s, p) && CloseAt(s, p + 2).Some? then
      var q := CloseAt(s, p + 2).value;
      Open + s[p + 2..q] + Close + FormatFrom(s, q + 2)
    else [s[p]] + FormatFrom(s, p + 1)
  }

  /**
   * `formatText`: every lazy bold match, left to right, wrapped in `<strong>`
   * tags; BoldRule, TrailingStarCloses and NoStarsUnchanged state its effect.
   */
  function FormatText(s: string): string
  {
    FormatFrom(s, 0)
  }

  lemma {:induction false} NoStarsFrom(s: string, p: nat)
    requires p <= |s|
    requires forall i :: 0 <= i < |s| ==> !StarsAt(s, i)
    ensures FormatFrom(s, p) == s[p..]
    decreases |s| - p
  {
    if p < |s| {
      NoStarsFrom(s, p + 1);
      assert s[p..] == [s[p]] + s[p + 1..];
    }
  }

  /** Text without `**` comes back unchanged. */
  lemma NoStarsUnchanged(s: string)
    requires forall i :: 0 <= i < |s| ==> !StarsAt(s, i)
    ensures FormatText(s) == s
  {
    NoStarsFrom(s, 0);
  }

  /**
   * `**x**` becomes `<strong>x</strong>` when `x` holds no `**`, no line
   * terminator, and does not end with `*` (otherwise the lazy match closes
   * one character early).
   */
  lemma BoldRule(x: string)
    requires forall i :: 0 <= i < |x| ==> !StarsAt(x, i) && !IsLineTerminator(x[i])
    requires x == [] || x[|x| - 1] != '*'
    ensures FormatText("**" + x + "**") == Open + x + Close
  {
    var s := "**" + x + "**";
    var q := |x| + 2;
    assert StarsAt(s, 0);
    assert StarsAt(s, q);
    forall k | 2 <= k < q
      ensures !StarsAt(s, k) && !IsLineTerminator(s[k])
    {
      assert s[k] == x[k - 2];
      if k + 1 < q {
        assert s[k + 1] == x[k - 1];
        assert !StarsAt(x, k - 2);
      }
    }
    assert CloseAt(s, 2) == Some(q) by {
      CloseAtFirst(s, 2, q);
    }
    assert s[2..q] == x;
    assert FormatFrom(s, q + 2) == "";
  }

  /** The close search returns the first `**` when nothing before it stops the match. */
  lemma {:induction false} CloseAtFirst(s: string, from: nat, q: nat)
    requires from <= q && StarsAt(s, q)
    requires forall k :: from <= k < q ==> !StarsAt(s, k) && !IsLineTerminator(s[k])
    ensures CloseAt(s, from) == Some(q)
    decreases q - from
  {
    if from < q {
      CloseAtFirst(s, from + 1, q);
    }
  }

  /** With a trailing `*` the bold ends one character early: `**a***` renders as `<strong>a</strong>*`. */
  lemma TrailingStarCloses()
    ensures FormatText("**a***") == Open + "a" + Close + "*"
  {
    var s := "**a***";
    CloseAtFirst(s, 2, 3);
    assert s[2..3] == "a";
    assert FormatFrom(s, 6) == "";
    assert !StarsAt(s, 5);
    assert FormatFrom(s, 5) == "*";
  }

  // ---------------------------------------------------------------- cleanText

  /** The first character of a `[*_#`~],[**]` match. */
  predicate IsMark(c: char)
  {
    c == '*' || c == '_' || c == '#' || c == '`' || c == '~'
  }

  /** A three-character `[*_#`~],\*` match starts at `p`. */
  predicate MarkAt(s: string, p: int)
  {
    0 <= p && p + 2 < |s| && IsMark(s[p]) && s[p + 1] == ',' && s[p + 2] == '*'
  }

  /** The first replace of `cleanText`, from `p` on: every match, left to right, is removed. */
  function RemoveMarksFrom(s: string, p: nat): (r: string)
    requires p <= |s|
    ensures |r| <= |s| - p
    ensures (forall i :: p <= i < |s| ==> s[i] != ',') ==> r == s[p..]
    decreases |s| - p
  {
    if p == |s| then ""
    else if MarkAt(s, p) then RemoveMarksFrom(s, p + 3)
    else
      var rest := RemoveMarksFrom(s, p + 1);
      assert (forall i :: p <= i < |s| ==> s[i] != ',') ==> s[p..] == [s[p]] + s[p + 1..];
      [s[p]] + rest
  }

  /**
   * The scan copies the text up to the next match unchanged: from `p`, with
   * no match starting before `q`, the result is `s[p..q]` followed by the
   * scan from `q`.
   */
  lemma {:induction false} RemoveMarksSkip(s: string, p: nat, q: nat)
    requires p <= q <= |s|
    requires forall i :: p <= i < q ==> !MarkAt(s, i)
    ensures RemoveMarksFrom(s, p) == s[p..q] + RemoveMarksFrom(s, q)
    decreases q - p
  {
    if p < q {
      RemoveMarksKeeps(s, p);
      RemoveMarksSkip(s, p + 1, q);
      ConsSlice(s, p, q, RemoveMarksFrom(s, q));
    }
  }

  lemma RemoveMarksKeeps(s: string, p: nat)
    requires p < |s| && !MarkAt(s, p)
    ensures RemoveMarksFrom(s, p) == [s[p]] + RemoveMarksFrom(s, p + 1)
  {
  }

  lemma ConsSlice(s: string, p: nat, q: nat, rest: string)
    requires p < q <= |s|
    ensures [s[p]] + (s[p + 1..q] + rest) == s[p..q] + rest
  {
    assert s[p..q] == [s[p]] + s[p + 1..q];
  }

  /**
   * The first global replace of `cleanText`, which drops each mark character
   * followed by `,*`: every match the left-to-right scan meets is dropped and
   * every other character kept. A text without a match
   * is returned unchanged, and the text before the first match is kept while
   * the match itself is dropped.
   */
  function RemoveMarks(s: string): (r: string)
    ensures |r| <= |s|
    ensures ',' !in s ==> r == s
    ensures (forall i :: 0 <= i < |s| ==> !MarkAt(s, i)) ==> r == s
    ensures forall q :: 0 <= q < |s| && MarkAt(s, q) && (forall i :: 0 <= i < q ==> !MarkAt(s, i)) ==>
      r == s[..q] + RemoveMarksFrom(s, q + 3)
  {
    forall q | 0 <= q < |s| && MarkAt(s, q) && (forall i :: 0 <= i < q ==> !MarkAt(s, i))
      ensures RemoveMarksFrom(s, 0) == s[..q] + RemoveMarksFrom(s, q + 3)
    {
      RemoveMarksSkip(s, 0, q);
    }
    RemoveMarksSkip(s, 0, if forall i :: 0 <= i < |s| ==> !MarkAt(s, i) then |s| else 0);
    RemoveMarksFrom(s, 0)
  }

  /** One pass does not remove every match: removing `*,*` from `**,*,*` brings another together. */
  lemma RemoveMarksNotIdempotent()
    ensures RemoveMarks("**,*,*") == "*,*"
    ensures RemoveMarks(RemoveMarks("**,*,*")) == ""
  {
    var s := "**,*,*";
    assert !MarkAt(s, 0) && MarkAt(s, 1);
    assert !MarkAt(s, 4) && !MarkAt(s, 5);
    assert RemoveMarksFrom(s, 4) == ",*";
    var t := "*,*";
    assert MarkAt(t, 0);
  }

  /** The index just past the first `>` at or after `from`, or the end of the string when there is none. */
  function TagEnd(s: string, from: nat): (e: nat)
    requires from <= |s|
    ensures from <= e <= |s|
    ensures || (from < e && s[e - 1] == '>' && forall k :: from <= k < e - 1 ==> s[k] != '>')
            || (e == |s| && forall k :: from <= k < |s| ==> s[k] != '>')
    decreases |s| - from
  {
    if from == |s| then from
    else if s[from] == '>' then from + 1
    else TagEnd(s, from + 1)
  }

  /** `<\/?[^>]+(>|$)` matches at `p`: a `<` followed by something other than `>`. */
  predicate TagAt(s: string, p: int)
  {
    0 <= p && p + 1 < |s| && s[p] == '<' && s[p + 1] != '>'
  }

  /** The second replace of `cleanText`, from `p` on: each tag, up to its `>` or the end, is removed. */
  function StripTagsFrom(s: string, p: nat): (r: string)
    requires p <= |s|
    ensures |r| <= |s| - p
    ensures p < |s| && !TagAt(s, p) ==> r != [] && r[0] == s[p]
    ensures forall i :: 0 <= i < |r| && r[i] == '<' ==> i == |r| - 1 || r[i + 1] == '>'
    decreases |s| - p
  {
    if p == |s| then ""
    else if TagAt(s, p) then StripTagsFrom(s, TagEnd(s, p + 1))
    else
      var rest := StripTagsFrom(s, p + 1);
      var r := [s[p]] + rest;
      assert s[p] == '<' ==> p + 1 == |s| || s[p + 1] == '>';
      assert forall i :: 1 <= i < |r| ==> r[i] == rest[i - 1];
      r
  }

  function StripTags(s: string): (r: string)
    ensures |r| <= |s|
    ensures forall i :: 0 <= i < |r| && r[i] == '<' ==> i == |r| - 1 || r[i + 1] == '>'
  {
    StripTagsFrom(s, 0)
  }

  lemma {:induction false} NoAngleFrom(s: string, p: nat)
    requires p <= |s| && '<' !in s
    ensures StripTagsFrom(s, p) == s[p..]
    decreases |s| - p
  {
    if p < |s| {
      NoAngleFrom(s, p + 1);
      assert s[p..] == [s[p]] + s[p + 1..];
    }
  }

  /** Text without `<` has no tag to remove. */
  lemma NoAngleUnchanged(s: string)
    requires '<' !in s
    ensures StripTags(s) == s
  {
    NoAngleFrom(s, 0);
  }

  /** `cleanText`: the marks removed, then the tags. */
  function CleanText(s: string): (r: string)
    ensures |r| <= |s|
    ensures forall i :: 0 <= i < |r| && r[i] == '<' ==> i == |r| - 1 || r[i + 1] == '>'
  {
    StripTags(RemoveMarks(s))
  }

  /** Text with neither `,` nor `<` comes through `cleanText` unchanged. */
  lemma CleanTextKeepsPlainText(s: string)
    requires ',' !in s && '<' !in s
    ensures CleanText(s) == s
  {
    NoAngleUnchanged(s);
  }

  // ---------------------------------------------------------------- displayBotMessage

  const BubbleOpen: string := "<div class=\"bubble bot\"><pre style=\"white-space: pre-wrap;\">"
  const BubbleClose: string := "</pre></div>"

  /** `displayBotMessage` as written: `cleanText` is computed, but the raw message is put in the bubble. */
  function BotBubbleAsWritten(message: string): (html: string)
    ensures |html| == |BubbleOpen| + |message| + |BubbleClose|
    ensures html[|BubbleOpen|..|html| - |BubbleClose|] == message
  {
    BubbleOpen + message + BubbleClose
  }

  /** The bubble of the raw message keeps the reply's markup: `<b>hi` arrives with its tag. */
  lemma AsWrittenKeepsTags()
    ensures var body := BotBubbleAsWritten("<b>hi")[|BubbleOpen|..|BotBubbleAsWritten("<b>hi")| - |BubbleClose|];
      body[0] == '<' && body[1] != '>'
  {
  }

  /** `displayBotMessage` with the cleaned message in the bubble. */
  function BotBubble(message: string): (html: string)
    ensures |html| == |BubbleOpen| + |CleanText(message)| + |BubbleClose|
    ensures var body := html[|BubbleOpen|..|html| - |BubbleClose|];
      body == CleanText(message)
      && forall i :: 0 <= i < |body| && body[i] == '<' ==> i == |body| - 1 || body[i + 1] == '>'
  {
    BubbleOpen + CleanText(message) + BubbleClose
  }
}

=== FILE: strings.dfy ===
/**
 * The string primitives the Python back ends and the JavaScript front ends
 * rely on: `str.split` / `str.join` on one separator character, the
 * character-for-character and substring `replace` calls, ASCII case mapping,
 * Python's `strip()` and JavaScript's `trim()`, and the "prefix plus ..."
 * preview used in debug output and in the chat history.
 */
module Strings {

  /** Number of occurrences of `c` in `s`. */
  function Count(s: string, c: char): nat
  {
    if s == [] then 0 else (if s[0] == c then 1 else 0) + Count(s[1..], c)
  }

  /** Python's `s.split(sep)` for a one-character separator. */
  function Split(s: string, sep: char): (parts: seq<string>)
    ensures |parts| == Count(s, sep) + 1
    ensures forall i :: 0 <= i < |parts| ==> sep !in parts[i]
  {
    if s == [] then [""]
    else if s[0] == sep then [""] + Split(s[1..], sep)
    else
      var rest := Split(s[1..], sep);
      [[s[0]] + rest[0]] + rest[1..]
  }

  /** Python's `sep.join(parts)` for a one-character separator. */
  function Join(parts: seq<string>, sep: char): string
  {
    if |parts| == 0 then ""
    else if |parts| == 1 then parts[0]
    else parts[0] + [sep] + Join(parts[1..], sep)
  }

  /** Joining what `Split` produced gives the original string back. */
  lemma {:induction false} JoinSplit(s: string, sep: char)
    ensures Join(Split(s, sep), sep) == s
  {
    if s == [] {
    } else if s[0] == sep {
      JoinSplit(s[1..], sep);
      assert s == [sep] + s[1..];
    } else {
      var rest := Split(s[1..], sep);
      JoinSplit(s[1..], sep);
      if |rest| == 1 {
        assert s == [s[0]] + rest[0];
      } else {
        assert rest == [rest[0]] + rest[1..];
        assert Join(rest, sep) == rest[0] + [sep] + Join(rest[1..], sep);
        assert s == [s[0]] + s[1..];
      }
    }
  }

  /** A string without the separator splits into itself. */
  lemma {:induction false} SplitNoSep(a: string, sep: char)
    requires sep !in a
    ensures Split(a, sep) == [a]
  {
    if a != [] {
      SplitNoSep(a[1..], sep);
      assert a == [a[0]] + a[1..];
    }
  }

  /** Splitting at a separator after a separator-free prefix. */
  lemma {:induction false} SplitAfterPart(a: string, b: string, sep: char)
    requires sep !in a
    ensures Split(a + [sep] + b, sep) == [a] + Split(b, sep)
  {
    if a == [] {
      assert a + [sep] + b == [sep] + b;
      assert ([sep] + b)[1..] == b;
    } else {
      var s := a + [sep] + b;
      assert s[0] == a[0];
      assert s[1..] == a[1..] + [sep] + b;
      SplitAfterPart(a[1..], b, sep);
      assert [a[0]] + a[1..] == a;
    }
  }

  /** Splitting what `Join` produced gives the parts back, when no part holds the separator. */
  lemma {:induction false} SplitJoin(parts: seq<string>, sep: char)
    requires |parts| >= 1
    requires forall i :: 0 <= i < |parts| ==> sep !in parts[i]
    ensures Split(Join(parts, sep), sep) == parts
  {
    if |parts| == 1 {
      SplitNoSep(parts[0], sep);
    } else {
      SplitJoin(parts[1..], sep);
      SplitAfterPart(parts[0], Join(parts[1..], sep), sep);
      assert parts == [parts[0]] + parts[1..];
    }
  }

  /** Python's `s.replace(a, b)` (and JavaScript's `s.replace(/a/g, b)`) for single characters. */
  function ReplaceChar(s: string, a: char, b: char): (r: string)
    ensures |r| == |s|
    ensures a != b ==> a !in r
    ensures forall i :: 0 <= i < |s| && s[i] != a ==> r[i] == s[i]
    ensures forall i :: 0 <= i < |s| && s[i] == a ==> r[i] == b
  {
    if s == [] then []
    else [if s[0] == a then b else s[0]] + ReplaceChar(s[1..], a, b)
  }

  /** Python's `s.replace(c, '')`. */
  function RemoveChar(s: string, c: char): (r: string)
    ensures c !in r
    ensures forall x :: x in r ==> x in s
    ensures |r| == |s| - Count(s, c)
    ensures forall x :: x != c ==> multiset(r)[x] == multiset(s)[x]
  {
    if s == [] then []
    else
      assert s == [s[0]] + s[1..];
      (if s[0] == c then [] else [s[0]]) + RemoveChar(s[1..], c)
  }

  /** Removing from a concatenation removes from each part in turn. */
  lemma {:induction false} RemoveConcat(a: string, b: string, c: char)
    ensures RemoveChar(a + b, c) == RemoveChar(a, c) + RemoveChar(b, c)
  {
    if a != [] {
      assert (a + b)[1..] == a[1..] + b;
      RemoveConcat(a[1..], b, c);
    } else {
      assert a + b == b;
    }
  }

  /**
   * The kept characters stay in order: character `i`, when it is not `c`,
   * lands at `i` less the number of `c` before it.
   */
  lemma RemoveCharKeepsOrder(s: string, c: char, i: nat)
    requires i < |s| && s[i] != c
    ensures var r := RemoveChar(s, c);
      var j := i - Count(s[..i], c);
      0 <= j < |r| && r[j] == s[i]
  {
    assert s == s[..i] + s[i..];
    RemoveConcat(s[..i], s[i..], c);
    var tail := s[i..];
    assert tail == [s[i]] + tail[1..];
    assert RemoveChar(tail, c) == [s[i]] + RemoveChar(tail[1..], c);
  }

  /** True when `pat` occurs in `s` starting at index `i`. */
  predicate OccursAt(s: string, pat: string, i: nat)
  {
    i + |pat| <= |s| && s[i..i + |pat|] == pat
  }

  /**
   * Python's `s.replace(pat, rep)`: every non-overlapping occurrence, left to
   * right. The text before the first occurrence is kept, that occurrence
   * becomes `rep`, and the scan resumes just after it.
   */
  function ReplaceAll(s: string, pat: string, rep: string): (r: string)
    requires |pat| > 0
    ensures |pat| == |rep| ==> |r| == |s|
    decreases |s|
  {
    if |s| < |pat| then s
    else if s[..|pat|] == pat then
      assert OccursAt(s, pat, 0);
      rep + ReplaceAll(s[|pat|..], pat, rep)
    else
      [s[0]] + ReplaceAll(s[1..], pat, rep)
  }

  /** Where `pat` starts the text, `replace` emits `rep` and skips the occurrence. */
  lemma ReplaceAllHit(s: string, pat: string, rep: string)
    requires |pat| > 0 && OccursAt(s, pat, 0)
    ensures ReplaceAll(s, pat, rep) == rep + ReplaceAll(s[|pat|..], pat, rep)
  {
    assert s[..|pat|] == pat;
  }

  /** Where `pat` does not start the text, `replace` keeps the first character. */
  lemma ReplaceAllMiss(s: string, pat: string, rep: string)
    requires |pat| > 0 && |s| > 0 && !OccursAt(s, pat, 0)
    ensures ReplaceAll(s, pat, rep) == [s[0]] + ReplaceAll(s[1..], pat, rep)
  {
    if |s| >= |pat| {
      assert s[..|pat|] != pat;
    }
  }

  /**
   * The text before the first occurrence of `pat` is kept, that occurrence
   * becomes `rep`, and the scan resumes just after it.
   */
  lemma ReplaceAllFirst(s: string, pat: string, rep: string, q: nat)
    requires |pat| > 0 && OccursAt(s, pat, q)
    requires forall k :: 0 <= k < q ==> !OccursAt(s, pat, k)
    ensures ReplaceAll(s, pat, rep) == s[..q] + rep + ReplaceAll(s[q + |pat|..], pat, rep)
  {
    ReplaceAllPrefix(s, pat, rep, q);
    HitAt(s, pat, rep, q);
    Regroup(s[..q], rep, ReplaceAll(s[q + |pat|..], pat, rep));
  }

  /** A prefix holding no occurrence of `pat` is copied unchanged. */
  lemma ReplaceAllPrefix(s: string, pat: string, rep: string, q: nat)
    requires |pat| > 0 && q <= |s|
    requires forall k :: 0 <= k < q ==> !OccursAt(s, pat, k)
    ensures ReplaceAll(s, pat, rep) == s[..q] + ReplaceAll(s[q..], pat, rep)
  {
    var k := 0;
    while k < q
      invariant 0 <= k <= q
      invariant ReplaceAll(s, pat, rep) == s[..k] + ReplaceAll(s[k..], pat, rep)
    {
      SkipOne(s, pat, rep, k);
      Regroup(s[..k], [s[k]], ReplaceAll(s[k + 1..], pat, rep));
      assert s[..k + 1] == s[..k] + [s[k]];
      k := k + 1;
    }
  }

  lemma Regroup(a: string, b: string, c: string)
    ensures a + (b + c) == a + b + c
  {
  }

  /** The scan meets the occurrence at `q` and emits `rep` for it. */
  lemma HitAt(s: string, pat: string, rep: string, q: nat)
    requires |pat| > 0 && OccursAt(s, pat, q)
    ensures ReplaceAll(s[q..], pat, rep) == rep + ReplaceAll(s[q + |pat|..], pat, rep)
  {
    OccursShift(s, pat, q, q);
    ReplaceAllHit(s[q..], pat, rep);
    assert s[q..][|pat|..] == s[q + |pat|..];
  }

  /** One step of the scan past a position where `pat` does not start. */
  lemma SkipOne(s: string, pat: string, rep: string, k: nat)
    requires |pat| > 0 && k < |s| && !OccursAt(s, pat, k)
    ensures ReplaceAll(s[k..], pat, rep) == [s[k]] + ReplaceAll(s[k + 1..], pat, rep)
  {
    OccursShift(s, pat, k, k);
    ReplaceAllMiss(s[k..], pat, rep);
    assert s[k..][1..] == s[k + 1..];
  }

  /** Where `pat` does not occur, `replace` returns the text unchanged. */
  lemma {:induction false} ReplaceAllAbsent(s: string, pat: string, rep: string)
    requires |pat| > 0
    requires forall i :: 0 <= i < |s| ==> !OccursAt(s, pat, i)
    ensures ReplaceAll(s, pat, rep) == s
    decreases |s|
  {
    if |s| >= |pat| {
      assert !OccursAt(s, pat, 0);
      forall k | 0 <= k < |s| - 1
        ensures !OccursAt(s[1..], pat, k)
      {
        OccursShift(s, pat, 1, k + 1);
      }
      ReplaceAllAbsent(s[1..], pat, rep);
      ReplaceAllMiss(s, pat, rep);
      assert s == [s[0]] + s[1..];
    }
  }

  /** No proper suffix of `pat` is also a prefix: two occurrences can never overlap. */
  predicate NoSelfOverlap(pat: string)
  {
    forall k :: 0 < k < |pat| ==> pat[k..] != pat[..|pat| - k]
  }

  /** A pattern whose last character occurs nowhere else in it cannot overlap itself. */
  lemma LastCharUnique(pat: string)
    requires |pat| > 0
    requires forall k :: 0 <= k < |pat| - 1 ==> pat[k] != pat[|pat| - 1]
    ensures NoSelfOverlap(pat)
  {
    forall k | 0 < k < |pat|
      ensures pat[k..] != pat[..|pat| - k]
    {
      assert pat[k..][|pat| - k - 1] == pat[|pat| - 1];
      assert pat[..|pat| - k][|pat| - k - 1] == pat[|pat| - k - 1];
    }
  }

  /** Position `i` lies in the window of an occurrence of `pat` starting at `p`. */
  predicate InWindow(s: string, pat: string, p: nat, i: nat)
  {
    OccursAt(s, pat, p) && p <= i < p + |pat|
  }

  /**
   * `r` is `s` with every occurrence window of `pat` overwritten by `rep`,
   * position by position, and every other character kept.
   */
  predicate ReplacedWindows(s: string, pat: string, rep: string, r: string)
    requires |pat| == |rep|
  {
    |r| == |s| && WindowsOverwritten(s, pat, rep, r) && OthersKept(s, pat, r)
  }

  predicate WindowsOverwritten(s: string, pat: string, rep: string, r: string)
    requires |pat| == |rep| && |r| == |s|
  {
    forall p, i :: 0 <= p <= i < |s| && InWindow(s, pat, p, i) ==> r[i] == rep[i - p]
  }

  predicate OthersKept(s: string, pat: string, r: string)
    requires |r| == |s|
  {
    forall i :: 0 <= i < |s| && (forall p :: 0 <= p <= i ==> !InWindow(s, pat, p, i)) ==> r[i] == s[i]
  }

  /** Two occurrences `p` apart make the pattern's `p`-suffix equal to a prefix. */
  lemma OverlapBorder(s: string, pat: string, p: nat)
    requires OccursAt(s, pat, 0) && OccursAt(s, pat, p) && 0 < p < |pat|
    ensures pat[p..] == pat[..|pat| - p]
  {
    forall j | 0 <= j < |pat| - p
      ensures pat[p..][j] == pat[..|pat| - p][j]
    {
      assert pat[p + j] == s[p + j];
      assert s[p..p + |pat|][j] == s[p + j];
    }
  }

  lemma NoOverlapAt(s: string, pat: string, p: nat)
    requires NoSelfOverlap(pat) && OccursAt(s, pat, 0) && 0 < p < |pat|
    ensures !OccursAt(s, pat, p)
  {
    if OccursAt(s, pat, p) {
      OverlapBorder(s, pat, p);
    }
  }

  /** Occurrences are found again after dropping a prefix of length `k`. */
  lemma OccursShift(s: string, pat: string, k: nat, p: nat)
    requires k <= p && k <= |s|
    ensures OccursAt(s, pat, p) <==> OccursAt(s[k..], pat, p - k)
  {
    if p + |pat| <= |s| {
      assert s[k..][p - k..p - k + |pat|] == s[p..p + |pat|];
    }
  }

  lemma HitOverwrites(s: string, pat: string, rep: string, rt: string)
    requires 0 < |pat| == |rep| && NoSelfOverlap(pat) && OccursAt(s, pat, 0)
    requires |rt| == |s| - |pat| && WindowsOverwritten(s[|pat|..], pat, rep, rt)
    ensures WindowsOverwritten(s, pat, rep, rep + rt)
  {
    var t := s[|pat|..];
    var r := rep + rt;
    forall p, i | 0 <= p <= i < |s| && InWindow(s, pat, p, i)
      ensures r[i] == rep[i - p]
    {
      if 0 < p < |pat| {
        NoOverlapAt(s, pat, p);
      } else if p >= |pat| {
        OccursShift(s, pat, |pat|, p);
        assert InWindow(t, pat, p - |pat|, i - |pat|);
      }
    }
  }

  lemma HitKeeps(s: string, pat: string, rep: string, rt: string)
    requires 0 < |pat| == |rep| && OccursAt(s, pat, 0)
    requires |rt| == |s| - |pat| && OthersKept(s[|pat|..], pat, rt)
    ensures OthersKept(s, pat, rep + rt)
  {
    var t := s[|pat|..];
    var r := rep + rt;
    forall i | 0 <= i < |s| && (forall p :: 0 <= p <= i ==> !InWindow(s, pat, p, i))
      ensures r[i] == s[i]
    {
      assert !InWindow(s, pat, 0, i);
      var j := i - |pat|;
      forall p | 0 <= p <= j
        ensures !InWindow(t, pat, p, j)
      {
        OccursShift(s, pat, |pat|, p + |pat|);
        assert !InWindow(s, pat, p + |pat|, i);
      }
    }
  }

  lemma MissOverwrites(s: string, pat: string, rep: string, rt: string)
    requires 0 < |pat| == |rep| && |s| > 0 && !OccursAt(s, pat, 0)
    requires |rt| == |s| - 1 && WindowsOverwritten(s[1..], pat, rep, rt)
    ensures WindowsOverwritten(s, pat, rep, [s[0]] + rt)
  {
    var t := s[1..];
    var r := [s[0]] + rt;
    forall p, i | 0 <= p <= i < |s| && InWindow(s, pat, p, i)
      ensures r[i] == rep[i - p]
    {
      OccursShift(s, pat, 1, p);
      assert InWindow(t, pat, p - 1, i - 1);
    }
  }

  lemma MissKeeps(s: string, pat: string, rt: string)
    requires 0 < |pat| && |s| > 0 && !OccursAt(s, pat, 0)
    requires |rt| == |s| - 1 && OthersKept(s[1..], pat, rt)
    ensures OthersKept(s, pat, [s[0]] + rt)
  {
    var t := s[1..];
    var r := [s[0]] + rt;
    forall i | 0 <= i < |s| && (forall p :: 0 <= p <= i ==> !InWindow(s, pat, p, i))
      ensures r[i] == s[i]
    {
      if i > 0 {
        var j := i - 1;
        forall p | 0 <= p <= j
          ensures !InWindow(t, pat, p, j)
        {
          OccursShift(s, pat, 1, p + 1);
          assert !InWindow(s, pat, p + 1, i);
        }
      }
    }
  }

  /**
   * With a replacement as long as the pattern and a pattern that cannot
   * overlap itself, `replace` overwrites every occurrence in place.
   */
  lemma {:induction false} ReplaceAllWindows(s: string, pat: string, rep: string)
    requires 0 < |pat| == |rep| && NoSelfOverlap(pat)
    ensures ReplacedWindows(s, pat, rep, ReplaceAll(s, pat, rep))
    decreases |s|
  {
    if |s| < |pat| {
    } else if s[..|pat|] == pat {
      assert OccursAt(s, pat, 0);
      var rt := ReplaceAll(s[|pat|..], pat, rep);
      ReplaceAllWindows(s[|pat|..], pat, rep);
      HitOverwrites(s, pat, rep, rt);
      HitKeeps(s, pat, rep, rt);
    } else {
      assert !OccursAt(s, pat, 0);
      var rt := ReplaceAll(s[1..], pat, rep);
      ReplaceAllWindows(s[1..], pat, rep);
      ReplaceAllMiss(s, pat, rep);
      MissOverwrites(s, pat, rep, rt);
      MissKeeps(s, pat, rt);
    }
  }

  predicate IsAsciiUpper(c: char) { 'A' <= c <= 'Z' }
  predicate IsAsciiLower(c: char) { 'a' <= c <= 'z' }

  /** `str.lower()` restricted to the ASCII letters. */
  function AsciiLower(s: string): (r: string)
    ensures |r| == |s|
    ensures forall i :: 0 <= i < |r| ==> !IsAsciiUpper(r[i])
    ensures forall i :: 0 <= i < |s| && !IsAsciiUpper(s[i]) ==> r[i] == s[i]
    ensures forall i :: 0 <= i < |s| && IsAsciiUpper(s[i]) ==>
      IsAsciiLower(r[i]) && r[i] as int - 'a' as int == s[i] as int - 'A' as int
  {
    seq(|s|, i requires 0 <= i < |s| =>
      if IsAsciiUpper(s[i]) then (s[i] as int + 32) as char else s[i])
  }

  /** `str.upper()` restricted to the ASCII letters. */
  function AsciiUpper(s: string): (r: string)
    ensures |r| == |s|
    ensures forall i :: 0 <= i < |r| ==> !IsAsciiLower(r[i])
    ensures forall i :: 0 <= i < |s| && !IsAsciiLower(s[i]) ==> r[i] == s[i]
    ensures forall i :: 0 <= i < |s| && IsAsciiLower(s[i]) ==>
      IsAsciiUpper(r[i]) && r[i] as int - 'A' as int == s[i] as int - 'a' as int
  {
    seq(|s|, i requires 0 <= i < |s| =>
      if IsAsciiLower(s[i]) then (s[i] as int - 32) as char else s[i])
  }

  /** The characters for which Python's `str.isspace()` holds (what `strip()` removes). */
  predicate PyIsSpace(c: char)
  {
    var n := c as int;
    || n == 0x20 || (0x09 <= n <= 0x0D) || (0x1C <= n <= 0x1F)
    || n == 0x85 || n == 0xA0 || n == 0x1680 || (0x2000 <= n <= 0x200A)
    || n == 0x2028 || n == 0x2029 || n == 0x202F || n == 0x205F || n == 0x3000
  }

  /** The characters JavaScript's `String.prototype.trim()` removes. */
  predicate JsIsSpace(c: char)
  {
    var n := c as int;
    || n == 0x20 || (0x09 <= n <= 0x0D)
    || n == 0xA0 || n == 0x1680 || (0x2000 <= n <= 0x200A)
    || n == 0x2028 || n == 0x2029 || n == 0x202F || n == 0x205F || n == 0x3000
    || n == 0xFEFF
  }

  predicate AllSpace(s: string, ws: char -> bool)
  {
    forall i :: 0 <= i < |s| ==> ws(s[i])
  }

  /** How many leading characters satisfy `ws`. */
  function LeadingSpace(s: string, ws: char -> bool): (n: nat)
    ensures n <= |s| && (n == |s| || !ws(s[n]))
    ensures forall j :: 0 <= j < n ==> ws(s[j])
  {
    if s == [] || !ws(s[0]) then 0
    else
      var n := LeadingSpace(s[1..], ws);
      assert forall j :: 1 <= j < n + 1 ==> s[j] == s[1..][j - 1];
      n + 1
  }

  /** How many trailing characters satisfy `ws`. */
  function TrailingSpace(s: string, ws: char -> bool): (n: nat)
    ensures n <= |s| && (n == |s| || !ws(s[|s| - n - 1]))
    ensures forall j :: |s| - n <= j < |s| ==> ws(s[j])
  {
    if s == [] || !ws(s[|s| - 1]) then 0
    else TrailingSpace(s[..|s| - 1], ws) + 1
  }

  /** Drops the leading characters that satisfy `ws`. */
  function StripLeft(s: string, ws: char -> bool): (r: string)
    ensures |r| <= |s| && r == s[|s| - |r|..]
    ensures r == [] || !ws(r[0])
    ensures AllSpace(s[..|s| - |r|], ws)
  {
    s[LeadingSpace(s, ws)..]
  }

  /** Drops the trailing characters that satisfy `ws`. */
  function StripRight(s: string, ws: char -> bool): (r: string)
    ensures |r| <= |s| && r == s[..|r|]
    ensures r == [] || !ws(r[|r| - 1])
    ensures AllSpace(s[|r|..], ws)
  {
    s[..|s| - TrailingSpace(s, ws)]
  }

  /** Python's `s.strip()` when `ws` is `PyIsSpace`, JavaScript's `s.trim()` when it is `JsIsSpace`. */
  function Strip(s: string, ws: char -> bool): (r: string)
    ensures |r| <= |s|
    ensures r == [] || (!ws(r[0]) && !ws(r[|r| - 1]))
  {
    var l := StripLeft(s, ws);
    var r := StripRight(l, ws);
    assert r != [] ==> r[0] == l[0];
    r
  }

  /** `Strip` removes whitespace only at the two ends and keeps everything in between. */
  lemma StripIsInfix(s: string, ws: char -> bool)
    ensures var r := Strip(s, ws);
      var i := |s| - |StripLeft(s, ws)|;
      && i + |r| <= |s| && r == s[i..i + |r|]
      && AllSpace(s[..i], ws) && AllSpace(s[i + |r|..], ws)
  {
    var l := StripLeft(s, ws);
    var r := StripRight(l, ws);
    var i := |s| - |l|;
    assert r == s[i..i + |r|] by {
      assert l == s[i..] && r == l[..|r|];
    }
    assert AllSpace(s[i + |r|..], ws) by {
      assert s[i + |r|..] == l[|r|..];
    }
  }

  /** A string that neither starts nor ends with whitespace strips to itself. */
  lemma StripClean(s: string, ws: char -> bool)
    requires s == [] || (!ws(s[0]) && !ws(s[|s| - 1]))
    ensures Strip(s, ws) == s
  {
    assert LeadingSpace(s, ws) == 0;
    assert TrailingSpace(s, ws) == 0;
  }

  /** A string strips to nothing exactly when it is all whitespace. */
  lemma StripEmptyIff(s: string, ws: char -> bool)
    ensures Strip(s, ws) == [] <==> AllSpace(s, ws)
  {
    var l := StripLeft(s, ws);
    assert s == s[..|s| - |l|] + l;
  }

  /** `s` cut to its first `n` characters with "..." appended, when it is longer than `n`. */
  function Preview(s: string, n: nat): (r: string)
    ensures |s| <= n ==> r == s
    ensures |s| > n ==> |r| == n + 3 && r[..n] == s[..n] && r[n..] == "..."
  {
    if |s| > n then s[..n] + "..." else s
  }

  function DigitChar(d: nat): char
    requires d < 10
  {
    ('0' as int + d) as char
  }

  /** The decimal spelling of `n`, as JavaScript's template literals print it. */
  function NatToString(n: nat): (r: string)
    ensures |r| >= 1
    ensures forall i :: 0 <= i < |r| ==> '0' <= r[i] <= '9'
  {
    if n < 10 then [DigitChar(n)] else NatToString(n / 10) + [DigitChar(n % 10)]
  }
}

=== FILE: wrappers.dfy ===
/** Failure-carrying values shared by every module of the model. */
module Wrappers {

  /** A value that may be missing: Python's `None`, JavaScript's `undefined`. */
  datatype Option<+T> = None | Some(value: T)

  /** A value or the error a call raised instead. */
  datatype Result<+T, +E> = Ok(value: T) | Err(error: E)

  /** Python's truth test on an optional request field: present and not the empty string. */
  predicate Truthy(v: Option<string>)
  {
    v.Some? && v.value != ""
  }

  function Min(a: nat, b: nat): nat
  {
    if a <= b then a else b
  }
}
